=== FILE: README.md ===
# ezocl, modelled in Dafny

This project models the resource and timing layer of SkymeFactor/Parallel-Computing, a small C++ wrapper over OpenCL called `ezocl`, together with the pure helpers of the lab drivers built on it.

**How the device layer is modelled.** Every OpenCL handle is a present/absent slot. Every profiling event is named by the position, in a call log, of the call that recorded it. An oracle `Api` decides two things: whether the call at a given log position reports an error, and which `(start, end)` pair of 64-bit timestamps a given event carries. A C++ call that may throw after it has already changed some state becomes an `Outcome`: either `Returned(state, calls, value)` or `Raised(state, calls, failure)`. Either way, the outcome carries the state left behind and the calls issued.

The modules follow the source:

| module | file | what it models |
|---|---|---|
| `Common` | common.dfy | 64-bit unsigned arithmetic, `Option`, `Result`, `Step`, small integer lemmas |
| `Runtime` | runtime.dfy | buffer modes, OpenCL calls, the `Api` oracle, failure messages, `Outcome` |
| `Devices` | devices.dfy | `Device::init_properties` classification, `operator<`, `Device::releaseHandle` |
| `Catalog` | catalog.dfy | `DeviceManager`: lazy discovery, caching, sorting, discovery errors |
| `Buffers` | buffers.dfy | `Buffer`: acquire, release, transfer-time queries, `getPointer`/`getSize` |
| `Kernels` | kernels.dfy | `Kernel`: argument acquire/release/binding, kernel handle, launch |
| `Timing` | timing.dfy | `getExecutionTime` with its cache, `getTotalTime` with its sentinel wrap-around |
| `Sessions` | session.dfy | `Program` state and `Program::teardown` |
| `Programs` | program.dfy | `Program::execute` and the program object's lifetime (execute, then the destructor) |
| `NDRange` | ndrange.dfy | `makeGlobalNDRange` |
| `Vectors` | vectors.dfy | `prefixSumCPU`, `make_zero_padding`, `remove_padding`, `compareVectors` |
| `Matrices` | matrix.dfy | both versions of the bounds-checked `Matrix` |
| `PrefixDriver` | prefix_driver.dfy | the prefix-sum `main`: padding, device choice, kernels, output, timing line |
| `Histograms` | histogram.dfy | both histogram functions and the thread-count argument |
| `P5` | p5.dfy | `read_P5_image_from_file`, as a parser over the bytes of the file |

**Shared buffers.** A kernel's arguments are indices into one store of buffers that all kernels of a program share. This follows the driver: ocl_lab-2/src/main.cpp:69-77 and :87-90 hand the same `std::shared_ptr<Buffer>` objects to both kernels. The `Kernel` constructor at src/include/ezocl_core.h:164 instead wraps each argument in a fresh `make_shared<Buffer>`, which does not fit what the driver passes.

**Two behaviours of the code that a reader might not expect:**
- A discovery that fails partway keeps a partial result. The loop at src/ezocl/DeviceManager.cpp:38-50 appends each platform's devices to the static list before the next platform's query can throw, and the sort at :51 is then skipped. The next `getDevices` (:55-63) finds the list non-empty and returns those devices, unsorted, without querying again (`Catalog.PartialDiscoveryCached`).
- `execute` ends with `teardown` (ocl_lab-2/src/ezocl/Program.cpp:48-56), and the destructor at src/include/ezocl_core.h:215 calls it again. The second call releases no handle twice, because every release clears its handle (`Sessions.TeardownAgain`). It does append a second round of per-kernel totals (`Programs.Lifetime`).

## Model

| member | source | states |
|---|---|---|
| NDRange.DoubleNearest | src/include/ezocl_core.h:64-65 | `std::ceil` first converts the `size_t` to a `double`: the result is a multiple of the spacing of the doubles around the operand, at most half a spacing away from it, and the operand itself when it is such a multiple, in particular below 2^53 |
| NDRange.ExactMultiple | src/include/ezocl_core.h:64-65 | a multiple of `2^k` below `2^(53 + k)` passes through the conversion unchanged |
| NDRange.MaxDoesNotConvert | src/include/ezocl_core.h:64-65 | `ULONG_MAX` becomes the double 2^64, which converts back to no `size_t` (the conversion back is undefined there) |
| NDRange.RoundUp | src/include/ezocl_core.h:64-66 | the rounding acts on the converted operands: a converted dimension that is a multiple of the converted local size comes back as it is, so below 2^53 a multiple comes back unchanged |
| NDRange.RoundUpIsLeast | src/include/ezocl_core.h:64-66 | when the sum does not wrap, the rounded size is the least multiple of the converted local size that is at least the converted dimension, and exceeds it by less than that local size |
| NDRange.RoundUpExact | src/include/ezocl_core.h:64-66 | for operands below 2^53 the rounded size is the least multiple of `local` that is at least `dim`, and exceeds `dim` by less than `local` |
| NDRange.RoundUpIdempotent | src/include/ezocl_core.h:64-66 | while `dim + local` stays below 2^53, rounding an already rounded size changes nothing |
| NDRange.RoundUpBelowDimension | src/include/ezocl_core.h:64-66 | past 2^53 the result can be smaller than the dimension: `2^53 + 1` with local size 2 gives `2^53` |
| NDRange.RoundUpWraps | src/include/ezocl_core.h:66 | the `size_t` sum can wrap: `2^64 - 2048`, a double, rounded up to a multiple of `2^63` gives 0 |
| NDRange.MakeGlobalNDRange | src/include/ezocl_core.h:58-71 | the result has one entry per local size; each given dimension is rounded up to its local size after both went through `std::ceil`, as the least such multiple when nothing wraps and exactly so for operands below 2^53; entries with no dimension stay 0 |
| Devices.Classify | ocl_lab-1/src/ezocl/Device.cpp:27-35 | raw type exactly CPU gives CPU; exactly GPU gives iGPU with host-unified memory and dGPU without; every other raw value, combined bitmasks included, gives UNKNOWN; each in both directions |
| Devices.MakeDevice | ocl_lab-1/src/ezocl/Device.cpp:8-36 | a wrapped device keeps its handle and platform, and its class is the classification of its raw type and memory flag |
| Devices.LessIsStrictWeakOrder | ocl_lab-1/src/ezocl/Device.cpp:39-41 | `operator<` is irreflexive, transitive and asymmetric; two devices are incomparable exactly when they have the same class |
| Devices.PreferenceOrder | src/include/ezocl_core.h:30-35 | dGPU < iGPU < CPU < UNKNOWN |
| Devices.ReleaseDevice | src/include/ezocl_core.h:102 | the handle is cleared, a release call is issued exactly when a handle was present, and the platform, raw type and classification are kept |
| Devices.ReleaseDeviceIdempotent | src/include/ezocl_core.h:102 | a second release issues no call and changes nothing |
| Catalog.ListPlatformsOp | src/ezocl/DeviceManager.cpp:20-31 | the count query, then the list query; on success the platforms are the driver's; a failing query raises that query's message and stops |
| Catalog.ScanOne | src/ezocl/DeviceManager.cpp:38-49 | one platform: count then list its devices; on success that platform's devices, wrapped, are appended; the device list is untouched when a query fails |
| Catalog.Scan | src/ezocl/DeviceManager.cpp:38-50 | platform by platform; on success the device list grows by every platform's devices in platform order; of the discovery queries only device counts and device lists are logged, every one of them succeeded, and a failure carries the failing query's message (the `clReleaseDevice` calls of destroyed `Device` copies are not logged, see "Left out") |
| Catalog.SortDevices | src/ezocl/DeviceManager.cpp:51 | the result is sorted by preference and is a permutation of the input |
| Catalog.ListDevicesOp | src/ezocl/DeviceManager.cpp:34-52 | on success the device list is sorted and is a permutation of the earlier list plus every discovered device |
| Catalog.Discover | src/ezocl/DeviceManager.cpp:55-61 | platforms are listed only when none are known; on success the devices are sorted and are exactly the discovered ones |
| Catalog.GetDevices | src/ezocl/DeviceManager.cpp:55-64 | a non-empty cache is returned unchanged with no query; an empty one triggers discovery, whose success returns the sorted discovered devices and whose failure raises the failing query's message |
| Catalog.PartialDiscoveryCached | src/ezocl/DeviceManager.cpp:38-60 | when the second platform's count query fails, the first platform's devices stay cached unsorted, and the next request returns them without querying |
| Buffers.ArgOf | src/include/ezocl_core.h:144-145 | a scalar is bound by its own host pointer and size; any memory mode is bound by its handle's address with `sizeof(cl_mem)` bytes |
| Buffers.Acquire | src/ezocl/Buffer.cpp:8-19 | nothing happens for a scalar or an already held buffer; otherwise one memory object of the buffer's size is created with the mode as its flags, and a non-blocking upload recording event slot 0 follows exactly for the input modes; each failure raises its message |
| Buffers.AcquireIdempotent | src/ezocl/Buffer.cpp:9 | after a returning acquire, a second acquire (by a kernel sharing the buffer) issues no call and changes nothing |
| Buffers.Release | src/ezocl/Buffer.cpp:22-36 | both recorded events are released first; with memory held, output modes get a blocking download that re-populates slot 1, then the memory is released; the memory is gone exactly when the release returns |
| Buffers.ReleaseIdempotent | src/ezocl/Buffer.cpp:25 | a second release downloads nothing and frees no memory; it only releases the download event the first one recorded |
| Buffers.ReleaseCallsKinds | src/ezocl/Buffer.cpp:22-36 | a release touches only its own buffer: its recorded events, its download, its memory |
| Buffers.ReleaseEventsFirst | src/ezocl/Buffer.cpp:23-24 | slot 0's event is released first, then slot 1's, each only when recorded, and no event release follows them |
| Buffers.ReleaseCallsTransfers | src/ezocl/Buffer.cpp:25-35 | the download is issued exactly for held output modes, and the memory is released exactly when held and the download did not fail |
| Buffers.ReleaseDownloadEvent | src/ezocl/Buffer.cpp:29-30 | the recorded download event is the blocking read that release issued |
| Buffers.TransferTo | src/ezocl/Buffer.cpp:39-51 | without an upload event, the sentinel `(ULONG_MAX, 0)` and no call; otherwise one profiling query, whose failure raises, returning the event's stamps |
| Buffers.TransferFrom | src/ezocl/Buffer.cpp:54-66 | the same for the download event |
| Kernels.NewKernel | src/include/ezocl_core.h:150-165 | a fresh kernel has no handle, no event and a zero execution time, and keeps its name, work sizes and arguments |
| Kernels.EnqueueArgs | src/ezocl/Kernel.cpp:10-13 | acquires every argument in argument order, creating memory only for arguments not yet held, and leaves every argument held on success; a buffer shared with an earlier holder is not created again; the calls are, argument by argument, each not-yet-held buffer's creation followed by its upload exactly for the input modes, a prefix of that on a throw and all of it on return, and every upload's event is the one at its own log position |
| Kernels.ReleaseArgs | src/ezocl/Kernel.cpp:16-19 | releases every argument in argument order, frees each held argument exactly once even when shared, touches no other buffer, and leaves every argument without memory on success |
| Kernels.SetArgs | src/ezocl/Kernel.cpp:22-29 | binds argument `i` at index `i` with that buffer's pointer and size, attempts every bind, and raises one error exactly when some bind failed |
| Kernels.AcquireHandle | src/ezocl/Kernel.cpp:35-40 | one kernel creation; the handle is present exactly when it succeeded, and failure raises |
| Kernels.ReleaseHandle | src/ezocl/Kernel.cpp:43-46 | releases the launch event first and then the kernel handle, each exactly when present, and clears both |
| Kernels.ReleaseHandleIdempotent | src/ezocl/Kernel.cpp:43-46 | a second release issues no call and changes nothing |
| Kernels.RunKernel | src/ezocl/Kernel.cpp:52-57 | one launch with as many dimensions as global sizes; on success its event is recorded, on failure nothing changes and the launch error is raised |
| Timing.ExecutionTime | src/ezocl/Kernel.cpp:63-76 | with no event or a non-zero cache, the cache and no call; otherwise one query, whose failure raises, and the cached `end - start` modulo 2^64 |
| Timing.ExecutionTimeCached | src/ezocl/Kernel.cpp:64 | a non-zero time, once obtained, is served again with no query |
| Timing.ExecutionTimeZeroRequeried | src/ezocl/Kernel.cpp:64 | a launch that took exactly zero time is queried again on every later call |
| Timing.ExecutionTimeWraps | src/ezocl/Kernel.cpp:74 | an end stamp before the start stamp wraps around instead of going negative |
| Timing.HullBounds | src/ezocl/Kernel.cpp:83-91 | the min-start/max-end bounds enclose every event's stamps and are attained by some event |
| Timing.TotalTime | src/ezocl/Kernel.cpp:79-94 | returns exactly when every transfer query and the execution-time query succeed; the value is upload span + execution time + download span modulo 2^64; only profiling queries are issued |
| Timing.CoverInitial | src/ezocl/Kernel.cpp:80-81 | the sentinel starting bounds are neutral for the min/max aggregation |
| Timing.TotalTimeNoTransfers | src/ezocl/Kernel.cpp:79-94 | with no recorded transfer, each empty direction contributes `0 - ULONG_MAX` wrapped, which is 1, so the total is execution time + 2 |
| Sessions.NewSession | src/include/ezocl_core.h:189-194 | a fresh program holds no context, queue or program handle, and empty time lists |
| Sessions.TotalsFrom | ocl_lab-2/src/ezocl/Program.cpp:49 | appends each kernel's total in order, changing only time fields and issuing only profiling queries |
| Sessions.ReleaseAllFrom | ocl_lab-2/src/ezocl/Program.cpp:51 | releases the arguments of every kernel in one pass, changing only buffers; on success no argument holds memory |
| Sessions.HandlesFrom | ocl_lab-2/src/ezocl/Program.cpp:53 | releases each kernel's handle and event exactly when present, and clears them |
| Sessions.Closing | ocl_lab-2/src/ezocl/Program.cpp:52-55 | queue, then kernel handles, then program, then context, each session handle released once exactly when present |
| Sessions.Dismantle | ocl_lab-2/src/ezocl/Program.cpp:51-55 | the releases of teardown in their fixed stage order; on success every handle is gone and every session handle present before is released exactly once |
| Sessions.Teardown | ocl_lab-2/src/ezocl/Program.cpp:48-56 | totals strictly before any release; on success one total per kernel is appended and everything is released; session handles are released at most once and only on success; a non-zero cached execution time is kept |
| Sessions.TeardownAgain | src/include/ezocl_core.h:215 | the destructor's teardown after a completed one releases only transfer events and issues only profiling queries: no handle is released twice |
| Programs.Setup | ocl_lab-2/src/ezocl/Program.cpp:13-31 | context, queue, program, build, in this order; it returns exactly when none of the four fails, and a failure raises that step's message and skips every later step |
| Programs.Launch | ocl_lab-2/src/ezocl/Program.cpp:37-40 | kernel creation, then every bind, the launch and, unless the time is cached, the query of that launch's event: the calls are a prefix of this sequence, all of it on return; on success the kernel is launched, its event is the launch's log position, and its time is the elapsed stamp or the cache |
| Programs.Fire | ocl_lab-2/src/ezocl/Program.cpp:38-40 | every argument bound at its index, then the launch, then, unless the time is cached, the query of the launch's event; a prefix of this on a throw, all of it on return |
| Programs.DispatchOne | ocl_lab-2/src/ezocl/Program.cpp:36-40 | the calls are the arguments' acquisitions (creation and, for the input modes, upload of each argument not yet held), then kernel creation, binds, launch and the time query of that launch: a prefix of this on a throw, all of it on return; on success exactly one execution time, this kernel's, is appended and the kernel's arguments are held |
| Programs.AcquireFollows | ocl_lab-2/src/ezocl/Program.cpp:36 | an `enqueueArgs` that throws has issued a prefix of the iteration's planned calls, all of them kernel-free dispatch calls |
| Programs.KernelPlanJoin | ocl_lab-2/src/ezocl/Program.cpp:36-40 | all planned acquisitions followed by a prefix of the launch plan (planned in the store they left) is a prefix of the iteration's plan, all of it when the launch is whole |
| Programs.LaunchFollows | ocl_lab-2/src/ezocl/Program.cpp:36-40 | a returning `enqueueArgs` followed by a launch follows the iteration's plan and leaves the store the plan of the next kernel expects |
| Programs.DispatchAll | ocl_lab-2/src/ezocl/Program.cpp:35-41 | the calls follow the loop's plan: each kernel's whole iteration, planned in the store the earlier kernels left, after the whole of the previous kernel's, a prefix of this on a throw and all of it on return; on success every kernel is launched and time `j` is kernel `j`'s |
| Programs.DispatchPlanStep | ocl_lab-2/src/ezocl/Program.cpp:35-41 | a prefix of the first kernel's iteration plan, followed when it is whole by a prefix of the rest's plan, is a prefix of the loop's plan |
| Programs.DispatchFollows | ocl_lab-2/src/ezocl/Program.cpp:35-41 | kernel `i`'s calls on its plan, then calls on the plan of the loop from `i + 1` in the session it left, are on the plan of the loop from `i` |
| Programs.Close | ocl_lab-2/src/ezocl/Program.cpp:44-55 | `teardown` alone, as `execute` calls it after its wait and the destructor (src/include/ezocl_core.h:215) calls it with no wait: the execution-time list is unchanged and a non-zero cached time is kept; on return one total per kernel is appended and the held session handles are released; a throw leaves the session handles as they were and carries a totals or release message |
| Programs.Execute | ocl_lab-2/src/ezocl/Program.cpp:8-45 | on success the log starts with the four creation calls, all three session handles were created, one execution time and one total per kernel are appended and everything is released; when creation call `k` is the first to fail, the log is the creation calls up to `k` and the message is step `k`'s; when none fails any throw carries a later step's message; entry `j` of the appended execution times is kernel `j`'s cached time, and only a zero time, which is no cache, can have been measured again by `teardown`; session handles are released exactly once on success and never on failure |
| Programs.Open | ocl_lab-2/src/ezocl/Program.cpp:13-31 | the creation calls in order; when call `k` is the first to fail, exactly calls `0..k` are issued and step `k`'s message is raised |
| Programs.FirstFailure | ocl_lab-2/src/ezocl/Program.cpp:13-31 | the index of the first failing creation call, 4 exactly when none fails |
| Programs.CreationFailureRaises | ocl_lab-2/src/ezocl/Program.cpp:13-31 | when creation call `k` is the first to fail, `execute` raises step `k`'s message having issued exactly the creation calls up to `k` |
| Programs.Run | ocl_lab-2/src/ezocl/Program.cpp:35-44 | the dispatch loop, the wait and `teardown`: on success the wait splits the log and every time is appended, entry `j` being kernel `j`'s time unless it was zero; a throw carries a later step's message and leaves the session handles as they were |
| Programs.Lifetime | src/include/ezocl_core.h:201-215 | execute, then the destructor's teardown: every created session handle is released exactly once unless the destructor throws; a returning execute followed by destruction leaves two totals per kernel |
| Vectors.PrefixSum | src/include/utilities.h:35-46 | same length as the input, and entry `i` is the sum of the first `i + 1` elements |
| Vectors.PrefixSumSteps | src/include/utilities.h:40-43 | the scan starts with the first element and adds one element per step |
| Vectors.ZeroPad | src/include/utilities.h:134-143 | for inputs below 2^32 elements: length `|v| + pad`, `v` as prefix, zeros after |
| Vectors.RemovePadding | src/include/utilities.h:145-154 | for results below 2^32 elements, succeeds exactly when `pad <= |v|`, giving the first `|v| - pad` elements; a longer pad wraps the unsigned size to a length no vector can have, and the constructor throws |
| Vectors.PaddingRoundTrip | src/include/utilities.h:134-154 | removing the pad that was added gives the vector back |
| Vectors.CompareVectors | src/include/utilities.h:69-85 | true exactly when the sizes agree and every element pair is close |
| Matrices.SetSize | src/include/Matrix.h:32-38 | the dimensions are set and the storage holds `h * w` (32-bit) zeros |
| Matrices.SetSizeNoResizing | src/include/Matrix.h:40-43 | only the dimensions change, so the storage fits them exactly when it already held `h * w` elements |
| Matrices.At | src/include/Matrix.h:14-30 | an access succeeds exactly when both indices are in range; the row check comes first |
| Matrices.Store | src/include/Matrix.h:14-30 | a write has the same checks and keeps the dimensions and storage length |
| Matrices.SizeInBytes | src/include/Matrix.h:47 | `width * height * sizeof(T)` when that fits in 32 bits |
| Matrices.RowMajor | src/include/Matrix.h:29 | in a well-shaped matrix an in-range element sits at `i * width + j`, inside the storage |
| Matrices.AtRowMajor | src/include/Matrix.h:26-30 | an in-range read returns the row-major element |
| Matrices.OffsetInjective | src/include/Matrix.h:29 | distinct in-range index pairs address distinct elements |
| Matrices.OffsetCovers | src/include/Matrix.h:29 | every storage slot is the element of some in-range index pair |
| Matrices.SetSizeShaped | src/include/Matrix.h:32-38 | after `setSize`, every in-range element reads as zero |
| Matrices.StoreThenAt | src/include/Matrix.h:14-30 | a stored element reads back, and every other element is unchanged |
| Matrices.UnsignedIndexChecks | ocl_lab-1/src/include/Matrix.h:14-28 | in the unsigned variant a row index at or past the height raises the row error, a column index at or past the width raises the column error, otherwise the row-major element is read |
| Matrices.NoResizingUnshapes | src/include/Matrix.h:40-43 | `setSizeNoResizing` can leave storage that does not fit the dimensions |
| PrefixDriver.PaddedSize | ocl_lab-2/src/main.cpp:50-51 | the padded length is a multiple of 512, strictly above `n` and at most 512 above it |
| PrefixDriver.SpreadsWhenLong | ocl_lab-2/src/main.cpp:85 | the spread kernel is added exactly when `n >= 512` |
| PrefixDriver.PickDevice | ocl_lab-2/src/main.cpp:63-64 | an empty device list is an error; a valid index is kept, and an index past the last device becomes 0 |
| PrefixDriver.WholeBlocks | ocl_lab-2/src/main.cpp:75-89 | both global sizes are already multiples of their local sizes |
| PrefixDriver.MakeKernels | ocl_lab-2/src/main.cpp:73-92 | the prefix kernel over all blocks, plus the spread kernel exactly when there is more than one block, with the work sizes rounding leaves unchanged; the padded `float` vector being addressable keeps both global sizes exact doubles |
| PrefixDriver.Prepare | ocl_lab-2/src/main.cpp:23-94 | argument-count, number and empty-device errors in this order; on success the padded length, `padded / 512` block sums, the chosen device, the kernels and the three shared buffers |
| PrefixDriver.Output | ocl_lab-2/src/main.cpp:131 | the saved output is exactly the first `n` device outputs |
| PrefixDriver.ExecuteTimeLists | ocl_lab-2/src/main.cpp:94-106 | a returning `execute` of a fresh program leaves one execution time and one total per kernel |
| PrefixDriver.ReportAsWritten | ocl_lab-2/src/main.cpp:123-127 | the printed line is kernel times `[0] + [1]`, then total `[0]` plus kernel time `[1]`; it is defined exactly when those entries exist |
| PrefixDriver.ShortInputOverreads | ocl_lab-2/src/main.cpp:100-127 | for an input below 512 elements the one-kernel program leaves one time each, so the line as written reads past the end, while the intended report shows that kernel's two times |
| PrefixDriver.TotalUsesKernelTime | ocl_lab-2/src/main.cpp:126-127 | with two kernels the second figure is total `[0]` plus kernel time `[1]`; for a second kernel whose total and time are those of `getTotalTime` and `getExecutionTime`, it equals the sum of both totals exactly when that kernel's upload and download spans add up to 0 modulo 2^64, which never happens when it has no transfers (its total is then its time plus 2) |
| PrefixDriver.Report | ocl_lab-2/src/main.cpp:123-127 | the line without the overread: with one kernel its two times; with two kernels exactly the line as written |
| PrefixDriver.LongInputReport | ocl_lab-2/src/main.cpp:85-127 | after a returning two-kernel `execute` the line as written is defined and is the corrected line: total `[0]` plus kernel time `[1]` |
| PrefixDriver.ReportOf | ocl_lab-2/src/main.cpp:123-127 | on one or two kernels the line as written is defined exactly for two, where the corrected line agrees with it; for one kernel the corrected line shows its two times |
| Histograms.HistogramNoOmp | omp_lab-2/src/main.cpp:66-76 | `max_val + 1` bins; bin `v` counts the bytes equal to `v`, and the bins sum to the data length |
| Histograms.CountChunks | omp_lab-2/src/main.cpp:21-32 | for any assignment of 4-byte chunks to thread slices, the slices together count every byte of the unrolled part exactly once |
| Histograms.CountRemainder | omp_lab-2/src/main.cpp:34-39 | the fall-through switch counts the last `n mod 4` bytes, in thread 0's slice |
| Histograms.MergeSlice | omp_lab-2/src/main.cpp:45-57 | the unrolled loop and its fall-through switch add every bin of one slice exactly once |
| Histograms.Merge | omp_lab-2/src/main.cpp:41-58 | each result bin is the sum of that bin over all thread slices |
| Histograms.HistogramOmp | omp_lab-2/src/main.cpp:10-63 | the parallel histogram counts every byte value exactly as the sequential definition does |
| Histograms.SameHistogram | omp_lab-2/src/main.cpp:10-76 | both histogram functions give the same bins |
| Histograms.ChooseSchedule | omp_lab-2/src/main.cpp:79-95 | a wrong argument count or a thread count below -1 is rejected, the count first; -1 selects the sequential function, 0 the default threads, any other value that many threads |
| P5.SkipSpace | omp_lab-2/src/P5_Image.cpp:17 | drops exactly the leading whitespace bytes |
| P5.ReadWord | omp_lab-2/src/P5_Image.cpp:13 | the skipped input is the word followed by the rest |
| P5.ReadNumber | omp_lab-2/src/P5_Image.cpp:17 | fails exactly when no digit follows the whitespace or the value does not fit an `unsigned`; on success the rest starts with a non-digit |
| P5.Raster | omp_lab-2/src/P5_Image.cpp:22-29 | exactly `count` bytes; the input's first `count` bytes when it holds that many |
| P5.Header | omp_lab-2/src/P5_Image.cpp:10-20 | open failure, then a first word other than "P5", then the numbers, then `max_val > 255`, each with its own message; on success the header's maximum value is at most 255 |
| P5.ReadAsWritten | omp_lab-2/src/P5_Image.cpp:5-34 | succeeds exactly when the header does, and then holds exactly `width * height` (32-bit) bytes |
| P5.Read | omp_lab-2/src/P5_Image.cpp:5-34 | the same for the reader that drops one separator byte |
| P5.NumberBack | omp_lab-2/src/P5_Image.cpp:17 | a number written in decimal after whitespace reads back |
| P5.HeaderBack | omp_lab-2/src/P5_Image.cpp:10-20 | the header of an encoded image reads back |
| P5.RoundTrip | omp_lab-2/src/P5_Image.cpp:5-34 | reading an encoded image gives the image back |
| P5.WhitespacePixelLost | omp_lab-2/src/P5_Image.cpp:17 | the reader as written loses a leading raster byte that is a whitespace code, where the intended reader gives the image back |

## Left out

- The OpenCL calls themselves. Each call is a log entry. An oracle says whether it fails and which stamps its event carries. Device names and vendors are not modelled.
- Console printing, the `DEBUG` blocks, the build log, and the `report_failure`/`handle_exception` exits. An error result stands for the exit.
- File I/O: reading the kernel source in the `Program` constructor, `parse_vector_file`, `save_vector_to_file` and histogram saving. `Prepare` takes the vector length and the parsed device number as inputs. `P5.Read` takes the file's bytes and whether it opened.
- `std::stoul` and `std::atoi`. Their results, or the fact that `stoul` threw, are inputs.
- `is_close` compares floats through type-punning. It is an abstract closeness predicate passed to `CompareVectors`.
- Floating point. Elements are integers, and reported times are exact integers with no `double` conversion or division.
- `generate_test_data`, the OpenMP estimator and the plotting scripts: randomness, clocks and floating point.
- The OpenMP parallel region. Each 4-byte chunk is assigned to a thread slice by an arbitrary `owner` sequence. Each slice is a separate sequence rather than the flat `thr * len + v` array.
- Histograms.HistogramNoOmp: the bins are unbounded naturals. The source counters are 32-bit but cannot wrap for inputs below 2^32 bytes.
- Shared ownership. Buffers live in one store and kernels hold their indices. This stands for the `shared_ptr` copies, so two kernels holding one buffer share its state.
- Kernels.ReleaseArgs: on a raised release the contract says the failure is a download or a memory-release failure, not which buffer's.
- Programs.Lifetime: a `teardown` that throws inside the destructor terminates the process. The model records it as a `fault` and draws no conclusion past it.
- Sessions.TeardownAgain: it takes any totals-loop result that changes only time fields and issues only profiling queries, rather than the concrete `TotalsFrom` outcome.
- Catalog.SortDevices: `std::sort` is not stable. The model sorts by insertion and claims only what any sort gives: sorted by class, and a permutation.
- Catalog messages are strings, as `check_errors` builds them. The other layers use a `Failure` enumeration whose `Text` is the source's message.
- The default-constructed `Matrix`, whose dimensions are uninitialised, is not modelled. Element values are integers.
- Matrices.At: an in-range index of a matrix whose storage is too small (after `setSizeNoResizing`) is undefined behaviour in C++. The model requires that the storage covers it.
- P5.ReadNumber: a missing or overflowing header number leaves the C++ stream failed and the field zero or unspecified. The model stops with a header error instead. Signs, which `>>` into `unsigned` accepts, are not modelled.
- P5.ReadAsWritten: the raster loop's `int` index compared with the `unsigned` product is not modelled past 2^31 pixels.
- Vectors.ZeroPad: the copy loop at src/include/utilities.h:138 compares an `unsigned` index with the `size_t` size, so for a vector of 2^32 or more elements it never ends. The model returns the padded vector for every length. The driver's vectors hold an `unsigned` count, so it never reaches this.
- Vectors.RemovePadding: the copy loop at src/include/utilities.h:149 never ends once `|v| - pad` reaches 2^32, for the same reason. The model's "succeeds exactly when `pad <= |v|`" holds only for results below 2^32 elements.
- Vectors.CompareVectors: its `unsigned` loop index wraps only for vectors of 2^32 or more elements, which is not modelled.
- Catalog.Scan: the `clReleaseDevice` calls that `~Device` (src/include/ezocl_core.h:96, 102) issues for every destroyed copy are not logged. A copy dies for the temporary at DeviceManager.cpp:47, for each element moved when the vector regrows, for the temporaries of `std::sort` at :51, for the by-value result of `getDevices` at :63, and for the by-value device of the `Program` constructor (ezocl_core.h:201-202). Their number depends on the standard library's growth policy and sort algorithm. The handles are root devices from `clGetDeviceIDs`, and from OpenCL 1.2 on releasing a root device leaves its reference count unchanged, so the calls change no modelled state; their return codes are ignored.
- NDRange.MakeGlobalNDRange: an operand whose `double` is 2^64 (every value from `2^64 - 1024` up) has no `size_t` value to convert back to. That is undefined behaviour, and the model requires every operand to convert (`Converts`; `MaxDoesNotConvert` shows `ULONG_MAX` does not). The `unsigned` dimension counter is not modelled, since a call never has 2^32 dimensions.
- PrefixDriver.Prepare: the input length is bounded so that the padded `float` vector's size in bytes is a `size_t`. A longer input could not have been held in memory in the first place.
- Device::init_properties ignores the return codes of `clGetDeviceInfo`. Only the classification is modelled.

## Findings

| source | as written | input that shows it | evidently intended | confidence | as-written member | corrected member |
|---|---|---|---|---|---|---|
| ocl_lab-2/src/main.cpp:100-127 | the timing line reads `kernel_time_ns[1]`, which the one-kernel branch never fills | a vector of fewer than 512 elements, so the one-kernel program runs and each time list has one entry | report the times of however many kernels ran: the one kernel's two times, and the two-kernel line unchanged | high (proved; not executed) | PrefixDriver.ShortInputOverreads | PrefixDriver.Report |
| omp_lab-2/src/P5_Image.cpp:17 | `>> std::ws` after the maximum value skips every whitespace byte, raster bytes included | a 1x2 image whose pixels are 32 and 5 reads back as 5, 5 | skip exactly the single whitespace byte the format puts before the raster | high (proved; not executed) | P5.WhitespacePixelLost | P5.RoundTrip |

=== FILE: buffers.dfy ===
/**
  `Buffer`: a kernel argument's device memory, its transfers and their
  profiling events. Buffers live in a shared store and are named by index,
  so several kernels can hold the same buffer.
 */
module Buffers {
  import opened Common
  import opened Runtime

  /** A buffer as constructed over host memory: no handle, no events. */
  function NewBuffer(host: nat, size: nat, mode: Mode): Buffer
  {
    Buffer(host, size, mode, false, None, None)
  }

  /** Nothing further to acquire: a scalar, or memory that already has a handle. */
  predicate Acquired(buf: Buffer)
  {
    buf.mode == InScalar || buf.mem
  }

  /** Only buffer `b` may differ between `a` and `c`, and `b` keeps its host memory, size and mode. */
  predicate OnlyTouches(a: seq<Buffer>, c: seq<Buffer>, b: nat)
  {
    && |a| == |c| && b < |a|
    && (forall j :: 0 <= j < |a| && j != b ==> c[j] == a[j])
    && c[b].host == a[b].host && c[b].size == a[b].size && c[b].mode == a[b].mode
  }

  /**
    `getPointer`/`getSize` as `clSetKernelArg` receives them: a scalar is
    passed by value, a memory argument as the address of its handle.
   */
  function ArgOf(bufs: seq<Buffer>, b: nat): (a: Arg)
    requires b < |bufs|
    ensures a.ByValue? <==> bufs[b].mode == InScalar
    ensures a.ByValue? ==> a.host == bufs[b].host && a.size == bufs[b].size
    ensures a.ByHandle? ==> a.buffer == b && a.size == HandleBytes
  {
    if bufs[b].mode == InScalar then ByValue(bufs[b].host, bufs[b].size) else ByHandle(b, HandleBytes)
  }

  /**
    `acquireHandle`: create the device memory once and, for input modes,
    enqueue the non-blocking upload and record its event in slot 0. Starts at
    log position `p`.
   */
  function Acquire(api: Api, p: nat, bufs: seq<Buffer>, b: nat): (r: Outcome<seq<Buffer>, ()>)
    requires b < |bufs|
    ensures OnlyTouches(bufs, r.st, b) && r.st[b].download == bufs[b].download
    ensures Acquired(bufs[b]) ==> r == Returned(bufs, [], ())
    ensures !Acquired(bufs[b]) ==> 1 <= |r.calls| <= 2 && r.calls[0] == CreateBuffer(b, bufs[b].size, Flags(bufs[b].mode))
    ensures forall i :: 0 < i < |r.calls| ==> r.calls[i] == WriteBuffer(b)
    ensures forall c :: c in r.calls ==> c == CreateBuffer(b, bufs[b].size, Flags(bufs[b].mode)) || c == WriteBuffer(b)
    ensures WriteBuffer(b) in r.calls <==> !Acquired(bufs[b]) && Uploads(bufs[b].mode) && !api.fails(p)
    ensures r.st[b].upload != bufs[b].upload ==> r.calls == [r.calls[0], WriteBuffer(b)] && r.st[b].upload == Some(p + 1)
    ensures r.Returned? ==> Acquired(r.st[b])
    ensures r.Returned? && !Acquired(bufs[b]) && Uploads(bufs[b].mode) ==> r.st[b].upload == Some(p + 1)
    ensures r.Raised? <==> !Acquired(bufs[b]) && (api.fails(p) || (Uploads(bufs[b].mode) && api.fails(p + 1)))
    ensures r.Raised? ==> r.msg == (if api.fails(p) then CreateBufferFailed else WriteBufferFailed)
    ensures r.Raised? ==> (r.st[b].mem <==> !api.fails(p))
  {
    var buf := bufs[b];
    var create := CreateBuffer(b, buf.size, Flags(buf.mode));
    if buf.mode == InScalar || buf.mem then Returned(bufs, [], ())
    else if api.fails(p) then Raised(bufs, [create], CreateBufferFailed)
    else if !Uploads(buf.mode) then Returned(bufs[b := buf.(mem := true)], [create], ())
    else if api.fails(p + 1) then Raised(bufs[b := buf.(mem := true)], [create, WriteBuffer(b)], WriteBufferFailed)
    else Returned(bufs[b := buf.(mem := true, upload := Some(p + 1))], [create, WriteBuffer(b)], ())
  }

  /** The event releases that open `realeaseHandle`: slot 0, then slot 1, each only if present. */
  function EventReleases(buf: Buffer, b: nat): seq<Call>
  {
    (if buf.upload.Some? then [ReleaseTransferEvent(b, buf.upload.value)] else [])
    + (if buf.download.Some? then [ReleaseTransferEvent(b, buf.download.value)] else [])
  }

  /**
    The calls that follow when the buffer holds memory and the first of them
    is at log position `p`: the blocking download of an output mode, which
    ends the release when it fails, then the release of the memory object.
   */
  function FreeCalls(api: Api, p: nat, buf: Buffer, b: nat): seq<Call>
  {
    if !Downloads(buf.mode) then [ReleaseMem(b)]
    else if api.fails(p) then [ReadBuffer(b)]
    else [ReadBuffer(b), ReleaseMem(b)]
  }

  /** All calls of `realeaseHandle` when it starts at log position `p`. */
  function ReleaseCalls(api: Api, p: nat, buf: Buffer, b: nat): seq<Call>
  {
    var ev := EventReleases(buf, b);
    ev + (if buf.mem then FreeCalls(api, p + |ev|, buf, b) else [])
  }

  /** The message the release step that issued `c` throws when `c` fails. */
  function ReleaseMessage(c: Call): Failure
  {
    if c.ReadBuffer? then ReadBufferFailed else ReleaseBufferFailed
  }

  /**
    `realeaseHandle`: release and clear both event slots; if there is a
    handle, download output modes with a blocking read that records slot 1,
    then free the memory. A failing step throws and keeps the handle.
   */
  function Release(api: Api, p: nat, bufs: seq<Buffer>, b: nat): (r: Outcome<seq<Buffer>, ()>)
    requires b < |bufs|
    ensures OnlyTouches(bufs, r.st, b)
    ensures r.calls == ReleaseCalls(api, p, bufs[b], b)
    ensures r.st[b].upload.None?
    ensures r.Returned? <==> !r.st[b].mem
    ensures !bufs[b].mem ==> r.Returned? && r.st[b].download.None?
    ensures r.st[b].download.Some? <==>
              bufs[b].mem && Downloads(bufs[b].mode) && !api.fails(p + |EventReleases(bufs[b], b)|)
    ensures r.st[b].download.Some? ==> r.st[b].download.value == p + |EventReleases(bufs[b], b)|
    ensures r.Raised? ==> && bufs[b].mem && |r.calls| > 0
                          && api.fails(p + |r.calls| - 1)
                          && r.msg == ReleaseMessage(r.calls[|r.calls| - 1])
  {
    var buf := bufs[b];
    var ev := EventReleases(buf, b);
    var q := p + |ev|;
    var cleared := buf.(upload := None, download := None);
    if !buf.mem then
      assert ev + [] == ev;
      Returned(bufs[b := cleared], ev, ())
    else if !Downloads(buf.mode) then
      if api.fails(q) then Raised(bufs[b := cleared], ev + [ReleaseMem(b)], ReleaseBufferFailed)
      else Returned(bufs[b := cleared.(mem := false)], ev + [ReleaseMem(b)], ())
    else if api.fails(q) then Raised(bufs[b := cleared], ev + [ReadBuffer(b)], ReadBufferFailed)
    else if api.fails(q + 1) then
      Raised(bufs[b := cleared.(download := Some(q))], ev + [ReadBuffer(b), ReleaseMem(b)], ReleaseBufferFailed)
    else Returned(bufs[b := cleared.(download := Some(q), mem := false)], ev + [ReadBuffer(b), ReleaseMem(b)], ())
  }

  /**
    `realeaseHandle` touches buffer `b` only: it releases `b`'s own recorded
    events, reads `b` back, or releases `b`'s memory.
   */
  lemma {:induction false} ReleaseCallsKinds(api: Api, p: nat, buf: Buffer, b: nat)
    ensures forall c :: c in ReleaseCalls(api, p, buf, b) ==>
              || c == ReadBuffer(b) || c == ReleaseMem(b)
              || (c.ReleaseTransferEvent? && c.buffer == b && (buf.upload == Some(c.event) || buf.download == Some(c.event)))
  {
    var ev := EventReleases(buf, b);
    var t := if buf.mem then FreeCalls(api, p + |ev|, buf, b) else [];
    assert ReleaseCalls(api, p, buf, b) == ev + t;
    forall c | c in ev + t
      ensures || c == ReadBuffer(b) || c == ReleaseMem(b)
              || (c.ReleaseTransferEvent? && c.buffer == b && (buf.upload == Some(c.event) || buf.download == Some(c.event)))
    {
      if c in ev {
        if buf.upload.Some? && c == ReleaseTransferEvent(b, buf.upload.value) {
        } else {
          assert buf.download.Some? && c == ReleaseTransferEvent(b, buf.download.value);
        }
      } else {
        assert c in t;
      }
    }
  }

  /**
    Every recorded event is released first: the release of slot 0 (if
    recorded) opens the calls, followed by that of slot 1 (if recorded).
   */
  lemma {:induction false} ReleaseEventsFirst(api: Api, p: nat, buf: Buffer, b: nat)
    ensures var s := ReleaseCalls(api, p, buf, b);
      && (buf.upload.Some? ==> s[0] == ReleaseTransferEvent(b, buf.upload.value))
      && (buf.download.Some? ==> |s| > 0 && s[if buf.upload.Some? then 1 else 0] == ReleaseTransferEvent(b, buf.download.value))
      && (forall i :: |EventReleases(buf, b)| <= i < |s| ==> !s[i].ReleaseTransferEvent?)
  {
    var ev := EventReleases(buf, b);
    var t := if buf.mem then FreeCalls(api, p + |ev|, buf, b) else [];
    var s := ev + t;
    assert ReleaseCalls(api, p, buf, b) == s;
    assert forall i :: 0 <= i < |t| ==> !t[i].ReleaseTransferEvent?;
    forall i | |ev| <= i < |s| ensures !s[i].ReleaseTransferEvent? {
      assert s[i] == t[i - |ev|];
    }
  }

  /**
    The download is issued exactly for a held output buffer, and the memory
    is released exactly when it was held and the download (if any) did not
    fail.
   */
  lemma {:induction false} ReleaseCallsTransfers(api: Api, p: nat, buf: Buffer, b: nat)
    ensures var s := ReleaseCalls(api, p, buf, b);
      && (ReadBuffer(b) in s <==> buf.mem && Downloads(buf.mode))
      && (ReleaseMem(b) in s <==> buf.mem && (Downloads(buf.mode) ==> !api.fails(p + |EventReleases(buf, b)|)))
  {
    var ev := EventReleases(buf, b);
    var t := if buf.mem then FreeCalls(api, p + |ev|, buf, b) else [];
    assert ReleaseCalls(api, p, buf, b) == ev + t;
    assert ReadBuffer(b) !in ev && ReleaseMem(b) !in ev;
    assert ReadBuffer(b) in ev + t <==> ReadBuffer(b) in t;
    assert ReleaseMem(b) in ev + t <==> ReleaseMem(b) in t;
  }

  /** A second acquire, by a kernel sharing the buffer, issues no call and changes nothing. */
  lemma AcquireIdempotent(api: Api, p: nat, q: nat, bufs: seq<Buffer>, b: nat)
    requires b < |bufs| && Acquire(api, p, bufs, b).Returned?
    ensures var st := Acquire(api, p, bufs, b).st;
      b < |st| && Acquire(api, q, st, b) == Returned(st, [], ())
  {
  }

  /**
    A second release frees nothing: it neither downloads nor releases memory,
    only releases the download event the first release recorded, and leaves
    both event slots empty.
   */
  lemma ReleaseIdempotent(api: Api, p: nat, q: nat, bufs: seq<Buffer>, b: nat)
    requires b < |bufs| && Release(api, p, bufs, b).Returned?
    ensures var st := Release(api, p, bufs, b).st;
      && b < |st|
      && var r := Release(api, q, st, b);
      && r == Returned(r.st, EventReleases(st[b], b), ())
      && ReadBuffer(b) !in r.calls && ReleaseMem(b) !in r.calls
      && r.st[b] == st[b].(download := None)
  {
    var st := Release(api, p, bufs, b).st;
    ReleaseCallsTransfers(api, q, st[b], b);
  }

  /** The recorded download event is the blocking read `realeaseHandle` issued. */
  lemma {:induction false} ReleaseDownloadEvent(api: Api, p: nat, bufs: seq<Buffer>, b: nat)
    requires b < |bufs|
    ensures var r := Release(api, p, bufs, b);
      r.st[b].download.Some? ==>
        && p <= r.st[b].download.value < p + |r.calls|
        && r.calls[r.st[b].download.value - p] == ReadBuffer(b)
  {
    var r := Release(api, p, bufs, b);
    var ev := EventReleases(bufs[b], b);
    if r.st[b].download.Some? {
      assert r.calls == ev + FreeCalls(api, p + |ev|, bufs[b], b);
      assert r.calls[|ev|] == ReadBuffer(b);
    }
  }

  /**
    `getTransferToDeviceTime`: the upload event's (start, end), or the
    sentinel `(CL_ULONG_MAX, 0)` when there was no upload; waiting for the
    event and reading both timestamps is one query whose failure throws.
   */
  function TransferTo(api: Api, p: nat, bufs: seq<Buffer>, b: nat): (r: Outcome<seq<Buffer>, (u64, u64)>)
    requires b < |bufs|
    ensures r.st == bufs
    ensures bufs[b].upload.None? ==> r == Returned(bufs, [], NoTransfer)
    ensures bufs[b].upload.Some? ==> r.calls == [QueryProfile(bufs[b].upload.value)] && (r.Raised? <==> api.fails(p))
    ensures r.Raised? ==> r.msg == UploadProfileFailed
    ensures r.Returned? && bufs[b].upload.Some? ==> r.value == api.stamp(bufs[b].upload.value)
  {
    match bufs[b].upload
    case None => Returned(bufs, [], NoTransfer)
    case Some(ev) =>
      if api.fails(p) then Raised(bufs, [QueryProfile(ev)], UploadProfileFailed)
      else Returned(bufs, [QueryProfile(ev)], api.stamp(ev))
  }

  /**
    `getTransferFromDeviceTime`: the download event's (start, end), or the
    sentinel `(CL_ULONG_MAX, 0)` when there was no download.
   */
  function TransferFrom(api: Api, p: nat, bufs: seq<Buffer>, b: nat): (r: Outcome<seq<Buffer>, (u64, u64)>)
    requires b < |bufs|
    ensures r.st == bufs
    ensures bufs[b].download.None? ==> r == Returned(bufs, [], NoTransfer)
    ensures bufs[b].download.Some? ==> r.calls == [QueryProfile(bufs[b].download.value)] && (r.Raised? <==> api.fails(p))
    ensures r.Raised? ==> r.msg == DownloadProfileFailed
    ensures r.Returned? && bufs[b].download.Some? ==> r.value == api.stamp(bufs[b].download.value)
  {
    match bufs[b].download
    case None => Returned(bufs, [], NoTransfer)
    case Some(ev) =>
      if api.fails(p) then Raised(bufs, [QueryProfile(ev)], DownloadProfileFailed)
      else Returned(bufs, [QueryProfile(ev)], api.stamp(ev))
  }
}

=== FILE: catalog.dfy ===
/**
  The device catalogue (`DeviceManager`): platforms and devices are discovered
  on the first request, cached, and returned sorted by preference.

  The process-wide static vectors become an explicit `Catalog` value; the
  driver is an oracle `Driver` that fixes the topology and says whether the
  query issued at a given position of the query log reports an error.
 */
module Catalog {
  import opened Common
  import opened Devices

  datatype Query =
    | CountPlatforms              // clGetPlatformIDs(0, NULL, &n)
    | ListPlatforms               // clGetPlatformIDs(n, data, NULL)
    | CountDevices(platform: nat) // clGetDeviceIDs(p, CPU | GPU, 0, NULL, &n)
    | ListDevices(platform: nat)  // clGetDeviceIDs(p, CPU | GPU, n, data, NULL)

  /** What the driver reports for one device: its id and the queried properties. */
  datatype RawDevice = RawDevice(id: nat, rawType: nat, unified: bool)

  datatype Driver = Driver(
    fails: nat -> bool,             // does the query at this log position fail?
    platforms: seq<nat>,            // the platform ids the driver reports
    devicesOf: nat -> seq<RawDevice>)

  datatype Catalog = Catalog(platforms: seq<nat>, devices: seq<Device>, queries: seq<Query>)

  /** The value `std::vector::resize` fills new platform slots with. */
  const NullPlatform: nat := 0

  const Empty := Catalog([], [], [])

  /** The message `check_errors` raises when the given query fails. */
  function Message(q: Query): string
  {
    match q
    case CountPlatforms => "Unable to get number of opencl platforms"
    case ListPlatforms => "Unable to get opencl platforms"
    case CountDevices(_) => "Unable to get number of opencl devices"
    case ListDevices(_) => "Unable to get opencl devices"
  }

  function Ask(c: Catalog, q: Query): Catalog
  {
    c.(queries := c.queries + [q])
  }

  function Resize(s: seq<nat>, n: nat): (r: seq<nat>)
    ensures |r| == n
  {
    if |s| >= n then s[..n] else s + seq(n - |s|, _ => NullPlatform)
  }

  /** `list_platforms`: count, resize, then fill. */
  function ListPlatformsOp(drv: Driver, c: Catalog): (r: Step<Catalog, ()>)
    ensures r.st.devices == c.devices
    ensures Grows(c, r.st) && |r.st.queries| > |c.queries|
    ensures forall i :: |c.queries| <= i < |r.st.queries| ==>
              r.st.queries[i] == CountPlatforms || r.st.queries[i] == ListPlatforms
    ensures FailedAtLast(drv, c, r)
    ensures r.Done? ==> AllOk(drv, c, r.st)
    ensures r.Done? ==> r.st.platforms == drv.platforms
  {
    var c1 := Ask(c, CountPlatforms);
    if drv.fails(|c.queries|) then Thrown(c1, Message(CountPlatforms))
    else
      var c2 := Ask(c1, ListPlatforms).(platforms := Resize(c.platforms, |drv.platforms|));
      if drv.fails(|c.queries| + 1) then Thrown(c2, Message(ListPlatforms))
      else Done(c2.(platforms := drv.platforms), ())
  }

  /** The devices one platform contributes, wrapped in order. */
  function Wrap(raws: seq<RawDevice>, p: nat): (ds: seq<Device>)
    ensures |ds| == |raws|
    ensures forall i :: 0 <= i < |raws| ==>
              ds[i] == MakeDevice(raws[i].id, p, raws[i].rawType, raws[i].unified)
  {
    seq(|raws|, i requires 0 <= i < |raws| => MakeDevice(raws[i].id, p, raws[i].rawType, raws[i].unified))
  }

  /** Every device of the given platforms, platform by platform. */
  function Discovered(drv: Driver, ps: seq<nat>): seq<Device>
  {
    if |ps| == 0 then [] else Wrap(drv.devicesOf(ps[0]), ps[0]) + Discovered(drv, ps[1..])
  }

  /** Preference order as `std::sort` leaves it: no device precedes a more preferred one. */
  predicate Sorted(s: seq<Device>)
  {
    forall i, j :: 0 <= i < j < |s| ==> !Less(s[j], s[i])
  }

  function Insert(d: Device, s: seq<Device>): (r: seq<Device>)
    requires Sorted(s)
    ensures Sorted(r)
    ensures multiset(r) == multiset(s) + multiset{d}
    ensures forall x :: x in r ==> x in s || x == d
  {
    if |s| == 0 then [d]
    else if Rank(d.kind) <= Rank(s[0].kind) then [d] + s
    else
      var t := Insert(d, s[1..]);
      InsertStep(d, s, t);
      [s[0]] + t
  }

  /** Putting `d` after the first device of `s`, into the sorted rest `t`, keeps the order and the contents. */
  lemma InsertStep(d: Device, s: seq<Device>, t: seq<Device>)
    requires Sorted(s) && |s| > 0 && Rank(s[0].kind) < Rank(d.kind)
    requires Sorted(t) && multiset(t) == multiset(s[1..]) + multiset{d}
    requires forall x :: x in t ==> x in s[1..] || x == d
    ensures Sorted([s[0]] + t)
    ensures multiset([s[0]] + t) == multiset(s) + multiset{d}
  {
    forall x | x in t ensures Rank(s[0].kind) <= Rank(x.kind) {
      if x in s[1..] {
        var j :| 0 <= j < |s[1..]| && s[1..][j] == x;
        assert s[j + 1] == x;
      }
    }
    var r := [s[0]] + t;
    forall i, j | 0 <= i < j < |r| ensures !Less(r[j], r[i]) {
      if i == 0 {
        assert r[j] in t;
      } else {
        assert r[i] == t[i - 1] && r[j] == t[j - 1];
      }
    }
    assert s == [s[0]] + s[1..];
  }

  /**
    `std::sort` over `operator<`. The standard sort is not stable, so which of
    two devices of the same class comes first is unspecified; this model puts
    them in insertion order, and its contract claims only what any sort gives.
   */
  function SortDevices(s: seq<Device>): (r: seq<Device>)
    ensures Sorted(r)
    ensures multiset(r) == multiset(s)
  {
    if |s| == 0 then []
    else
      assert s == [s[0]] + s[1..];
      Insert(s[0], SortDevices(s[1..]))
  }

  /** `b` continues the query log of `a`. */
  predicate Grows(a: Catalog, b: Catalog)
  {
    |a.queries| <= |b.queries| && b.queries[..|a.queries|] == a.queries
  }

  /** Every query issued between `a` and `b` succeeded. */
  predicate AllOk(drv: Driver, a: Catalog, b: Catalog)
  {
    forall i :: |a.queries| <= i < |b.queries| ==> !drv.fails(i)
  }

  /** Every query issued between `a` and `b` is a device query. */
  predicate DeviceQueriesOnly(a: Catalog, b: Catalog)
  {
    forall i :: |a.queries| <= i < |b.queries| ==> b.queries[i].CountDevices? || b.queries[i].ListDevices?
  }

  /** The last query issued failed, and the message is that query's. */
  predicate FailedAtLast<T>(drv: Driver, a: Catalog, r: Step<Catalog, T>)
  {
    r.Thrown? ==> |r.st.queries| > |a.queries| && drv.fails(|r.st.queries| - 1)
                  && r.msg == Message(r.st.queries[|r.st.queries| - 1])
  }

  lemma GrowsTrans(drv: Driver, a: Catalog, b: Catalog, c: Catalog)
    requires Grows(a, b) && Grows(b, c)
    ensures Grows(a, c)
    ensures AllOk(drv, a, b) && AllOk(drv, b, c) ==> AllOk(drv, a, c)
    ensures DeviceQueriesOnly(a, b) && DeviceQueriesOnly(b, c) ==> DeviceQueriesOnly(a, c)
  {
    assert c.queries[..|b.queries|][..|a.queries|] == c.queries[..|a.queries|];
    forall i | |a.queries| <= i < |b.queries|
      ensures c.queries[i] == b.queries[i]
    {
      assert c.queries[..|b.queries|][i] == c.queries[i];
    }
  }

  /** One iteration of the loop of `list_devices`. */
  function ScanOne(drv: Driver, c: Catalog, p: nat): (r: Step<Catalog, ()>)
    ensures r.st.platforms == c.platforms
    ensures Grows(c, r.st) && |r.st.queries| > |c.queries|
    ensures DeviceQueriesOnly(c, r.st)
    ensures FailedAtLast(drv, c, r)
    ensures r.Done? ==> AllOk(drv, c, r.st)
    ensures r.Done? ==> r.st.devices == c.devices + Wrap(drv.devicesOf(p), p)
  {
    var c1 := Ask(c, CountDevices(p));
    if drv.fails(|c.queries|) then Thrown(c1, Message(CountDevices(p)))
    else
      var c2 := Ask(c1, ListDevices(p));
      if drv.fails(|c.queries| + 1) then Thrown(c2, Message(ListDevices(p)))
      else Done(c2.(devices := c2.devices + Wrap(drv.devicesOf(p), p)), ())
  }

  /** The loop of `list_devices` over the given platforms, before the sort. */
  function Scan(drv: Driver, c: Catalog, ps: seq<nat>): (r: Step<Catalog, ()>)
    ensures r.st.platforms == c.platforms
    ensures Grows(c, r.st)
    ensures |ps| > 0 ==> |r.st.queries| > |c.queries|
    ensures DeviceQueriesOnly(c, r.st)
    ensures FailedAtLast(drv, c, r)
    ensures r.Done? ==> AllOk(drv, c, r.st)
    ensures r.Done? ==> r.st.devices == c.devices + Discovered(drv, ps)
    decreases |ps|
  {
    if |ps| == 0 then Done(c, ())
    else
      match ScanOne(drv, c, ps[0])
      case Thrown(c1, m) => Thrown(c1, m)
      case Done(c1, _) =>
        var r := Scan(drv, c1, ps[1..]);
        GrowsTrans(drv, c, c1, r.st);
        r
  }

  /** `list_devices`: scan every listed platform, then sort the whole list. */
  function ListDevicesOp(drv: Driver, c: Catalog): (r: Step<Catalog, ()>)
    ensures r.st.platforms == c.platforms
    ensures Grows(c, r.st)
    ensures |c.platforms| > 0 ==> |r.st.queries| > |c.queries|
    ensures DeviceQueriesOnly(c, r.st)
    ensures FailedAtLast(drv, c, r)
    ensures r.Done? ==> AllOk(drv, c, r.st)
    ensures r.Done? ==> Sorted(r.st.devices)
    ensures r.Done? ==> multiset(r.st.devices) == multiset(c.devices + Discovered(drv, c.platforms))
  {
    match Scan(drv, c, c.platforms)
    case Thrown(c1, m) => Thrown(c1, m)
    case Done(c1, _) => Done(c1.(devices := SortDevices(c1.devices)), ())
  }

  /** The discovery branch of `getDevices`: list platforms if none are known, then list devices. */
  function Discover(drv: Driver, c: Catalog): (r: Step<Catalog, ()>)
    ensures Grows(c, r.st) && |r.st.queries| > |c.queries|
    ensures |c.platforms| > 0 ==> DeviceQueriesOnly(c, r.st)
    ensures FailedAtLast(drv, c, r)
    ensures r.Done? ==> AllOk(drv, c, r.st) && Sorted(r.st.devices)
    ensures r.Done? ==>
              multiset(r.st.devices) == multiset(c.devices + Discovered(drv, if |c.platforms| == 0 then drv.platforms else c.platforms))
  {
    var pre := if |c.platforms| == 0 then ListPlatformsOp(drv, c) else Done(c, ());
    match pre
    case Thrown(c1, m) => Thrown(c1, m)
    case Done(c1, _) =>
      var r := ListDevicesOp(drv, c1);
      GrowsTrans(drv, c, c1, r.st);
      r
  }

  /**
    `getDevices`: discovery runs only while the device list is empty, and the
    platforms are listed only while the platform list is empty.
   */
  function GetDevices(drv: Driver, c: Catalog): (r: Step<Catalog, seq<Device>>)
    ensures |c.devices| > 0 ==> r == Done(c, c.devices)
    ensures Grows(c, r.st)
    ensures |c.devices| == 0 ==> |r.st.queries| > |c.queries|
    ensures |c.platforms| > 0 ==> DeviceQueriesOnly(c, r.st)
    ensures r.Done? ==> r.value == r.st.devices && AllOk(drv, c, r.st)
    ensures r.Done? && |c.devices| == 0 ==> Sorted(r.value)
    ensures r.Done? && |c.devices| == 0 ==>
              multiset(r.value) == multiset(Discovered(drv, if |c.platforms| == 0 then drv.platforms else c.platforms))
    ensures FailedAtLast(drv, c, r)
  {
    if |c.devices| != 0 then Done(c, c.devices)
    else
      var d := Discover(drv, c);
      assert c.devices == [];
      if d.Thrown? then Thrown(d.st, d.msg) else Done(d.st, d.st.devices)
  }

  /**
    A discovery that fails on a later platform is not undone: the devices of
    the platforms scanned before stay in the catalogue, in discovery order and
    unsorted, and the next request returns them without querying again.
   */
  lemma PartialDiscoveryCached(drv: Driver, c: Catalog)
    requires |c.devices| == 0 && |c.platforms| == 2 && drv.devicesOf(c.platforms[0]) != []
    requires !drv.fails(|c.queries|) && !drv.fails(|c.queries| + 1) && drv.fails(|c.queries| + 2)
    ensures var r := GetDevices(drv, c);
            && r.Thrown? && r.msg == Message(CountDevices(c.platforms[1]))
            && r.st.devices == Wrap(drv.devicesOf(c.platforms[0]), c.platforms[0])
            && GetDevices(drv, r.st) == Done(r.st, r.st.devices)
  {
    var p0 := c.platforms[0];
    var c1 := ScanOne(drv, c, p0).st;
    assert c1.queries == c.queries + [CountDevices(p0), ListDevices(p0)];
    assert c.platforms[1..] == [c.platforms[1]];
    var t := Scan(drv, c1, [c.platforms[1]]);
    assert t.Thrown? && t.st.devices == c1.devices;
  }
}

=== FILE: common.dfy ===
/**
  Shared vocabulary: 64-bit unsigned arithmetic as the timing code performs it,
  optional values, results, and the `Step` datatype that stands for a C++ call
  that either returns or throws after having already changed some state.
 */
module Common {

  /** `CL_ULONG_MAX`; `std::size_t` and `cl_ulong` are both 64 bits wide on the targets. */
  const ULongMax: u64 := 0xFFFF_FFFF_FFFF_FFFF
  const Modulus64: int := 0x1_0000_0000_0000_0000

  /** An unsigned 64-bit value (`std::size_t`, `cl_ulong`). */
  type u64 = x: int | 0 <= x < 0x1_0000_0000_0000_0000

  /** The (start, end) pair a transfer-time query reports when no transfer was recorded. */
  const NoTransfer: (u64, u64) := (ULongMax, 0)

  const Modulus32: int := 0x1_0000_0000

  /** An unsigned 32-bit value (`unsigned int`, `cl_uint`). */
  type u32 = x: int | 0 <= x < Modulus32

  /** A byte (`std::uint8_t`). */
  type u8 = x: int | 0 <= x < 256

  /** Unsigned subtraction with wrap-around. */
  function Sub64(a: u64, b: u64): (r: u64)
    ensures a >= b ==> r == a - b
    ensures a < b ==> r == a - b + Modulus64
  {
    (a - b) % Modulus64
  }

  /** Unsigned addition with wrap-around. */
  function Add64(a: u64, b: u64): (r: u64)
    ensures a + b <= ULongMax ==> r == a + b
    ensures a + b > ULongMax ==> r == a + b - Modulus64
  {
    (a + b) % Modulus64
  }

  function Min(a: int, b: int): int { if a <= b then a else b }

  function Max(a: int, b: int): int { if a >= b then a else b }

  /** Multiplying by a positive factor keeps order. */
  lemma MonotoneProduct(x: int, y: int, b: int)
    requires b > 0 && x <= y
    ensures x * b <= y * b
  {
  }

  /** Division is unique: `q * b + e` with `0 <= e < b` has quotient `q` and remainder `e`. */
  lemma DivModUnique(x: int, q: int, e: int, b: int)
    requires b > 0 && 0 <= e < b && x == q * b + e
    ensures x / b == q && x % b == e
  {
    var k := x / b - q;
    assert k * b == (x / b) * b - q * b;
    assert k * b == e - x % b;
    if k >= 1 {
      MonotoneProduct(1, k, b);
    } else if k <= -1 {
      MonotoneProduct(k, -1, b);
    }
  }

  /** `q * b < a * b` with `b > 0` means `q < a`. */
  lemma BelowMultiple(q: int, a: int, b: int)
    requires b > 0 && q * b < a * b
    ensures q + 1 <= a
  {
    if a <= q {
      MonotoneProduct(a, q, b);
    }
  }

  /** The multiple of `b` after `q * b` is not past any larger multiple of `b`. */
  lemma NextMultiple(m: int, q: int, b: int)
    requires b > 0 && m % b == 0 && q * b < m
    ensures q * b + b <= m
  {
    var a := m / b;
    assert m == a * b;
    BelowMultiple(q, a, b);
    MonotoneProduct(q + 1, a, b);
    assert (q + 1) * b == q * b + b;
  }

  datatype Option<T> = None | Some(value: T)

  datatype Result<T> = Success(value: T) | Failure(error: string)

  /**
    The outcome of an operation that may throw: in both cases `st` is the state
    as the operation left it, because the source mutates fields before the
    check that throws.
   */
  datatype Step<S, T> = Done(st: S, value: T) | Thrown(st: S, msg: string)
}

=== FILE: devices.dfy ===
/**
  One accelerator device: its coarse class, derived from the raw device-type
  bitmask and the host-unified-memory flag, and the preference order between
  devices.
 */
module Devices {
  import opened Common

  /** Raw `cl_device_type` bits. */
  const ClDeviceTypeDefault: nat := 1
  const ClDeviceTypeCpu: nat := 2
  const ClDeviceTypeGpu: nat := 4
  const ClDeviceTypeAccelerator: nat := 8

  /** The coarse class, declared in preference order. */
  datatype DeviceType = DGpu | IGpu | Cpu | Unknown

  /** The enumerator's value in the source's `DeviceType` enum. */
  function Rank(t: DeviceType): nat
  {
    match t
    case DGpu => 0
    case IGpu => 1
    case Cpu => 2
    case Unknown => 3
  }

  datatype Device = Device(
    handle: Option<nat>,   // the device handle; None once released
    platform: nat,
    rawType: nat,          // the `cl_device_type` reported by the driver
    unified: bool,         // `CL_DEVICE_HOST_UNIFIED_MEMORY`
    kind: DeviceType)

  /**
    The classification switch of `init_properties`: only the exact raw values
    for CPU and GPU are recognised; anything else keeps the default `Unknown`.
   */
  function Classify(rawType: nat, unified: bool): (t: DeviceType)
    ensures t == Cpu <==> rawType == ClDeviceTypeCpu
    ensures t == IGpu <==> rawType == ClDeviceTypeGpu && unified
    ensures t == DGpu <==> rawType == ClDeviceTypeGpu && !unified
    ensures t == Unknown <==> rawType != ClDeviceTypeCpu && rawType != ClDeviceTypeGpu
  {
    if rawType == ClDeviceTypeCpu then Cpu
    else if rawType == ClDeviceTypeGpu then (if unified then IGpu else DGpu)
    else Unknown
  }

  /** The constructor from a raw handle pair, with the queried properties. */
  function MakeDevice(id: nat, platform: nat, rawType: nat, unified: bool): (d: Device)
    ensures d.handle == Some(id) && d.platform == platform && d.rawType == rawType
    ensures d.kind == Classify(rawType, unified)
  {
    Device(Some(id), platform, rawType, unified, Classify(rawType, unified))
  }

  /** `operator<`: compares the class rank and nothing else. */
  predicate Less(a: Device, b: Device)
  {
    Rank(a.kind) < Rank(b.kind)
  }

  lemma LessIsStrictWeakOrder(a: Device, b: Device, c: Device)
    ensures !Less(a, a)
    ensures Less(a, b) && Less(b, c) ==> Less(a, c)
    ensures Less(a, b) ==> !Less(b, a)
    ensures a.kind == b.kind ==> !Less(a, b) && !Less(b, a)
    ensures !Less(a, b) && !Less(b, a) ==> a.kind == b.kind
  {
  }

  /** Dedicated GPU before integrated GPU before CPU before unknown. */
  lemma PreferenceOrder(d: Device, i: Device, c: Device, u: Device)
    requires d.kind == DGpu && i.kind == IGpu && c.kind == Cpu && u.kind == Unknown
    ensures Less(d, i) && Less(i, c) && Less(c, u)
  {
  }

  /**
    `Device::releaseHandle`: releases a present handle and clears it. The
    second component tells whether `clReleaseDevice` was called.
   */
  function ReleaseDevice(d: Device): (r: (Device, bool))
    ensures r.0.handle.None?
    ensures r.1 <==> d.handle.Some?
    ensures r.0.platform == d.platform && r.0.rawType == d.rawType && r.0.unified == d.unified && r.0.kind == d.kind
  {
    (d.(handle := None), d.handle.Some?)
  }

  lemma ReleaseDeviceIdempotent(d: Device)
    ensures !ReleaseDevice(ReleaseDevice(d).0).1
    ensures ReleaseDevice(ReleaseDevice(d).0).0 == ReleaseDevice(d).0
  {
  }
}

=== FILE: histogram.dfy ===
/**
  The grey-level histogram of the OpenMP lab: the sequential reference
  `compute_histogram_no_omp`, and the sequential phases of the unrolled
  `compute_histogram`. The parallel loop is replaced by an arbitrary
  assignment of its four-byte chunks to threads; each thread counts into
  its own slice, the remainder bytes go to thread 0's slice, and the slices
  are merged bin by bin with the same four-way unrolling.
 */
module Histograms {
  import opened Common

  /** How often `v` occurs in `data`. */
  function Occurrences(data: seq<u8>, v: int): nat
  {
    if data == [] then 0
    else Occurrences(data[..|data| - 1], v) + (if data[|data| - 1] == v then 1 else 0)
  }

  /** The sum of all bins. */
  function Total(h: seq<nat>): nat
  {
    if h == [] then 0 else Total(h[..|h| - 1]) + h[|h| - 1]
  }

  /** Every byte names one of `len` bins: the histograms write `hist[byte]` unchecked. */
  predicate InBins(data: seq<u8>, len: nat)
  {
    forall i :: 0 <= i < |data| ==> data[i] < len
  }

  lemma {:induction false} TotalZeros(n: nat)
    ensures Total(Zeros(n)) == 0
  {
    if n > 0 {
      assert Zeros(n)[..n - 1] == Zeros(n - 1);
      TotalZeros(n - 1);
    }
  }

  /** Incrementing one bin raises the total by one. */
  lemma {:induction false} TotalBump(h: seq<nat>, b: nat)
    requires b < |h|
    ensures Total(h[b := h[b] + 1]) == Total(h) + 1
  {
    var h' := h[b := h[b] + 1];
    if b < |h| - 1 {
      assert h'[..|h| - 1] == h[..|h| - 1][b := h[b] + 1];
      TotalBump(h[..|h| - 1], b);
    } else {
      assert h'[..|h| - 1] == h[..|h| - 1];
    }
  }

  /**
    `compute_histogram_no_omp`: `max_val + 1` bins, each byte counted in its
    own bin, so bin `v` holds the occurrences of `v` and the bins add up to
    the number of bytes.
   */
  method HistogramNoOmp(data: seq<u8>, maxVal: nat) returns (hist: seq<nat>)
    requires InBins(data, maxVal + 1)
    ensures |hist| == maxVal + 1
    ensures forall v :: 0 <= v <= maxVal ==> hist[v] == Occurrences(data, v)
    ensures Total(hist) == |data|
  {
    hist := Zeros(maxVal + 1);
    TotalZeros(maxVal + 1);
    for i := 0 to |data|
      invariant |hist| == maxVal + 1
      invariant forall v :: 0 <= v <= maxVal ==> hist[v] == Occurrences(data[..i], v)
      invariant Total(hist) == i
    {
      assert data[..i + 1][..i] == data[..i];
      TotalBump(hist, data[i]);
      hist := hist[data[i] := hist[data[i]] + 1];
    }
    assert data[..|data|] == data;
  }

  /** Every thread slice has one counter per bin. */
  predicate Slices(hist: seq<seq<nat>>, len: nat)
  {
    forall t :: 0 <= t < |hist| ==> |hist[t]| == len
  }

  /** Bin `v` summed over the slices. */
  function SliceSum(hist: seq<seq<nat>>, v: nat): nat
    requires forall t :: 0 <= t < |hist| ==> v < |hist[t]|
  {
    if hist == [] then 0 else SliceSum(hist[..|hist| - 1], v) + hist[|hist| - 1][v]
  }

  /** `++hist[thr_offset + byte]`: one counter of one slice incremented. */
  function Bump(hist: seq<seq<nat>>, t: nat, b: nat): (r: seq<seq<nat>>)
    requires t < |hist| && b < |hist[t]|
    ensures |r| == |hist| && forall u :: 0 <= u < |r| ==> |r[u]| == |hist[u]|
  {
    hist[t := hist[t][b := hist[t][b] + 1]]
  }

  /** Incrementing a counter of any slice raises the merged bin of that byte by one, and no other bin. */
  lemma {:induction false} BumpSum(hist: seq<seq<nat>>, len: nat, t: nat, b: nat, v: nat)
    requires Slices(hist, len) && t < |hist| && b < len && v < len
    ensures SliceSum(Bump(hist, t, b), v) == SliceSum(hist, v) + (if v == b then 1 else 0)
  {
    var r := Bump(hist, t, b);
    var n := |hist|;
    if t < n - 1 {
      assert r[..n - 1] == Bump(hist[..n - 1], t, b);
      BumpSum(hist[..n - 1], len, t, b, v);
    } else {
      assert r[..n - 1] == hist[..n - 1];
    }
  }

  /** `len` zero counters. */
  function Zeros(len: nat): (r: seq<nat>)
    ensures |r| == len && forall v :: 0 <= v < len ==> r[v] == 0
  {
    seq(len, _ => 0)
  }

  /** `threads` zeroed slices, as after the `memset`. */
  function ZeroSlices(threads: nat, len: nat): (r: seq<seq<nat>>)
    ensures |r| == threads && Slices(r, len)
  {
    if threads == 0 then [] else ZeroSlices(threads - 1, len) + [Zeros(len)]
  }

  lemma {:induction false} ZeroSum(threads: nat, len: nat, v: nat)
    requires v < len
    ensures SliceSum(ZeroSlices(threads, len), v) == 0
  {
    if threads > 0 {
      assert ZeroSlices(threads, len)[..threads - 1] == ZeroSlices(threads - 1, len);
      ZeroSum(threads - 1, len, v);
    }
  }

  /** The slices count exactly the bytes `data[..n]`. */
  predicate Counts(hist: seq<seq<nat>>, len: nat, data: seq<u8>, n: nat)
    requires Slices(hist, len) && n <= |data|
  {
    forall v :: 0 <= v < len ==> SliceSum(hist, v) == Occurrences(data[..n], v)
  }

  /** Counting `data[n]` into any slice extends the counted prefix by one byte. */
  lemma CountNext(hist: seq<seq<nat>>, len: nat, data: seq<u8>, n: nat, t: nat)
    requires Slices(hist, len) && n < |data| && t < |hist| && data[n] < len
    requires Counts(hist, len, data, n)
    ensures Counts(Bump(hist, t, data[n]), len, data, n + 1)
  {
    assert data[..n + 1][..n] == data[..n];
    forall v | 0 <= v < len
      ensures SliceSum(Bump(hist, t, data[n]), v) == Occurrences(data[..n + 1], v)
    {
      BumpSum(hist, len, t, data[n], v);
    }
  }

  /**
    The parallel loop: chunk `c` covers bytes `4c .. 4c + 3` and is counted
    by thread `owner[c]` into its own slice. Counting commutes, so doing the
    chunks in index order gives what any interleaving of the threads gives.
   */
  method CountChunks(data: seq<u8>, len: nat, threads: nat, owner: seq<nat>) returns (hist: seq<seq<nat>>)
    requires InBins(data, len) && 4 * |owner| <= |data|
    requires forall c :: 0 <= c < |owner| ==> owner[c] < threads
    ensures |hist| == threads && Slices(hist, len)
    ensures Counts(hist, len, data, 4 * |owner|)
  {
    hist := ZeroSlices(threads, len);
    forall v | 0 <= v < len
      ensures SliceSum(hist, v) == Occurrences(data[..0], v)
    {
      ZeroSum(threads, len, v);
    }
    for c := 0 to |owner|
      invariant |hist| == threads && Slices(hist, len)
      invariant Counts(hist, len, data, 4 * c)
    {
      var i := 4 * c;
      CountNext(hist, len, data, i, owner[c]);
      hist := Bump(hist, owner[c], data[i]);
      CountNext(hist, len, data, i + 1, owner[c]);
      hist := Bump(hist, owner[c], data[i + 1]);
      CountNext(hist, len, data, i + 2, owner[c]);
      hist := Bump(hist, owner[c], data[i + 2]);
      CountNext(hist, len, data, i + 3, owner[c]);
      hist := Bump(hist, owner[c], data[i + 3]);
    }
  }

  /**
    The remainder switch: with `r = |data| % 4` bytes left over, the cases
    fall through from the third-last to the last byte, each counted in
    thread 0's slice.
   */
  method CountRemainder(data: seq<u8>, len: nat, hist: seq<seq<nat>>) returns (r: seq<seq<nat>>)
    requires InBins(data, len) && Slices(hist, len) && |hist| > 0
    requires Counts(hist, len, data, |data| - |data| % 4)
    ensures |r| == |hist| && Slices(r, len)
    ensures Counts(r, len, data, |data|)
  {
    var n := |data|;
    var rem := n % 4;
    r := hist;
    if rem >= 3 {
      CountNext(r, len, data, n - 3, 0);
      r := Bump(r, 0, data[n - 3]);
    }
    if rem >= 2 {
      CountNext(r, len, data, n - 2, 0);
      r := Bump(r, 0, data[n - 2]);
    }
    if rem >= 1 {
      CountNext(r, len, data, n - 1, 0);
      r := Bump(r, 0, data[n - 1]);
    }
  }

  /**
    The merge of one thread's slice: the unrolled loop adds four bins at a
    time up to the last multiple of four, and the fall-through switch adds
    the remaining `len % 4` bins; together every bin once.
   */
  method MergeSlice(result: seq<nat>, slice: seq<nat>) returns (r: seq<nat>)
    requires |result| == |slice|
    ensures |r| == |result| && forall v :: 0 <= v < |r| ==> r[v] == result[v] + slice[v]
  {
    var len := |result|;
    var rem := len % 4;
    r := result;
    var i := 0;
    while i < len - rem
      invariant i <= len - rem && i % 4 == 0 && |r| == len
      invariant forall v :: 0 <= v < len ==> r[v] == result[v] + (if v < i then slice[v] else 0)
    {
      r := r[i := r[i] + slice[i]];
      r := r[i + 1 := r[i + 1] + slice[i + 1]];
      r := r[i + 2 := r[i + 2] + slice[i + 2]];
      r := r[i + 3 := r[i + 3] + slice[i + 3]];
      i := i + 4;
    }
    if rem >= 3 {
      r := r[len - 3 := r[len - 3] + slice[len - 3]];
    }
    if rem >= 2 {
      r := r[len - 2 := r[len - 2] + slice[len - 2]];
    }
    if rem >= 1 {
      r := r[len - 1 := r[len - 1] + slice[len - 1]];
    }
  }

  /** The merge over all threads: bin `v` of the result is bin `v` summed over the slices. */
  method Merge(hist: seq<seq<nat>>, len: nat) returns (result: seq<nat>)
    requires Slices(hist, len)
    ensures |result| == len && forall v :: 0 <= v < len ==> result[v] == SliceSum(hist, v)
  {
    result := Zeros(len);
    for thr := 0 to |hist|
      invariant |result| == len
      invariant forall v :: 0 <= v < len ==> result[v] == SliceSum(hist[..thr], v)
    {
      assert hist[..thr + 1][..thr] == hist[..thr];
      result := MergeSlice(result, hist[thr]);
    }
    assert hist[..|hist|] == hist;
  }

  /**
    `compute_histogram` with `threads` slices and the parallel loop's chunks
    assigned by `owner`: whatever the assignment, every byte is counted once
    and the result equals the reference histogram.
   */
  method HistogramOmp(data: seq<u8>, maxVal: nat, threads: nat, owner: seq<nat>) returns (hist: seq<nat>)
    requires InBins(data, maxVal + 1) && threads > 0
    requires |owner| == (|data| - |data| % 4) / 4
    requires forall c :: 0 <= c < |owner| ==> owner[c] < threads
    ensures |hist| == maxVal + 1
    ensures forall v :: 0 <= v <= maxVal ==> hist[v] == Occurrences(data, v)
  {
    var len := maxVal + 1;
    var slices := CountChunks(data, len, threads, owner);
    slices := CountRemainder(data, len, slices);
    assert data[..|data|] == data;
    hist := Merge(slices, len);
  }

  /** Both histograms agree on every input the reference accepts. */
  method SameHistogram(data: seq<u8>, maxVal: nat, threads: nat, owner: seq<nat>) returns (same: bool)
    requires InBins(data, maxVal + 1) && threads > 0
    requires |owner| == (|data| - |data| % 4) / 4
    requires forall c :: 0 <= c < |owner| ==> owner[c] < threads
    ensures same
  {
    var a := HistogramOmp(data, maxVal, threads, owner);
    var b := HistogramNoOmp(data, maxVal);
    same := a == b;
  }

  /** How the thread-count argument selects the histogram function. */
  datatype Schedule = NoOmp | DefaultThreads | Threads(count: nat)

  const ArityError := "Invalid number of arguments\n"
  const ThreadsError := "Invalid number of threads\n"

  /**
    `main`'s argument handling: exactly three arguments, and a thread count
    (as `atoi` read it) of -1 for the reference, 0 for the default thread
    count, any positive count to set it, anything below -1 rejected.
   */
  function ChooseSchedule(argc: int, threads: int): (r: Result<Schedule>)
    ensures r.Failure? <==> argc != 4 || threads < -1
    ensures r.Failure? ==> r.error == if argc != 4 then ArityError else ThreadsError
    ensures r.Success? ==> (r.value == NoOmp <==> threads == -1)
    ensures r.Success? ==> (r.value == DefaultThreads <==> threads == 0)
    ensures r.Success? && threads > 0 ==> r.value == Threads(threads)
  {
    if argc != 4 then Failure(ArityError)
    else if threads < -1 then Failure(ThreadsError)
    else if threads == -1 then Success(NoOmp)
    else if threads == 0 then Success(DefaultThreads)
    else Success(Threads(threads))
  }
}

=== FILE: kernels.dfy ===
/**
  `Kernel`: a named kernel, its work sizes, the indices of its arguments in
  the shared buffer store, its kernel handle, its launch event and the cached
  execution time. Kernel `ki` of a session names itself `ki` in the calls it
  issues.
 */
module Kernels {
  import opened Common
  import opened Runtime
  import opened Buffers

  datatype Kernel = Kernel(
    name: string,
    global: seq<nat>,      // `global_work_size`
    local: seq<nat>,       // `local_work_size`
    args: seq<nat>,        // indices into the buffer store
    handle: bool,          // the `cl_kernel` handle is present
    event: Option<nat>,    // `time_profiler`
    execTime: u64)         // `execution_time`; 0 means "not computed yet"

  /** A kernel as constructed: no handle, no event, no execution time. */
  function NewKernel(name: string, global: seq<nat>, local: seq<nat>, args: seq<nat>): (k: Kernel)
    ensures !k.handle && k.event.None? && k.execTime == 0
    ensures k.name == name && k.global == global && k.local == local && k.args == args
  {
    Kernel(name, global, local, args, false, None, 0)
  }

  /** Every argument names a buffer of the store. */
  predicate ValidArgs(args: seq<nat>, bufs: seq<Buffer>)
  {
    forall j :: 0 <= j < |args| ==> args[j] < |bufs|
  }

  /** The store keeps its length and every buffer its host memory, size and mode. */
  predicate SameShape(a: seq<Buffer>, c: seq<Buffer>)
  {
    && |a| == |c|
    && forall b :: 0 <= b < |a| ==> c[b].host == a[b].host && c[b].size == a[b].size && c[b].mode == a[b].mode
  }

  /** The position of the first occurrence of `b` in `args` (|args| when absent). */
  function FirstAt(args: seq<nat>, b: nat): (i: nat)
    ensures i <= |args|
    ensures i < |args| <==> b in args
    ensures i < |args| ==> args[i] == b && forall j :: 0 <= j < i ==> args[j] != b
  {
    if |args| == 0 then 0
    else if args[0] == b then 0
    else 1 + FirstAt(args[1..], b)
  }

  /** Buffers are created in the order of their first occurrence among the arguments, each at most once. */
  predicate CreatesInOrder(calls: seq<Call>, args: seq<nat>)
  {
    forall i, j :: 0 <= i < j < |calls| && calls[i].CreateBuffer? && calls[j].CreateBuffer? ==>
      FirstAt(args, calls[i].buffer) < FirstAt(args, calls[j].buffer)
  }

  /** The calls of `enqueueArgs` create or upload arguments that were not yet acquired, creating each with its size and mode. */
  predicate AcquireCalls(calls: seq<Call>, args: seq<nat>, bufs: seq<Buffer>)
    requires ValidArgs(args, bufs)
  {
    forall c :: c in calls ==>
      && (c.CreateBuffer? || c.WriteBuffer?) && c.buffer in args && !Acquired(bufs[c.buffer])
      && (c.CreateBuffer? ==> c == CreateBuffer(c.buffer, bufs[c.buffer].size, Flags(bufs[c.buffer].mode)))
  }

  /** Every argument not acquired in `bufs` is created by `calls`. */
  predicate CreatesMissing(calls: seq<Call>, args: seq<nat>, bufs: seq<Buffer>)
    requires ValidArgs(args, bufs)
  {
    forall j :: 0 <= j < |args| && !Acquired(bufs[args[j]]) ==>
      CreateBuffer(args[j], bufs[args[j]].size, Flags(bufs[args[j]].mode)) in calls
  }

  /** Only arguments not yet acquired may change. */
  predicate KeepsAcquired(bufs: seq<Buffer>, st: seq<Buffer>, args: seq<nat>)
    requires |st| == |bufs|
  {
    forall b :: 0 <= b < |bufs| && (b !in args || Acquired(bufs[b])) ==> st[b] == bufs[b]
  }

  /** What `acquireHandle` issues for memory not yet acquired when nothing fails: creation, then the upload of an input mode. */
  function AcquirePlan(buf: Buffer, b: nat): seq<Call>
  {
    [CreateBuffer(b, buf.size, Flags(buf.mode))] + (if Uploads(buf.mode) then [WriteBuffer(b)] else [])
  }

  /**
    The calls of `enqueueArgs` when nothing fails: in argument order, every
    argument that is neither acquired in `bufs` nor in `held` is created and,
    if its mode uploads, uploaded; an argument counts as held from its first
    occurrence on.
   */
  function ArgsPlan(bufs: seq<Buffer>, args: seq<nat>, held: set<nat>): seq<Call>
    requires ValidArgs(args, bufs)
    decreases |args|
  {
    if |args| == 0 then []
    else
      var b := args[0];
      (if b in held || Acquired(bufs[b]) then [] else AcquirePlan(bufs[b], b)) + ArgsPlan(bufs, args[1..], held + {b})
  }

  /** Stores of the same shape that agree on which buffers are held plan the same calls. */
  lemma {:induction false} ArgsPlanAgrees(a: seq<Buffer>, ha: set<nat>, c: seq<Buffer>, hc: set<nat>, args: seq<nat>)
    requires ValidArgs(args, a) && SameShape(a, c)
    requires forall x :: 0 <= x < |a| ==> ((x in ha || Acquired(a[x])) <==> (x in hc || Acquired(c[x])))
    ensures ValidArgs(args, c) && ArgsPlan(a, args, ha) == ArgsPlan(c, args, hc)
    decreases |args|
  {
    if |args| > 0 {
      ArgsPlanAgrees(a, ha + {args[0]}, c, hc + {args[0]}, args[1..]);
    }
  }

  /**
    The plan creates or uploads only arguments that are neither acquired nor
    held, creates each with its size and mode, and creates them in the order
    of their first occurrence among the arguments.
   */
  lemma {:induction false} PlanCallsAll(bufs: seq<Buffer>, args: seq<nat>, held: set<nat>)
    requires ValidArgs(args, bufs)
    ensures AcquireCalls(ArgsPlan(bufs, args, held), args, bufs)
    ensures forall c :: c in ArgsPlan(bufs, args, held) ==> c.buffer !in held
    ensures CreatesInOrder(ArgsPlan(bufs, args, held), args)
    decreases |args|
  {
    if |args| > 0 {
      var b := args[0];
      var head := if b in held || Acquired(bufs[b]) then [] else AcquirePlan(bufs[b], b);
      var rest := ArgsPlan(bufs, args[1..], held + {b});
      PlanCallsAll(bufs, args[1..], held + {b});
      forall c | c in rest ensures c.buffer != b && c.buffer in args[1..] {
      }
      PlanOrderStep(args, head, rest);
      assert ArgsPlan(bufs, args, held) == head + rest;
    }
  }

  /** Every prefix of the plan keeps the plan's promises about its calls. */
  lemma PlanCalls(bufs: seq<Buffer>, args: seq<nat>, calls: seq<Call>)
    requires ValidArgs(args, bufs) && calls <= ArgsPlan(bufs, args, {})
    ensures AcquireCalls(calls, args, bufs) && CreatesInOrder(calls, args)
  {
    var plan := ArgsPlan(bufs, args, {});
    PlanCallsAll(bufs, args, {});
    assert forall i :: 0 <= i < |calls| ==> calls[i] == plan[i];
    forall c | c in calls ensures c in plan {
      var i :| 0 <= i < |calls| && calls[i] == c;
      assert plan[i] == c;
    }
  }

  /** The whole plan creates every argument that was neither acquired nor held. */
  lemma {:induction false} PlanCreatesMissing(bufs: seq<Buffer>, args: seq<nat>, held: set<nat>)
    requires ValidArgs(args, bufs)
    ensures forall j :: 0 <= j < |args| && args[j] !in held && !Acquired(bufs[args[j]]) ==>
              CreateBuffer(args[j], bufs[args[j]].size, Flags(bufs[args[j]].mode)) in ArgsPlan(bufs, args, held)
    decreases |args|
  {
    if |args| > 0 {
      var b := args[0];
      var head := if b in held || Acquired(bufs[b]) then [] else AcquirePlan(bufs[b], b);
      var rest := ArgsPlan(bufs, args[1..], held + {b});
      PlanCreatesMissing(bufs, args[1..], held + {b});
      assert ArgsPlan(bufs, args, held) == head + rest;
      forall j | 0 <= j < |args| && args[j] !in held && !Acquired(bufs[args[j]])
        ensures CreateBuffer(args[j], bufs[args[j]].size, Flags(bufs[args[j]].mode)) in head + rest
      {
        if args[j] == b {
          assert head[0] == CreateBuffer(b, bufs[b].size, Flags(bufs[b].mode));
        } else {
          assert args[j] == args[1..][j - 1];
        }
      }
    }
  }

  /** On return `enqueueArgs` has created every argument that was not acquired. */
  lemma EnqueueCreatesMissing(api: Api, p: nat, bufs: seq<Buffer>, args: seq<nat>)
    requires ValidArgs(args, bufs) && EnqueueArgs(api, p, bufs, args).Returned?
    ensures CreatesMissing(EnqueueArgs(api, p, bufs, args).calls, args, bufs)
  {
    PlanCreatesMissing(bufs, args, {});
  }

  /**
    What `enqueueArgs` from log position `p` promises: buffers keep their
    shape and only arguments not yet acquired change; when every argument is
    already acquired nothing happens; on return every argument is acquired;
    a failure is a creation or an upload failure; the calls follow
    `ArgsPlan` up to the one that failed, all of it on return, and each
    upload recorded its event at its own log position.
   */
  predicate Enqueued(p: nat, bufs: seq<Buffer>, args: seq<nat>, r: Outcome<seq<Buffer>, ()>)
    requires ValidArgs(args, bufs)
  {
    EnqueuedState(bufs, args, r) && EnqueuedCalls(p, bufs, args, r)
  }

  /** The buffer half of `Enqueued`. */
  predicate EnqueuedState(bufs: seq<Buffer>, args: seq<nat>, r: Outcome<seq<Buffer>, ()>)
    requires ValidArgs(args, bufs)
  {
    && SameShape(bufs, r.st) && KeepsAcquired(bufs, r.st, args)
    && ((forall j :: 0 <= j < |args| ==> Acquired(bufs[args[j]])) ==> r == Returned(bufs, [], ()))
    && (r.Returned? ==> forall j :: 0 <= j < |args| ==> Acquired(r.st[args[j]]))
    && (r.Raised? ==> r.msg == CreateBufferFailed || r.msg == WriteBufferFailed)
  }

  /** The call half of `Enqueued`. */
  predicate EnqueuedCalls(p: nat, bufs: seq<Buffer>, args: seq<nat>, r: Outcome<seq<Buffer>, ()>)
    requires ValidArgs(args, bufs)
  {
    && r.calls <= ArgsPlan(bufs, args, {})
    && (r.Returned? ==> r.calls == ArgsPlan(bufs, args, {}) && Uploaded(p, r.calls, r.st))
  }

  /**
    `enqueueArgs`: acquire every argument, in argument order, stopping at the
    first that throws. A buffer held twice, or already held by another
    kernel, is created once.
   */
  function EnqueueArgs(api: Api, p: nat, bufs: seq<Buffer>, args: seq<nat>): (r: Outcome<seq<Buffer>, ()>)
    requires ValidArgs(args, bufs)
    ensures Enqueued(p, bufs, args, r)
    decreases |args|
  {
    if |args| == 0 then Returned(bufs, [], ())
    else
      var a := Acquire(api, p, bufs, args[0]);
      EnqueueFirst(api, p, bufs, args, a);
      if a.Raised? then a
      else
        var rest := EnqueueArgs(api, p + |a.calls|, a.st, args[1..]);
        EnqueueThen(api, p, bufs, args, a, rest);
        Then(a, rest)
  }

  /** Acquiring the first argument: a failure ends `enqueueArgs` keeping its promise, a return leaves the rest valid. */
  lemma EnqueueFirst(api: Api, p: nat, bufs: seq<Buffer>, args: seq<nat>, a: Outcome<seq<Buffer>, ()>)
    requires |args| > 0 && ValidArgs(args, bufs) && a == Acquire(api, p, bufs, args[0])
    ensures a.Raised? ==> Enqueued(p, bufs, args, a)
    ensures a.Returned? ==> ValidArgs(args[1..], a.st)
  {
    EnqueueFirstState(args, bufs, a.st, a.calls);
    EnqueuePlanFirst(api, p, bufs, args, a);
    if a.Raised? {
      assert !Acquired(bufs[args[0]]);
    }
  }

  /** A returned acquisition of the first argument, then `enqueueArgs` on the rest, keeps the promise for all of them. */
  lemma EnqueueThen(api: Api, p: nat, bufs: seq<Buffer>, args: seq<nat>, a: Outcome<seq<Buffer>, ()>, rest: Outcome<seq<Buffer>, ()>)
    requires |args| > 0 && ValidArgs(args, bufs) && a == Acquire(api, p, bufs, args[0]) && a.Returned?
    requires ValidArgs(args[1..], a.st) && Enqueued(p + |a.calls|, a.st, args[1..], rest)
    ensures Enqueued(p, bufs, args, Then(a, rest))
  {
    EnqueueThenState(api, p, bufs, args, a, rest);
    EnqueuePlanFirst(api, p, bufs, args, a);
    EnqueueThenCalls(p, bufs, args, a, rest);
  }

  /** The buffer half of `EnqueueThen`. */
  lemma EnqueueThenState(api: Api, p: nat, bufs: seq<Buffer>, args: seq<nat>, a: Outcome<seq<Buffer>, ()>, rest: Outcome<seq<Buffer>, ()>)
    requires |args| > 0 && ValidArgs(args, bufs) && a == Acquire(api, p, bufs, args[0]) && a.Returned?
    requires ValidArgs(args[1..], a.st) && EnqueuedState(a.st, args[1..], rest)
    ensures EnqueuedState(bufs, args, Then(a, rest))
  {
    var r := Then(a, rest);
    EnqueueFirstState(args, bufs, a.st, a.calls);
    EnqueueStepState(args, bufs, a.st, rest.st, rest.Returned?);
    if forall j :: 0 <= j < |args| ==> Acquired(bufs[args[j]]) {
      assert Acquired(bufs[args[0]]);
      forall j | 0 <= j < |args| - 1 ensures Acquired(a.st[args[1..][j]]) {
        assert args[1..][j] == args[j + 1];
      }
      assert r.calls == [] + [];
    }
  }

  /** The call half of `EnqueueThen`, from what acquiring the first argument left. */
  lemma EnqueueThenCalls(p: nat, bufs: seq<Buffer>, args: seq<nat>, a: Outcome<seq<Buffer>, ()>, rest: Outcome<seq<Buffer>, ()>)
    requires |args| > 0 && ValidArgs(args, bufs) && a.Returned? && OnlyTouches(bufs, a.st, args[0]) && Acquired(a.st[args[0]])
    requires var head := if Acquired(bufs[args[0]]) then [] else AcquirePlan(bufs[args[0]], args[0]);
      ArgsPlan(bufs, args, {}) == head + ArgsPlan(bufs, args[1..], {args[0]}) && a.calls == head
    requires Uploaded(p, a.calls, a.st)
    requires ValidArgs(args[1..], a.st) && EnqueuedState(a.st, args[1..], rest) && EnqueuedCalls(p + |a.calls|, a.st, args[1..], rest)
    ensures EnqueuedCalls(p, bufs, args, Then(a, rest))
  {
    EnqueuePlanStep(p, bufs, args, a.st, rest.st, a.calls, rest.calls, rest.Returned?);
  }

  /** A buffer as planning sees it: host memory, size and mode, and whether it is acquired; no events. */
  function Blank(buf: Buffer): Buffer
  {
    NewBuffer(buf.host, buf.size, buf.mode).(mem := Acquired(buf))
  }

  /** The store as planning sees it. */
  function Canon(bufs: seq<Buffer>): (r: seq<Buffer>)
    ensures |r| == |bufs| && forall x :: 0 <= x < |bufs| ==> r[x] == Blank(bufs[x])
  {
    seq(|bufs|, x requires 0 <= x < |bufs| => Blank(bufs[x]))
  }

  /** The store with every buffer named in `args` marked as holding memory. */
  function Mark(bufs: seq<Buffer>, args: seq<nat>): (r: seq<Buffer>)
    requires ValidArgs(args, bufs)
    ensures |r| == |bufs|
    decreases |args|
  {
    if |args| == 0 then bufs else Mark(bufs[args[0] := bufs[args[0]].(mem := true)], args[1..])
  }

  /** Marking touches exactly the buffers named in `args`. */
  lemma {:induction false} MarkAt(bufs: seq<Buffer>, args: seq<nat>, x: nat)
    requires ValidArgs(args, bufs) && x < |bufs|
    ensures Mark(bufs, args)[x] == if x in args then bufs[x].(mem := true) else bufs[x]
    decreases |args|
  {
    if |args| > 0 {
      var next := bufs[args[0] := bufs[args[0]].(mem := true)];
      MarkAt(next, args[1..], x);
      assert x in args <==> x == args[0] || x in args[1..];
    }
  }

  /**
    A store of the same shape in which exactly the arguments became acquired
    looks, to planning, like the old one with the arguments marked.
   */
  lemma CanonMarked(a: seq<Buffer>, c: seq<Buffer>, args: seq<nat>)
    requires ValidArgs(args, a) && SameShape(a, c)
    requires forall x :: 0 <= x < |a| ==> (Acquired(c[x]) <==> Acquired(a[x]) || x in args)
    ensures ValidArgs(args, Canon(a)) && Canon(c) == Mark(Canon(a), args)
  {
    forall x | 0 <= x < |a| ensures Canon(c)[x] == Mark(Canon(a), args)[x] {
      MarkAt(Canon(a), args, x);
    }
  }

  /** After `enqueueArgs` returns, planning sees the old store with the arguments marked. */
  lemma EnqueuedCanon(p: nat, bufs: seq<Buffer>, args: seq<nat>, r: Outcome<seq<Buffer>, ()>)
    requires ValidArgs(args, bufs) && Enqueued(p, bufs, args, r) && r.Returned?
    ensures r.calls == ArgsPlan(bufs, args, {}) && SameShape(bufs, r.st)
    ensures ValidArgs(args, Canon(bufs)) && Canon(r.st) == Mark(Canon(bufs), args)
  {
    forall x | 0 <= x < |bufs| ensures Acquired(r.st[x]) <==> Acquired(bufs[x]) || x in args {
      if x in args {
        var j :| 0 <= j < |args| && args[j] == x;
        assert Acquired(r.st[args[j]]);
      }
    }
    CanonMarked(bufs, r.st, args);
  }

  /** Every upload among `calls`, issued from log position `p` on, recorded its event in its buffer's slot 0. */
  predicate Uploaded(p: nat, calls: seq<Call>, st: seq<Buffer>)
  {
    forall x :: 0 <= x < |calls| && calls[x].WriteBuffer? ==>
      calls[x].buffer < |st| && st[calls[x].buffer].upload == Some(p + x)
  }

  /** Acquiring the first argument follows the head of the plan, and all of it on return. */
  lemma EnqueuePlanFirst(api: Api, p: nat, bufs: seq<Buffer>, args: seq<nat>, a: Outcome<seq<Buffer>, ()>)
    requires |args| > 0 && ValidArgs(args, bufs) && a == Acquire(api, p, bufs, args[0])
    ensures var head := if Acquired(bufs[args[0]]) then [] else AcquirePlan(bufs[args[0]], args[0]);
      && ArgsPlan(bufs, args, {}) == head + ArgsPlan(bufs, args[1..], {args[0]})
      && a.calls <= head && (a.Returned? ==> a.calls == head)
      && (a.Returned? ==> Uploaded(p, a.calls, a.st))
  {
    assert {} + {args[0]} == {args[0]};
  }

  /** The plan of a step of `EnqueueArgs`: the first argument's calls, then the rest's, planned in the store it left. */
  lemma EnqueuePlanStep(p: nat, bufs: seq<Buffer>, args: seq<nat>, mid: seq<Buffer>, st: seq<Buffer>,
                        first: seq<Call>, rest: seq<Call>, returned: bool)
    requires |args| > 0 && ValidArgs(args, bufs) && OnlyTouches(bufs, mid, args[0]) && Acquired(mid[args[0]])
    requires var head := if Acquired(bufs[args[0]]) then [] else AcquirePlan(bufs[args[0]], args[0]);
      ArgsPlan(bufs, args, {}) == head + ArgsPlan(bufs, args[1..], {args[0]}) && first == head
    requires Uploaded(p, first, mid)
    requires ValidArgs(args[1..], mid) && |st| == |mid| && KeepsAcquired(mid, st, args[1..])
    requires rest <= ArgsPlan(mid, args[1..], {})
    requires returned ==> rest == ArgsPlan(mid, args[1..], {}) && Uploaded(p + |first|, rest, st)
    ensures first + rest <= ArgsPlan(bufs, args, {})
    ensures returned ==> first + rest == ArgsPlan(bufs, args, {}) && Uploaded(p, first + rest, st)
  {
    ArgsPlanAgrees(mid, {}, bufs, {args[0]}, args[1..]);
    if returned {
      assert st[args[0]] == mid[args[0]];
      UploadedAppend(p, first, rest, mid, st, args[0]);
    }
  }

  /**
    Uploads logged from `p` into one buffer `b` that later calls leave alone,
    then uploads logged after them: together they are logged from `p`.
   */
  lemma UploadedAppend(p: nat, first: seq<Call>, rest: seq<Call>, mid: seq<Buffer>, st: seq<Buffer>, b: nat)
    requires Uploaded(p, first, mid) && Uploaded(p + |first|, rest, st)
    requires forall x :: 0 <= x < |first| && first[x].WriteBuffer? ==> first[x].buffer == b
    requires b < |st| && b < |mid| && st[b] == mid[b]
    ensures Uploaded(p, first + rest, st)
  {
    var c := first + rest;
    forall x | 0 <= x < |c| && c[x].WriteBuffer?
      ensures c[x].buffer < |st| && st[c[x].buffer].upload == Some(p + x)
    {
      if x < |first| {
        assert c[x] == first[x];
      } else {
        assert c[x] == rest[x - |first|];
      }
    }
  }

  /** What acquiring the first argument alone establishes. */
  lemma EnqueueFirstState(args: seq<nat>, bufs: seq<Buffer>, mid: seq<Buffer>, first: seq<Call>)
    requires |args| > 0 && ValidArgs(args, bufs) && OnlyTouches(bufs, mid, args[0])
    requires Acquired(bufs[args[0]]) ==> mid == bufs && first == []
    requires forall c :: c in first ==>
               c == CreateBuffer(args[0], bufs[args[0]].size, Flags(bufs[args[0]].mode)) || c == WriteBuffer(args[0])
    requires forall i :: 0 < i < |first| ==> first[i] == WriteBuffer(args[0])
    ensures SameShape(bufs, mid) && KeepsAcquired(bufs, mid, args)
  {
  }

  /** The store after one step of `EnqueueArgs`: the first argument acquired, then the rest. */
  lemma EnqueueStepState(args: seq<nat>, bufs: seq<Buffer>, mid: seq<Buffer>, st: seq<Buffer>, returned: bool)
    requires |args| > 0 && ValidArgs(args, bufs) && OnlyTouches(bufs, mid, args[0])
    requires Acquired(mid[args[0]])
    requires Acquired(bufs[args[0]]) ==> mid == bufs
    requires ValidArgs(args[1..], mid) && SameShape(mid, st) && KeepsAcquired(mid, st, args[1..])
    requires returned ==> forall j :: 0 <= j < |args| - 1 ==> Acquired(st[args[1..][j]])
    ensures SameShape(bufs, st) && KeepsAcquired(bufs, st, args)
    ensures returned ==> forall j :: 0 <= j < |args| ==> Acquired(st[args[j]])
  {
    var b0 := args[0];
    if returned {
      forall j | 0 <= j < |args| ensures Acquired(st[args[j]]) {
        if j > 0 {
          assert args[j] == args[1..][j - 1];
        } else if b0 in args[1..] {
          var k :| 0 <= k < |args| - 1 && args[1..][k] == b0;
        }
      }
    }
  }

  /** Creation order across one step of the plan: the first argument's creation, then the rest's. */
  lemma PlanOrderStep(args: seq<nat>, first: seq<Call>, rest: seq<Call>)
    requires |args| > 0
    requires forall c :: c in first ==> c.CreateBuffer? || c.WriteBuffer?
    requires forall c :: c in first ==> c.buffer == args[0]
    requires forall i :: 0 < i < |first| ==> !first[i].CreateBuffer?
    requires forall c :: c in rest ==> (c.CreateBuffer? || c.WriteBuffer?) && c.buffer != args[0] && c.buffer in args[1..]
    requires CreatesInOrder(rest, args[1..])
    ensures CreatesInOrder(first + rest, args)
  {
    var s := first + rest;
    forall i, j | 0 <= i < j < |s| && s[i].CreateBuffer? && s[j].CreateBuffer?
      ensures FirstAt(args, s[i].buffer) < FirstAt(args, s[j].buffer)
    {
      if j < |first| {
        assert false;
      } else if i < |first| {
        assert s[i] in first && s[j] == rest[j - |first|];
        assert FirstAt(args, s[i].buffer) == 0;
      } else {
        assert s[i] == rest[i - |first|] && s[j] == rest[j - |first|];
        assert FirstAt(args, s[i].buffer) == 1 + FirstAt(args[1..], s[i].buffer);
        assert FirstAt(args, s[j].buffer) == 1 + FirstAt(args[1..], s[j].buffer);
      }
    }
  }

  /**
    The calls of `releaseArgs` concern arguments only; downloads and frees
    concern buffers that held memory, downloads only output modes.
   */
  predicate ReleaseCallsOf(calls: seq<Call>, args: seq<nat>, bufs: seq<Buffer>)
    requires ValidArgs(args, bufs)
  {
    forall c :: c in calls ==>
      && (c.ReleaseTransferEvent? || c.ReadBuffer? || c.ReleaseMem?) && c.buffer in args
      && ((c.ReadBuffer? || c.ReleaseMem?) ==> bufs[c.buffer].mem)
      && (c.ReadBuffer? ==> Downloads(bufs[c.buffer].mode))
  }

  /** Memory is freed in the order of first occurrence among the arguments, each buffer at most once. */
  predicate FreesInOrder(calls: seq<Call>, args: seq<nat>)
  {
    forall i, j :: 0 <= i < j < |calls| && calls[i].ReleaseMem? && calls[j].ReleaseMem? ==>
      FirstAt(args, calls[i].buffer) < FirstAt(args, calls[j].buffer)
  }

  /** Downloads happen in the order of first occurrence among the arguments, each buffer at most once. */
  predicate ReadsInOrder(calls: seq<Call>, args: seq<nat>)
  {
    forall i, j :: 0 <= i < j < |calls| && calls[i].ReadBuffer? && calls[j].ReadBuffer? ==>
      FirstAt(args, calls[i].buffer) < FirstAt(args, calls[j].buffer)
  }

  /** Every argument that held memory is downloaded (output modes) and freed. */
  predicate FreesAll(calls: seq<Call>, args: seq<nat>, bufs: seq<Buffer>)
    requires ValidArgs(args, bufs)
  {
    forall j :: 0 <= j < |args| && bufs[args[j]].mem ==>
      && ReleaseMem(args[j]) in calls
      && (Downloads(bufs[args[j]].mode) ==> ReadBuffer(args[j]) in calls)
  }

  /** Only arguments may change. */
  predicate KeepsOthers(bufs: seq<Buffer>, st: seq<Buffer>, args: seq<nat>)
    requires |st| == |bufs|
  {
    forall b :: 0 <= b < |bufs| && b !in args ==> st[b] == bufs[b]
  }

  /**
    `releaseArgs`: release every argument, in argument order, stopping at the
    first that throws. A buffer held twice, or shared with a kernel released
    earlier, is downloaded and freed once.
   */
  function ReleaseArgs(api: Api, p: nat, bufs: seq<Buffer>, args: seq<nat>): (r: Outcome<seq<Buffer>, ()>)
    requires ValidArgs(args, bufs)
    ensures SameShape(bufs, r.st) && KeepsOthers(bufs, r.st, args) && NeverAcquires(bufs, r.st)
    ensures (forall j :: 0 <= j < |args| ==> !bufs[args[j]].mem) ==> r.Returned?
    ensures r.Returned? ==> forall j :: 0 <= j < |args| ==> !r.st[args[j]].mem && r.st[args[j]].upload.None?
    ensures ReleaseCallsOf(r.calls, args, bufs)
    ensures r.Returned? ==> FreesAll(r.calls, args, bufs)
    ensures FreesInOrder(r.calls, args) && ReadsInOrder(r.calls, args)
    ensures r.Raised? ==> r.msg == ReadBufferFailed || r.msg == ReleaseBufferFailed
    decreases |args|
  {
    if |args| == 0 then Returned(bufs, [], ())
    else
      var a := Release(api, p, bufs, args[0]);
      ReleaseHead(api, p, bufs, args);
      if a.Raised? then Raised(a.st, a.calls, a.msg)
      else
        var rest := ReleaseArgs(api, p + |a.calls|, a.st, args[1..]);
        ReleaseStep(args, bufs, a.st, rest.st, a.calls, rest.calls, rest.Returned?);
        if rest.Returned? then Returned(rest.st, a.calls + rest.calls, ())
        else
          Raised(rest.st, a.calls + rest.calls, rest.msg)
  }

  /** No buffer gains memory. */
  predicate NeverAcquires(bufs: seq<Buffer>, st: seq<Buffer>)
    requires |st| == |bufs|
  {
    forall b :: 0 <= b < |bufs| && !bufs[b].mem ==> !st[b].mem
  }

  /** Releasing the first argument, as `ReleaseArgs` needs it. */
  lemma ReleaseHead(api: Api, p: nat, bufs: seq<Buffer>, args: seq<nat>)
    requires |args| > 0 && ValidArgs(args, bufs)
    ensures var r := Release(api, p, bufs, args[0]);
      && SameShape(bufs, r.st) && KeepsOthers(bufs, r.st, args) && NeverAcquires(bufs, r.st)
      && ReleaseCallsOf(r.calls, args, bufs) && FreesInOrder(r.calls, args) && ReadsInOrder(r.calls, args)
      && (forall c :: c in r.calls ==> c.buffer == args[0])
      && (r.Returned? ==> !r.st[args[0]].mem && r.st[args[0]].upload.None?)
      && (r.Returned? && bufs[args[0]].mem ==> ReleaseMem(args[0]) in r.calls)
      && (r.Returned? && bufs[args[0]].mem && Downloads(bufs[args[0]].mode) ==> ReadBuffer(args[0]) in r.calls)
  {
    ReleaseOne(api, p, bufs, args[0]);
    var r := Release(api, p, bufs, args[0]);
    ReleaseFirst(args, bufs, r.st, r.calls, r.Returned?);
  }

  /** One step of `ReleaseArgs`: the first argument released, then the rest. */
  lemma ReleaseStep(args: seq<nat>, bufs: seq<Buffer>, mid: seq<Buffer>, st: seq<Buffer>,
                    first: seq<Call>, rest: seq<Call>, returned: bool)
    requires |args| > 0 && ValidArgs(args, bufs)
    requires SameShape(bufs, mid) && KeepsOthers(bufs, mid, args) && NeverAcquires(bufs, mid)
    requires forall b :: 0 <= b < |bufs| && b != args[0] ==> mid[b] == bufs[b]
    requires !mid[args[0]].mem && mid[args[0]].upload.None?
    requires ReleaseCallsOf(first, args, bufs) && FreesInOrder(first, args) && ReadsInOrder(first, args)
    requires forall c :: c in first ==> c.buffer == args[0]
    requires bufs[args[0]].mem ==> ReleaseMem(args[0]) in first
    requires bufs[args[0]].mem && Downloads(bufs[args[0]].mode) ==> ReadBuffer(args[0]) in first
    requires ValidArgs(args[1..], mid)
    requires SameShape(mid, st) && KeepsOthers(mid, st, args[1..]) && NeverAcquires(mid, st)
    requires returned ==> forall j :: 0 <= j < |args| - 1 ==> !st[args[1..][j]].mem && st[args[1..][j]].upload.None?
    requires ReleaseCallsOf(rest, args[1..], mid) && FreesInOrder(rest, args[1..]) && ReadsInOrder(rest, args[1..])
    requires returned ==> FreesAll(rest, args[1..], mid)
    ensures SameShape(bufs, st) && KeepsOthers(bufs, st, args) && NeverAcquires(bufs, st)
    ensures returned ==> forall j :: 0 <= j < |args| ==> !st[args[j]].mem && st[args[j]].upload.None?
    ensures ReleaseCallsOf(first + rest, args, bufs)
    ensures returned ==> FreesAll(first + rest, args, bufs)
    ensures FreesInOrder(first + rest, args) && ReadsInOrder(first + rest, args)
  {
    ReleaseStepState(args, bufs, mid, st, returned);
    ReleaseStepCalls(args, bufs, mid, first, rest, returned);
    forall c | c in rest
      ensures (c.ReleaseTransferEvent? || c.ReadBuffer? || c.ReleaseMem?) && c.buffer in args[1..]
      ensures (c.ReadBuffer? || c.ReleaseMem?) ==> c.buffer != args[0]
    {
    }
    ReleaseStepOrder(args, first, rest);
  }

  /** The calls of releasing one buffer `b`, as `ReleaseArgs` needs them. */
  lemma ReleaseOne(api: Api, p: nat, bufs: seq<Buffer>, b: nat)
    requires b < |bufs|
    ensures var r := Release(api, p, bufs, b);
      && (forall c :: c in r.calls ==>
            && (c.ReleaseTransferEvent? || c.ReadBuffer? || c.ReleaseMem?) && c.buffer == b
            && ((c.ReadBuffer? || c.ReleaseMem?) ==> bufs[b].mem)
            && (c.ReadBuffer? ==> Downloads(bufs[b].mode)))
      && (forall i, j :: 0 <= i < j < |r.calls| ==> !(r.calls[i].ReleaseMem? && r.calls[j].ReleaseMem?))
      && (forall i, j :: 0 <= i < j < |r.calls| ==> !(r.calls[i].ReadBuffer? && r.calls[j].ReadBuffer?))
      && (r.Returned? && bufs[b].mem ==> ReleaseMem(b) in r.calls)
      && (r.Returned? && bufs[b].mem && Downloads(bufs[b].mode) ==> ReadBuffer(b) in r.calls)
  {
    var buf := bufs[b];
    var r := Release(api, p, bufs, b);
    var ev := EventReleases(buf, b);
    var t := if buf.mem then FreeCalls(api, p + |ev|, buf, b) else [];
    assert r.calls == ev + t;
    ReleaseCallsKinds(api, p, buf, b);
    ReleaseCallsTransfers(api, p, buf, b);
    assert forall i :: 0 <= i < |ev| ==> ev[i].ReleaseTransferEvent?;
    forall i, j | 0 <= i < j < |r.calls|
      ensures !(r.calls[i].ReleaseMem? && r.calls[j].ReleaseMem?) && !(r.calls[i].ReadBuffer? && r.calls[j].ReadBuffer?)
    {
      if i >= |ev| {
        assert r.calls[i] == t[i - |ev|] && r.calls[j] == t[j - |ev|];
      } else {
        assert r.calls[i] == ev[i];
      }
    }
  }

  /** What releasing the first argument alone establishes. */
  lemma ReleaseFirst(args: seq<nat>, bufs: seq<Buffer>, mid: seq<Buffer>, first: seq<Call>, returned: bool)
    requires |args| > 0 && ValidArgs(args, bufs) && OnlyTouches(bufs, mid, args[0])
    requires forall c :: c in first ==>
               && (c.ReleaseTransferEvent? || c.ReadBuffer? || c.ReleaseMem?) && c.buffer == args[0]
               && ((c.ReadBuffer? || c.ReleaseMem?) ==> bufs[args[0]].mem)
               && (c.ReadBuffer? ==> Downloads(bufs[args[0]].mode))
    requires forall i, j :: 0 <= i < j < |first| ==> !(first[i].ReleaseMem? && first[j].ReleaseMem?)
    requires forall i, j :: 0 <= i < j < |first| ==> !(first[i].ReadBuffer? && first[j].ReadBuffer?)
    ensures SameShape(bufs, mid) && KeepsOthers(bufs, mid, args)
    ensures ReleaseCallsOf(first, args, bufs) && FreesInOrder(first, args) && ReadsInOrder(first, args)
  {
  }

  /** The store after one step of `ReleaseArgs`. */
  lemma ReleaseStepState(args: seq<nat>, bufs: seq<Buffer>, mid: seq<Buffer>, st: seq<Buffer>, returned: bool)
    requires |args| > 0 && ValidArgs(args, bufs) && OnlyTouches(bufs, mid, args[0])
    requires !mid[args[0]].mem && mid[args[0]].upload.None?
    requires ValidArgs(args[1..], mid) && SameShape(mid, st) && KeepsOthers(mid, st, args[1..])
    requires NeverAcquires(mid, st)
    requires returned ==> forall j :: 0 <= j < |args| - 1 ==> !st[args[1..][j]].mem && st[args[1..][j]].upload.None?
    ensures SameShape(bufs, st) && KeepsOthers(bufs, st, args)
    ensures returned ==> forall j :: 0 <= j < |args| ==> !st[args[j]].mem && st[args[j]].upload.None?
  {
    if returned {
      forall j | 0 <= j < |args| ensures !st[args[j]].mem && st[args[j]].upload.None? {
        if j > 0 {
          assert args[j] == args[1..][j - 1];
        } else if args[0] in args[1..] {
          var k :| 0 <= k < |args| - 1 && args[1..][k] == args[0];
        }
      }
    }
  }

  /** The calls of one step of `ReleaseArgs`. */
  lemma ReleaseStepCalls(args: seq<nat>, bufs: seq<Buffer>, mid: seq<Buffer>, first: seq<Call>, rest: seq<Call>, returned: bool)
    requires |args| > 0 && ValidArgs(args, bufs) && OnlyTouches(bufs, mid, args[0])
    requires !mid[args[0]].mem
    requires bufs[args[0]].mem ==> ReleaseMem(args[0]) in first
    requires bufs[args[0]].mem && Downloads(bufs[args[0]].mode) ==> ReadBuffer(args[0]) in first
    requires ReleaseCallsOf(first, args, bufs)
    requires ValidArgs(args[1..], mid) && ReleaseCallsOf(rest, args[1..], mid)
    requires returned ==> FreesAll(rest, args[1..], mid)
    ensures ReleaseCallsOf(first + rest, args, bufs)
    ensures returned ==> FreesAll(first + rest, args, bufs)
  {
    var b0 := args[0];
    var s := first + rest;
    forall c | c in rest
      ensures c.buffer in args && ((c.ReadBuffer? || c.ReleaseMem?) ==> c.buffer != b0 && bufs[c.buffer].mem)
    {
      assert c.buffer in args[1..];
    }
    if returned {
      forall j | 0 <= j < |args| && bufs[args[j]].mem
        ensures ReleaseMem(args[j]) in s && (Downloads(bufs[args[j]].mode) ==> ReadBuffer(args[j]) in s)
      {
        if args[j] != b0 {
          assert args[j] == args[1..][j - 1];
          assert mid[args[j]] == bufs[args[j]];
        }
      }
    }
  }

  /** Download and free order across one step of `ReleaseArgs`. */
  lemma ReleaseStepOrder(args: seq<nat>, first: seq<Call>, rest: seq<Call>)
    requires |args| > 0
    requires forall c :: c in first ==> (c.ReleaseTransferEvent? || c.ReadBuffer? || c.ReleaseMem?) && c.buffer == args[0]
    requires FreesInOrder(first, args) && ReadsInOrder(first, args)
    requires forall c :: c in rest ==>
               && (c.ReleaseTransferEvent? || c.ReadBuffer? || c.ReleaseMem?) && c.buffer in args[1..]
               && ((c.ReadBuffer? || c.ReleaseMem?) ==> c.buffer != args[0])
    requires FreesInOrder(rest, args[1..]) && ReadsInOrder(rest, args[1..])
    ensures FreesInOrder(first + rest, args) && ReadsInOrder(first + rest, args)
  {
    var s := first + rest;
    forall i, j | 0 <= i < j < |s| && ((s[i].ReleaseMem? && s[j].ReleaseMem?) || (s[i].ReadBuffer? && s[j].ReadBuffer?))
      ensures FirstAt(args, s[i].buffer) < FirstAt(args, s[j].buffer)
    {
      if j < |first| {
        assert s[i] == first[i] && s[j] == first[j];
      } else if i < |first| {
        assert s[i] in first && s[j] == rest[j - |first|];
        assert FirstAt(args, s[i].buffer) == 0;
      } else {
        assert s[i] == rest[i - |first|] && s[j] == rest[j - |first|];
        assert FirstAt(args, s[i].buffer) == 1 + FirstAt(args[1..], s[i].buffer);
        assert FirstAt(args, s[j].buffer) == 1 + FirstAt(args[1..], s[j].buffer);
      }
    }
  }

  /** The binds of `setArgsToKernel` for kernel `ki`: argument `j` in slot `j`, by value or by handle as its buffer's mode says. */
  function Binds(ki: nat, bufs: seq<Buffer>, args: seq<nat>): (r: seq<Call>)
    requires ValidArgs(args, bufs)
    ensures |r| == |args| && forall j :: 0 <= j < |args| ==> r[j] == SetArg(ki, j, ArgOf(bufs, args[j]))
  {
    seq(|args|, j requires 0 <= j < |args| => SetArg(ki, j, ArgOf(bufs, args[j])))
  }

  /**
    The binds of `setArgsToKernel` from argument `i` on, when the first bind
    is at log position `p`: argument `j` is bound at index `j`, and the second
    component tells whether any of them failed.
   */
  function BindFrom(api: Api, p: nat, ki: nat, bufs: seq<Buffer>, args: seq<nat>, i: nat): (r: (seq<Call>, bool))
    requires ValidArgs(args, bufs) && i <= |args|
    ensures |r.0| == |args| - i
    ensures forall j :: i <= j < |args| ==> r.0[j - i] == SetArg(ki, j, ArgOf(bufs, args[j]))
    ensures r.1 <==> exists j :: i <= j < |args| && FailsAt(api, p, j)
    decreases |args| - i
  {
    if i == |args| then ([], false)
    else
      var rest := BindFrom(api, p, ki, bufs, args, i + 1);
      ([SetArg(ki, i, ArgOf(bufs, args[i]))] + rest.0, FailsAt(api, p, i) || rest.1)
  }

  /**
    `setArgsToKernel`: every argument is bound, whatever the earlier binds
    returned; one error is thrown afterwards if any bind failed.
   */
  function SetArgs(api: Api, p: nat, k: Kernel, ki: nat, bufs: seq<Buffer>): (r: Outcome<Kernel, ()>)
    requires ValidArgs(k.args, bufs)
    ensures r.st == k && |r.calls| == |k.args|
    ensures forall j :: 0 <= j < |k.args| ==> r.calls[j] == SetArg(ki, j, ArgOf(bufs, k.args[j]))
    ensures r.calls == Binds(ki, bufs, k.args)
    ensures r.Raised? <==> exists j :: 0 <= j < |k.args| && FailsAt(api, p, j)
    ensures r.Raised? ==> r.msg == SetArgsFailed
  {
    var b := BindFrom(api, p, ki, bufs, k.args, 0);
    if b.1 then Raised(k, b.0, SetArgsFailed) else Returned(k, b.0, ())
  }

  /** `Kernel::acquireHandle`: the handle is whatever kernel creation returned, absent on failure. */
  function AcquireHandle(api: Api, p: nat, k: Kernel, ki: nat): (r: Outcome<Kernel, ()>)
    ensures r.calls == [CreateKernel(ki, k.name)]
    ensures r.st == k.(handle := !api.fails(p))
    ensures r.Raised? <==> api.fails(p)
    ensures r.Raised? ==> r.msg == CreateKernelFailed
  {
    if api.fails(p) then Raised(k.(handle := false), [CreateKernel(ki, k.name)], CreateKernelFailed)
    else Returned(k.(handle := true), [CreateKernel(ki, k.name)], ())
  }

  /**
    `Kernel::releaseHandle`: release the launch event, then the kernel, each
    only if present; return codes are not checked.
   */
  function ReleaseHandle(k: Kernel, ki: nat): (r: Outcome<Kernel, ()>)
    ensures r.Returned? && !r.st.handle && r.st.event.None?
    ensures r.st == k.(handle := false, event := None)
    ensures ReleaseKernel(ki) in r.calls <==> k.handle
    ensures (exists e :: ReleaseLaunchEvent(ki, e) in r.calls) <==> k.event.Some?
    ensures k.event.Some? ==> r.calls[0] == ReleaseLaunchEvent(ki, k.event.value)
    ensures |r.calls| <= 2 && (k.handle ==> r.calls[|r.calls| - 1] == ReleaseKernel(ki))
  {
    var ev := if k.event.Some? then [ReleaseLaunchEvent(ki, k.event.value)] else [];
    var kr := if k.handle then [ReleaseKernel(ki)] else [];
    assert k.event.Some? ==> ReleaseLaunchEvent(ki, k.event.value) in ev + kr;
    Returned(k.(handle := false, event := None), ev + kr, ())
  }

  /** A second `releaseHandle` releases nothing and changes nothing. */
  lemma ReleaseHandleIdempotent(k: Kernel, ki: nat)
    ensures var r := ReleaseHandle(k, ki);
      ReleaseHandle(r.st, ki).calls == [] && ReleaseHandle(r.st, ki).st == r.st
  {
  }

  /**
    `runKernel`: launch with as many dimensions as global work sizes; on
    success the launch event is recorded.
   */
  function RunKernel(api: Api, p: nat, k: Kernel, ki: nat): (r: Outcome<Kernel, ()>)
    ensures r.calls == [EnqueueKernel(ki, |k.global|, k.global, k.local)]
    ensures r.Raised? <==> api.fails(p)
    ensures r.Raised? ==> r.st == k && r.msg == EnqueueKernelFailed
    ensures r.Returned? ==> r.st == k.(event := Some(p))
  {
    var c := EnqueueKernel(ki, |k.global|, k.global, k.local);
    if api.fails(p) then Raised(k, [c], EnqueueKernelFailed)
    else Returned(k.(event := Some(p)), [c], ())
  }
}

=== FILE: matrix.dfy ===
/**
  The bounds-checked row-major `Matrix`. `m[i][j]` first checks the row, then
  the column, and then addresses `data[i * width + j]`, with the product
  taken in 32-bit `unsigned` arithmetic. Indices are plain integers here: the
  newer header takes `int` indices and rejects negative ones, the older one
  takes `unsigned` indices, where only the upper bounds can fail (see
  `UnsignedIndexChecks`). Elements are integers.
 */
module Matrices {
  import opened Common

  datatype Matrix = Matrix(data: seq<int>, width: u32, height: u32)

  const RowError := "Matrix row index is out of range"
  const ColumnError := "Matrix column index is out of range"

  /** The storage holds exactly one element per (row, column) pair, and no offset wraps. */
  predicate Shaped(m: Matrix)
  {
    |m.data| == m.height * m.width < Modulus32
  }

  /** Both indices pass the bounds checks. */
  predicate InRange(m: Matrix, i: int, j: int)
  {
    0 <= i < m.height && 0 <= j < m.width
  }

  /** The storage offset of element (i, j): the row offset wraps at 2^32. */
  function Offset(m: Matrix, i: nat, j: nat): nat
  {
    (i * m.width) % Modulus32 + j
  }

  /**
    `setSize(h, w)`: the new dimensions, and storage resized to the 32-bit
    product `h * w` and filled with zeros.
   */
  function SetSize(m: Matrix, height: u32, width: u32): (r: Matrix)
    ensures r.height == height && r.width == width
    ensures |r.data| == (height * width) % Modulus32
    ensures forall k :: 0 <= k < |r.data| ==> r.data[k] == 0
  {
    Matrix(seq((height * width) % Modulus32, _ => 0), width, height)
  }

  /**
    `setSizeNoResizing(h, w)`: only the dimensions change, so the storage
    fits them exactly when it already had `h * w` elements.
   */
  function SetSizeNoResizing(m: Matrix, height: u32, width: u32): (r: Matrix)
    ensures r.data == m.data && r.height == height && r.width == width
    ensures Shaped(r) <==> |m.data| == height * width < Modulus32
  {
    m.(height := height, width := width)
  }

  /**
    `m[i][j]` read. An index that passes both checks must address storage:
    after `setSizeNoResizing` it need not, and the access is undefined.
   */
  function At(m: Matrix, i: int, j: int): (r: Result<int>)
    requires InRange(m, i, j) ==> Offset(m, i, j) < |m.data|
    ensures r.Success? <==> InRange(m, i, j)
    ensures r.Failure? ==> r.error == (if 0 <= i < m.height then ColumnError else RowError)
  {
    if i < 0 || i >= m.height then Failure(RowError)
    else if j < 0 || j >= m.width then Failure(ColumnError)
    else Success(m.data[Offset(m, i, j)])
  }

  /** `m[i][j] = x`: the same checks as a read, then one element replaced. */
  function Store(m: Matrix, i: int, j: int, x: int): (r: Result<Matrix>)
    requires InRange(m, i, j) ==> Offset(m, i, j) < |m.data|
    ensures r.Success? <==> InRange(m, i, j)
    ensures r.Failure? ==> r.error == (if 0 <= i < m.height then ColumnError else RowError)
    ensures r.Success? ==> r.value.width == m.width && r.value.height == m.height && |r.value.data| == |m.data|
  {
    if i < 0 || i >= m.height then Failure(RowError)
    else if j < 0 || j >= m.width then Failure(ColumnError)
    else Success(m.(data := m.data[Offset(m, i, j) := x]))
  }

  /**
    `getSizeInBytes()`: `width * height` in 32 bits, times `sizeof(T)` in
    64 bits, returned as a 32-bit `unsigned`.
   */
  function SizeInBytes(m: Matrix, elemSize: u64): (r: u32)
    ensures Shaped(m) && |m.data| * elemSize < Modulus32 ==> r == |m.data| * elemSize
  {
    if Shaped(m) && |m.data| * elemSize < Modulus32 then
      BytesExact(m.width, m.height, |m.data|, elemSize);
      ((m.width * m.height) % Modulus32 * elemSize) % Modulus64 % Modulus32
    else
      ((m.width * m.height) % Modulus32 * elemSize) % Modulus64 % Modulus32
  }

  /** When neither the element count nor the byte count wraps, every modulus of `SizeInBytes` leaves it alone. */
  lemma BytesExact(w: nat, h: nat, n: nat, e: nat)
    requires n == h * w < Modulus32 && n * e < Modulus32
    ensures ((w * h) % Modulus32 * e) % Modulus64 % Modulus32 == n * e
  {
    assert w * h == n;
    DivModUnique(n, 0, n, Modulus32);
    assert (w * h) % Modulus32 == n;
    DivModUnique(n * e, 0, n * e, Modulus64);
    DivModUnique(n * e, 0, n * e, Modulus32);
  }

  /** The last element of row `i` comes before the end of `h` rows. */
  lemma RowBound(i: int, j: int, w: int, h: int)
    requires 0 <= i < h && 0 <= j < w
    ensures 0 <= i * w + j < h * w
  {
    MonotoneProduct(i + 1, h, w);
    MonotoneProduct(0, i, w);
    assert (i + 1) * w == i * w + w;
  }

  /**
    In a shaped matrix an in-range index addresses storage at `i * width + j`,
    with no wrap-around.
   */
  lemma RowMajor(m: Matrix, i: nat, j: nat)
    requires Shaped(m) && InRange(m, i, j)
    ensures Offset(m, i, j) == i * m.width + j < |m.data|
  {
    RowBound(i, j, m.width, m.height);
    DivModUnique(i * m.width, 0, i * m.width, Modulus32);
  }

  /** In a shaped matrix an in-range read returns the row-major element. */
  lemma AtRowMajor(m: Matrix, i: int, j: int)
    requires Shaped(m) && InRange(m, i, j)
    ensures Offset(m, i, j) == i * m.width + j < |m.data|
    ensures At(m, i, j) == Success(m.data[i * m.width + j])
  {
    RowMajor(m, i, j);
  }

  /** Distinct in-range index pairs of a shaped matrix address distinct elements. */
  lemma OffsetInjective(m: Matrix, i: nat, j: nat, i': nat, j': nat)
    requires Shaped(m) && InRange(m, i, j) && InRange(m, i', j')
    requires Offset(m, i, j) == Offset(m, i', j')
    ensures i == i' && j == j'
  {
    RowMajor(m, i, j);
    RowMajor(m, i', j');
    DivModUnique(i * m.width + j, i, j, m.width);
    DivModUnique(i * m.width + j, i', j', m.width);
  }

  /** Every storage slot of a shaped matrix is the element of exactly one (row, column) pair. */
  lemma OffsetCovers(m: Matrix, k: nat)
    requires Shaped(m) && k < |m.data|
    ensures m.width > 0 && InRange(m, k / m.width, k % m.width)
    ensures Offset(m, k / m.width, k % m.width) == k
  {
    QuotientRow(k, m.width, m.height);
    RowMajor(m, k / m.width, k % m.width);
  }

  /** A slot below `h * w` lies in one of the first `h` rows of width `w`. */
  lemma QuotientRow(k: nat, w: nat, h: nat)
    requires k < h * w
    ensures w > 0 && 0 <= k / w < h && 0 <= k % w < w
  {
    if w == 0 {
      assert false;
    } else {
      var q := k / w;
      assert k == q * w + k % w;
      if h <= q {
        MonotoneProduct(h, q, w);
      }
    }
  }

  /** A resized matrix is shaped, and every in-range element reads as zero. */
  lemma SetSizeShaped(m: Matrix, height: u32, width: u32, i: int, j: int)
    requires height * width < Modulus32
    ensures Shaped(SetSize(m, height, width))
    ensures InRange(SetSize(m, height, width), i, j) ==> Offset(SetSize(m, height, width), i, j) < height * width
    ensures InRange(SetSize(m, height, width), i, j) ==> At(SetSize(m, height, width), i, j) == Success(0)
  {
    var r := SetSize(m, height, width);
    if InRange(r, i, j) {
      RowMajor(r, i, j);
    }
  }

  /** A stored element reads back, and every other element of a shaped matrix is unchanged. */
  lemma StoreThenAt(m: Matrix, i: int, j: int, x: int, i': int, j': int)
    requires Shaped(m) && InRange(m, i, j)
    ensures Offset(m, i, j) < |m.data| && (InRange(m, i', j') ==> Offset(m, i', j') < |m.data|)
    ensures Shaped(Store(m, i, j, x).value)
    ensures At(Store(m, i, j, x).value, i, j) == Success(x)
    ensures (i', j') != (i, j) ==> At(Store(m, i, j, x).value, i', j') == At(m, i', j')
  {
    RowMajor(m, i, j);
    var r := Store(m, i, j, x).value;
    RowMajor(r, i, j);
    if (i', j') != (i, j) && InRange(m, i', j') {
      RowMajor(m, i', j');
      RowMajor(r, i', j');
      if Offset(m, i, j) == Offset(m, i', j') {
        OffsetInjective(m, i, j, i', j');
      }
    }
  }

  /**
    The unsigned-index variant: a row index at or past the height throws the
    row error, otherwise a column index at or past the width throws the
    column error.
   */
  lemma UnsignedIndexChecks(m: Matrix, i: u32, j: u32)
    requires Shaped(m)
    ensures InRange(m, i, j) ==> Offset(m, i, j) == i * m.width + j < |m.data|
    ensures i >= m.height ==> At(m, i, j) == Failure(RowError)
    ensures i < m.height && j >= m.width ==> At(m, i, j) == Failure(ColumnError)
    ensures i < m.height && j < m.width ==> At(m, i, j) == Success(m.data[i * m.width + j])
  {
    if InRange(m, i, j) {
      RowMajor(m, i, j);
    }
  }

  /** `setSizeNoResizing` can leave a matrix whose storage does not fit its dimensions. */
  lemma NoResizingUnshapes(m: Matrix)
    ensures !Shaped(SetSizeNoResizing(SetSize(m, 1, 1), 2, 2))
  {
  }
}

=== FILE: ndrange.dfy ===
/**
  `makeGlobalNDRange`: the global work size of a launch, each dimension rounded
  up to a multiple of the local size of the same index. Both operands first
  pass through `std::ceil`, which converts the `std::size_t` to a `double`
  (rounding to the nearest double, ties to even) and back; the conversion
  back is defined only below 2^64. The rounding itself is `std::size_t`
  arithmetic, so a sum that passes 2^64 wraps.
 */
module NDRange {
  import opened Common

  /** 2^53: every integer up to it is a `double`. */
  const Exact: nat := 0x20_0000_0000_0000

  function Pow2(k: nat): (r: nat)
    ensures r >= 1
  {
    if k == 0 then 1 else 2 * Pow2(k - 1)
  }

  /** The spacing of the doubles around `n`: 1 below 2^53, twice as wide for each further binary digit. */
  function Ulp(n: nat): (u: nat)
    ensures u >= 1
  {
    if n < Exact then 1 else 2 * Ulp(n / 2)
  }

  /** The multiple of `u` nearest to `n`, a tie going to the even multiple. */
  function RoundTo(n: nat, u: nat): nat
    requires u >= 1
  {
    var q := n / u;
    (if 2 * (n % u) < u || (2 * (n % u) == u && q % 2 == 0) then q else q + 1) * u
  }

  /** `(double) n`: `n` rounded to the spacing of the doubles around it. */
  function ToDouble(n: nat): nat
  {
    RoundTo(n, Ulp(n))
  }

  /** `std::size_t(std::ceil(n))` is defined: the double is below 2^64. */
  predicate Converts(n: u64)
  {
    ToDouble(n) < Modulus64
  }

  /** `std::size_t(std::ceil(n))`: the ceiling of an integral double is itself. */
  function Ceil(n: u64): (r: u64)
    requires Converts(n)
    ensures n > 0 ==> r > 0
  {
    if n == 0 then ToDouble(n) else DoublePositive(n); ToDouble(n)
  }

  /** The spacing around `n` is a power of two not above `2^k` when `n < 2^(53 + k)`. */
  lemma {:induction false} UlpDivides(n: nat, k: nat)
    requires n < Exact * Pow2(k)
    ensures Pow2(k) % Ulp(n) == 0 && Ulp(n) <= Pow2(k)
  {
    if k == 0 {
      assert Exact * Pow2(k) == Exact;
    } else if n >= Exact {
      assert Exact * Pow2(k) == 2 * (Exact * Pow2(k - 1));
      UlpDivides(n / 2, k - 1);
      var c := Pow2(k - 1) / Ulp(n / 2);
      assert Pow2(k - 1) == c * Ulp(n / 2);
      assert Pow2(k) == c * Ulp(n);
      DivModUnique(Pow2(k), c, 0, Ulp(n));
    }
  }

  /** From `2^(53 + k)` up to `2^(54 + k)` the doubles are `2^(k + 1)` apart. */
  lemma {:induction false} UlpAt(n: nat, k: nat)
    requires Exact * Pow2(k) <= n < Exact * Pow2(k + 1)
    ensures Ulp(n) == Pow2(k + 1)
  {
    assert Exact * Pow2(k + 1) == 2 * (Exact * Pow2(k));
    if k > 0 {
      assert Exact * Pow2(k) == 2 * (Exact * Pow2(k - 1));
      UlpAt(n / 2, k - 1);
    }
  }

  /**
    The double of `n` is a multiple of the spacing and at most half a
    spacing away from `n`; it is `n` itself when `n` is a multiple of the
    spacing, in particular below 2^53.
   */
  lemma DoubleNearest(n: nat)
    ensures ToDouble(n) % Ulp(n) == 0
    ensures n - Ulp(n) / 2 <= ToDouble(n) <= n + Ulp(n) / 2
    ensures n % Ulp(n) == 0 ==> ToDouble(n) == n
    ensures n < Exact ==> ToDouble(n) == n
  {
    RoundToNearest(n, Ulp(n));
  }

  /** Rounding to a multiple of `u` moves `n` by at most `u / 2` and keeps a multiple as it is. */
  lemma RoundToNearest(n: nat, u: nat)
    requires u >= 1
    ensures RoundTo(n, u) % u == 0
    ensures n - u / 2 <= RoundTo(n, u) <= n + u / 2
    ensures n % u == 0 ==> RoundTo(n, u) == n
  {
    var q := n / u;
    assert n == q * u + n % u;
    if 2 * (n % u) < u || (2 * (n % u) == u && q % 2 == 0) {
      DivModUnique(q * u, q, 0, u);
    } else {
      assert (q + 1) * u == q * u + u;
      DivModUnique((q + 1) * u, q + 1, 0, u);
    }
  }

  /** A multiple of `2^k` below `2^(53 + k)` is a double. */
  lemma ExactMultiple(n: nat, k: nat)
    requires n < Exact * Pow2(k) && n % Pow2(k) == 0
    ensures ToDouble(n) == n
  {
    UlpDivides(n, k);
    DividesThrough(n, Pow2(k), Ulp(n));
    DoubleNearest(n);
  }

  /** A multiple of `a` is a multiple of every divisor `b` of `a`. */
  lemma DividesThrough(n: nat, a: nat, b: nat)
    requires a > 0 && b > 0 && n % a == 0 && a % b == 0
    ensures n % b == 0
  {
    var m := n / a;
    var c := a / b;
    assert n == m * a;
    assert a == c * b;
    assert n == (m * c) * b;
    DivModUnique(n, m * c, 0, b);
  }

  /** A positive size stays positive through the conversion. */
  lemma DoublePositive(n: nat)
    requires n > 0
    ensures ToDouble(n) > 0
  {
    DoubleNearest(n);
    if n >= Exact {
      UlpBelow(n);
    }
  }

  /** At and above 2^53 the spacing is at most `n / 2^52`, so half of it stays below `n`. */
  lemma {:induction false} UlpBelow(n: nat)
    requires n >= Exact
    ensures Ulp(n) <= n / (Exact / 2)
  {
    if n / 2 >= Exact {
      UlpBelow(n / 2);
      assert (n / 2) / (Exact / 2) == n / Exact;
    }
  }

  /** One dimension rounded up to a multiple of the local size, after both went through `std::ceil`. */
  function RoundUp(dim: u64, local: u64): (r: u64)
    requires local > 0 && Converts(dim) && Converts(local)
    ensures Ceil(local) > 0
    ensures Ceil(dim) % Ceil(local) == 0 ==> r == Ceil(dim)
    ensures dim < Exact && local < Exact && dim % local == 0 ==> r == dim
  {
    DoubleNearest(local);
    DoubleNearest(dim);
    var l := Ceil(local);
    var d := Ceil(dim);
    if d % l == 0 then d else (d + l - d % l) % Modulus64
  }

  /** The rounding of the converted dimension stays below 2^64. */
  predicate NoWrap(dim: u64, local: u64)
    requires local > 0 && Converts(dim) && Converts(local)
  {
    Ceil(dim) % Ceil(local) == 0 || Ceil(dim) + Ceil(local) - Ceil(dim) % Ceil(local) < Modulus64
  }

  /** `r` is the least multiple of `local` that is not below `dim`. */
  predicate LeastMultipleAbove(r: int, dim: int, local: int)
    requires local > 0
  {
    && r % local == 0 && dim <= r
    && forall m: int :: m % local == 0 && dim <= m ==> r <= m
  }

  /**
    Without wrap-around the rounding is the least multiple of the converted
    local size that is not below the converted dimension.
   */
  lemma RoundUpIsLeast(dim: u64, local: u64)
    requires local > 0 && Converts(dim) && Converts(local) && NoWrap(dim, local)
    ensures Ceil(local) > 0
    ensures LeastMultipleAbove(RoundUp(dim, local), Ceil(dim), Ceil(local))
    ensures RoundUp(dim, local) - Ceil(dim) < Ceil(local)
  {
    var l := Ceil(local);
    var d := Ceil(dim);
    var r := RoundUp(dim, local);
    var q := d / l;
    if d % l == 0 {
      assert r == d;
    } else {
      var e := d + l - d % l;
      assert 0 <= e < Modulus64;
      assert r == e % Modulus64;
      DivModUnique(e, 0, e, Modulus64);
      assert d == q * l + d % l;
      assert r == (q + 1) * l;
      DivModUnique(r, q + 1, 0, l);
      forall m: int | m % l == 0 && d <= m
        ensures r <= m
      {
        NextMultiple(m, q, l);
      }
    }
  }

  /**
    For sizes below 2^53, which a double holds exactly, the rounding is the
    least multiple of the local size not below the dimension.
   */
  lemma RoundUpExact(dim: u64, local: u64)
    requires 0 < local < Exact && dim < Exact
    ensures Converts(dim) && Converts(local)
    ensures LeastMultipleAbove(RoundUp(dim, local), dim, local)
    ensures RoundUp(dim, local) - dim < local
  {
    DoubleNearest(dim);
    DoubleNearest(local);
    RoundUpIsLeast(dim, local);
  }

  /** Rounding a rounded dimension changes nothing while everything stays below 2^53. */
  lemma RoundUpIdempotent(dim: u64, local: u64)
    requires 0 < local && dim + local < Exact
    ensures Converts(dim) && Converts(local) && RoundUp(dim, local) < Exact
    ensures Converts(RoundUp(dim, local)) && RoundUp(RoundUp(dim, local), local) == RoundUp(dim, local)
  {
    RoundUpExact(dim, local);
    DoubleNearest(RoundUp(dim, local));
  }

  /**
    Past 2^53 the conversion loses the last binary digit: `2^53 + 1` becomes
    `2^53`, so a dimension can come back smaller than it was.
   */
  lemma RoundUpBelowDimension()
    ensures Converts(Exact + 1) && Converts(2)
    ensures RoundUp(Exact + 1, 2) == Exact < Exact + 1
  {
    assert Ulp(Exact + 1) == 2;
    assert ToDouble(2) == 2;
  }

  /**
    The rounding wraps: `2^64 - 2048` is a double, and rounding it up to a
    multiple of `2^63` gives 2^64, which is 0 as a `std::size_t`.
   */
  lemma RoundUpWraps()
    ensures Converts(Modulus64 - 2048) && Converts(Exact * 1024)
    ensures RoundUp(Modulus64 - 2048, Exact * 1024) == 0
    ensures !NoWrap(Modulus64 - 2048, Exact * 1024)
  {
    assert Pow2(10) == 1024 && Pow2(11) == 2048;
    UlpAt(Modulus64 - 2048, 10);
    UlpAt(Exact * 1024, 10);
    RoundToNearest(Modulus64 - 2048, 2048);
    RoundToNearest(Exact * 1024, 2048);
  }

  /** The largest `std::size_t` becomes the double 2^64, which converts back to no `std::size_t`. */
  lemma MaxDoesNotConvert()
    ensures ToDouble(ULongMax) == Modulus64 && !Converts(ULongMax)
  {
    assert Pow2(10) == 1024 && Pow2(11) == 2048;
    UlpAt(ULongMax, 10);
  }

  /**
    `makeGlobalNDRange(local, dims...)`: the result has one entry per local
    size; the `i`-th work dimension is rounded up to `local[i]`, and the
    entries past the last dimension keep their zero initialisation. The
    source indexes `local` and divides by it for every dimension, so it
    needs at least as many local sizes as dimensions, none of them zero, and
    every operand must convert back from its double.
   */
  method MakeGlobalNDRange(local: seq<u64>, dims: seq<u64>) returns (r: seq<u64>)
    requires |dims| <= |local|
    requires forall i :: 0 <= i < |dims| ==> local[i] > 0 && Converts(local[i]) && Converts(dims[i])
    ensures |r| == |local|
    ensures forall i :: 0 <= i < |dims| ==> r[i] == RoundUp(dims[i], local[i])
    ensures forall i :: 0 <= i < |dims| && NoWrap(dims[i], local[i]) ==>
              LeastMultipleAbove(r[i], Ceil(dims[i]), Ceil(local[i])) && r[i] - Ceil(dims[i]) < Ceil(local[i])
    ensures forall i :: 0 <= i < |dims| && dims[i] < Exact && local[i] < Exact ==>
              LeastMultipleAbove(r[i], dims[i], local[i]) && r[i] - dims[i] < local[i]
    ensures forall i :: |dims| <= i < |local| ==> r[i] == 0
  {
    r := seq(|local|, _ => 0);
    var iter := 0;
    while iter < |dims|
      invariant iter <= |dims| && |r| == |local|
      invariant forall i :: 0 <= i < iter ==> r[i] == RoundUp(dims[i], local[i])
      invariant forall i :: iter <= i < |local| ==> r[i] == 0
    {
      r := r[iter := RoundUp(dims[iter], local[iter])];
      iter := iter + 1;
    }
    forall i | 0 <= i < |dims| && NoWrap(dims[i], local[i])
      ensures LeastMultipleAbove(r[i], Ceil(dims[i]), Ceil(local[i])) && r[i] - Ceil(dims[i]) < Ceil(local[i])
    {
      RoundUpIsLeast(dims[i], local[i]);
    }
    forall i | 0 <= i < |dims| && dims[i] < Exact && local[i] < Exact
      ensures LeastMultipleAbove(r[i], dims[i], local[i]) && r[i] - dims[i] < local[i]
    {
      RoundUpExact(dims[i], local[i]);
    }
  }
}

=== FILE: p5.dfy ===
/**
  `read_P5_image_from_file`: the binary PGM ("P5") reader, as a parser over
  the bytes of the file. The magic token, then width, height and maximum
  value as decimal numbers separated by whitespace, then `width * height`
  raster bytes. A raster shorter than announced is padded the way the
  stream leaves its target byte on a failed read: the previous byte again,
  or an indeterminate value `junk` when nothing was read.
 */
module P5 {
  import opened Common

  datatype Image = Image(width: u32, height: u32, maxVal: u32, data: seq<u8>)

  const OpenError := "Unable to open input file"
  const FormatError := "Invalid file format"
  const MaxValueError := "Invalid max value"
  /** A header number that is missing, or does not fit an `unsigned`. */
  const HeaderError := "Invalid header number"

  /** "P5". */
  const Magic: seq<u8> := [80, 53]

  /** `isspace` in the C locale: space, tab, newline, vertical tab, form feed, carriage return. */
  predicate IsSpace(b: u8)
  {
    b == 32 || 9 <= b <= 13
  }

  predicate IsDigit(b: u8)
  {
    48 <= b <= 57
  }

  /** Leading whitespace skipped, as formatted extraction and `std::ws` do. */
  function SkipSpace(s: seq<u8>): (r: seq<u8>)
    ensures |r| <= |s| && r == s[|s| - |r|..]
    ensures forall i :: 0 <= i < |s| - |r| ==> IsSpace(s[i])
    ensures r != [] ==> !IsSpace(r[0])
  {
    if s != [] && IsSpace(s[0]) then SkipSpace(s[1..]) else s
  }

  /** The length of the leading run of bytes satisfying neither whitespace nor end of input. */
  function WordLength(s: seq<u8>): (n: nat)
    ensures n <= |s| && (forall i :: 0 <= i < n ==> !IsSpace(s[i])) && (n < |s| ==> IsSpace(s[n]))
  {
    if s == [] || IsSpace(s[0]) then 0 else 1 + WordLength(s[1..])
  }

  /** The length of the leading run of decimal digits. */
  function DigitLength(s: seq<u8>): (n: nat)
    ensures n <= |s| && (forall i :: 0 <= i < n ==> IsDigit(s[i])) && (n < |s| ==> !IsDigit(s[n]))
  {
    if s == [] || !IsDigit(s[0]) then 0 else 1 + DigitLength(s[1..])
  }

  /** The value of a run of decimal digits. */
  function Value(d: seq<u8>): nat
    requires forall i :: 0 <= i < |d| ==> IsDigit(d[i])
  {
    if d == [] then 0 else assert IsDigit(d[|d| - 1]); Value(d[..|d| - 1]) * 10 + (d[|d| - 1] as int - 48)
  }

  /** `fin >> tmp` into a string: whitespace skipped, then one word. */
  function ReadWord(s: seq<u8>): (r: (seq<u8>, seq<u8>))
    ensures r.0 + r.1 == SkipSpace(s)
  {
    var t := SkipSpace(s);
    var n := WordLength(t);
    assert t[..n] + t[n..] == t;
    (t[..n], t[n..])
  }

  /** `fin >> n` into an `unsigned`: whitespace skipped, then the digits. */
  function ReadNumber(s: seq<u8>): (r: Option<(u32, seq<u8>)>)
    ensures var t := SkipSpace(s); r.None? <==> DigitLength(t) == 0 || Value(t[..DigitLength(t)]) >= Modulus32
    ensures r.Some? ==> |r.value.1| < |s| && (r.value.1 == [] || !IsDigit(r.value.1[0]))
  {
    var t := SkipSpace(s);
    var n := DigitLength(t);
    if n == 0 then None
    else
      var v := Value(t[..n]);
      if v >= Modulus32 then None else Some((v as u32, t[n..]))
  }

  /**
    The raster loop with the stream's skipws flag off: each extraction
    takes the next byte; past the end the target byte keeps its value.
   */
  function Raster(s: seq<u8>, count: nat, prev: u8): (r: seq<u8>)
    ensures |r| == count
    ensures count <= |s| ==> r == s[..count]
    decreases count
  {
    if count == 0 then []
    else if s == [] then [prev] + Raster(s, count - 1, prev)
    else [s[0]] + Raster(s[1..], count - 1, s[0])
  }

  /** Width, height and maximum value read one after the other, and the bytes after them. */
  function Numbers(s: seq<u8>): Option<(u32, u32, u32, seq<u8>)>
  {
    var w := ReadNumber(s);
    var h := if w.Some? then ReadNumber(w.value.1) else None;
    var m := if h.Some? then ReadNumber(h.value.1) else None;
    if m.Some? then Some((w.value.0, h.value.0, m.value.0, m.value.1)) else None
  }

  /**
    The header read, shared by both readers: the failed open, the magic
    token, the three numbers and the maximum-value check, in this order.
    On success it gives the header and the bytes after the maximum value.
   */
  function Header(found: bool, input: seq<u8>): (r: Result<(Image, seq<u8>)>)
    ensures !found ==> r == Failure(OpenError)
    ensures found && ReadWord(input).0 != Magic ==> r == Failure(FormatError)
    ensures found && ReadWord(input).0 == Magic && Numbers(ReadWord(input).1).None? ==> r == Failure(HeaderError)
    ensures found && ReadWord(input).0 == Magic && Numbers(ReadWord(input).1).Some? ==>
              var (width, height, maxVal, rest) := Numbers(ReadWord(input).1).value;
              && (maxVal > 255 ==> r == Failure(MaxValueError))
              && (maxVal <= 255 ==> r == Success((Image(width, height, maxVal, []), rest)))
    ensures r.Success? ==> found && ReadWord(input).0 == Magic && r.value.0.maxVal <= 255 && r.value.0.data == []
  {
    if !found then Failure(OpenError)
    else
      var (word, rest) := ReadWord(input);
      if word != Magic then Failure(FormatError)
      else
        match Numbers(rest)
        case None => Failure(HeaderError)
        case Some((width, height, maxVal, r3)) =>
          if maxVal > 255 then Failure(MaxValueError)
          else Success((Image(width, height, maxVal, []), r3))
  }

  /** The loop bound `width * height`, an `unsigned` product. */
  function PixelCount(width: u32, height: u32): nat
  {
    (width * height) % Modulus32
  }

  /**
    The reader as written: `>> std::ws` after the maximum value skips every
    whitespace byte, including raster bytes that happen to be whitespace
    codes.
   */
  function ReadAsWritten(found: bool, input: seq<u8>, junk: u8): (r: Result<Image>)
    ensures r.Success? <==> Header(found, input).Success?
    ensures r.Success? ==> |r.value.data| == PixelCount(r.value.width, r.value.height) && r.value.maxVal <= 255
  {
    match Header(found, input)
    case Failure(e) => Failure(e)
    case Success((img, rest)) =>
      Success(img.(data := Raster(SkipSpace(rest), PixelCount(img.width, img.height), junk)))
  }

  /**
    The reader as the format intends: exactly one whitespace byte separates
    the maximum value from the raster.
   */
  function Read(found: bool, input: seq<u8>, junk: u8): (r: Result<Image>)
    ensures r.Success? <==> Header(found, input).Success?
    ensures r.Success? ==> |r.value.data| == PixelCount(r.value.width, r.value.height) && r.value.maxVal <= 255
  {
    match Header(found, input)
    case Failure(e) => Failure(e)
    case Success((img, rest)) =>
      var raster := if rest != [] && IsSpace(rest[0]) then rest[1..] else rest;
      Success(img.(data := Raster(raster, PixelCount(img.width, img.height), junk)))
  }

  /** The decimal digits of `n`, most significant first. */
  function Decimal(n: nat): (d: seq<u8>)
    ensures d != [] && forall i :: 0 <= i < |d| ==> IsDigit(d[i])
  {
    if n < 10 then [(48 + n) as u8] else Decimal(n / 10) + [(48 + n % 10) as u8]
  }

  /** A separator byte, then `n` in decimal, then `rest`. */
  function Field(sep: u8, n: nat, rest: seq<u8>): seq<u8>
  {
    [sep] + Decimal(n) + rest
  }

  /**
    A file holding `img`: the magic, the three numbers each after one
    whitespace byte, one more whitespace byte, the raster.
   */
  function Encode(img: Image): seq<u8>
  {
    Magic + Field(10, img.width, Field(32, img.height, Field(10, img.maxVal, [10] + img.data)))
  }

  lemma {:induction false} DecimalValue(n: nat)
    ensures Value(Decimal(n)) == n
  {
    if n >= 10 {
      var d := Decimal(n);
      assert d[..|d| - 1] == Decimal(n / 10);
      DecimalValue(n / 10);
    }
  }

  lemma {:induction false} DigitLengthOf(d: seq<u8>, rest: seq<u8>)
    requires forall i :: 0 <= i < |d| ==> IsDigit(d[i])
    requires rest == [] || !IsDigit(rest[0])
    ensures DigitLength(d + rest) == |d|
  {
    if d != [] {
      assert (d + rest)[1..] == d[1..] + rest;
      DigitLengthOf(d[1..], rest);
    }
  }

  /** A number written in decimal after one whitespace byte reads back, leaving what follows its digits. */
  lemma NumberBack(n: u32, sep: u8, rest: seq<u8>)
    requires IsSpace(sep) && (rest == [] || !IsDigit(rest[0]))
    ensures ReadNumber(Field(sep, n, rest)) == Some((n, rest))
  {
    var s := [sep] + Decimal(n) + rest;
    var d := Decimal(n);
    assert s[1..] == d + rest;
    assert SkipSpace(s) == d + rest;
    DigitLengthOf(d, rest);
    assert (d + rest)[..|d|] == d && (d + rest)[|d|..] == rest;
    DecimalValue(n);
  }

  /** The magic followed by whitespace is read as the first word. */
  lemma MagicWord(tail: seq<u8>)
    requires tail != [] && IsSpace(tail[0])
    ensures ReadWord(Magic + tail) == (Magic, tail)
  {
    var e := Magic + tail;
    assert e[1..][1..] == tail;
    assert WordLength(e[1..][1..]) == 0;
    assert SkipSpace(e) == e;
  }

  /** The header of an encoded image reads back, leaving the separator and the raster. */
  lemma HeaderBack(img: Image)
    requires img.maxVal <= 255
    ensures Header(true, Encode(img)) == Success((img.(data := []), [10] + img.data))
  {
    var r3 := [10] + img.data;
    var r2 := Field(10, img.maxVal, r3);
    var r1 := Field(32, img.height, r2);
    MagicWord(Field(10, img.width, r1));
    NumberBack(img.width, 10, r1);
    NumberBack(img.height, 32, r2);
    NumberBack(img.maxVal, 10, r3);
  }

  /**
    Reading an encoded image gives the image back, whenever its raster has
    the announced length.
   */
  lemma RoundTrip(img: Image, junk: u8)
    requires img.maxVal <= 255 && |img.data| == PixelCount(img.width, img.height)
    ensures Read(true, Encode(img), junk) == Success(img)
  {
    var e := Encode(img);
    HeaderBack(img);
    var rest := [10] + img.data;
    assert Header(true, e) == Success((img.(data := []), rest));
    assert rest[1..] == img.data;
    assert Raster(img.data, PixelCount(img.width, img.height), junk) == img.data;
  }

  /**
    The reader as written loses raster bytes that are whitespace codes: a
    two-pixel image whose first pixel is a whitespace code (32, say) and
    whose second is not (5, say) reads as the second pixel twice, where the
    intended reader gives the image back.
   */
  lemma WhitespacePixelLost(img: Image, a: u8, b: u8, junk: u8)
    requires img.maxVal <= 255 && PixelCount(img.width, img.height) == 2
    requires img.data == [a, b] && IsSpace(a) && !IsSpace(b)
    ensures ReadAsWritten(true, Encode(img), junk) == Success(img.(data := [b, b]))
    ensures Read(true, Encode(img), junk) == Success(img)
  {
    var rest: seq<u8> := [10] + img.data;
    assert rest == [10, a] + [b];
    SpacesThen([10, a], [b]);
    RepeatLast(b, junk);
    HeaderBack(img);
    AsWrittenAfter(Encode(img), junk, img.(data := []), rest);
    RoundTrip(img, junk);
  }

  /** Skipping whitespace drops a whitespace prefix and stops at the first other byte. */
  lemma {:induction false} SpacesThen(spaces: seq<u8>, rest: seq<u8>)
    requires forall i :: 0 <= i < |spaces| ==> IsSpace(spaces[i])
    requires rest == [] || !IsSpace(rest[0])
    ensures SkipSpace(spaces + rest) == rest
  {
    if spaces != [] {
      assert (spaces + rest)[1..] == spaces[1..] + rest;
      SpacesThen(spaces[1..], rest);
    }
  }

  /** A raster one byte short repeats its last byte. */
  lemma RepeatLast(b: u8, junk: u8)
    ensures Raster([b], 2, junk) == [b, b]
  {
    assert Raster([], 1, b) == [b];
  }

  /** The reader as written, once the header has been read. */
  lemma AsWrittenAfter(input: seq<u8>, junk: u8, hd: Image, rest: seq<u8>)
    requires Header(true, input) == Success((hd, rest))
    ensures ReadAsWritten(true, input, junk) == Success(hd.(data := Raster(SkipSpace(rest), PixelCount(hd.width, hd.height), junk)))
  {
  }
}

=== FILE: prefix_driver.dfy ===
/**
  The prefix-sum driver (`main` of the second OpenCL lab): argument checks,
  padding of the input to a whole number of 512-element blocks, the choice
  of device, the one- or two-kernel program over three shared buffers, the
  timing report and the trimmed output. Reading and writing the vector files
  and the device work itself are outside the model: the input length and
  the device's output vector are parameters.
 */
module PrefixDriver {
  import opened Common
  import opened Runtime
  import opened Buffers
  import opened Kernels
  import opened Devices
  import opened Sessions
  import opened Programs
  import opened Timing
  import opened NDRange
  import opened Vectors

  /** `LOCAL_SIZE`. */
  const LocalSize: nat := 16

  /** Each work item handles two elements: `LOCAL_SIZE * LOCAL_SIZE * 2`. */
  const BlockSize: nat := LocalSize * LocalSize * 2

  const BuildOptions := "-cl-std=CL1.2 -DBLOCK_SIZE=512"

  /** `sizeof(float)`. */
  const FloatBytes: nat := 4

  const ArityError := "Invalid number of arguments, 4 required"
  const NumberError := "Integral parameter expected, got NaN"
  const NoDeviceError := "No devices found"

  /** The buffer store of the driver: input, output and block sums, in this order. */
  const InBuf: nat := 0
  const OutBuf: nat := 1
  const SumsBuf: nat := 2

  /**
    The padded length: the pad `512 - n % 512` lies between 1 and 512, so a
    length that is already a multiple still gains a whole block.
   */
  function PaddedSize(n: nat): (r: nat)
    ensures r % BlockSize == 0 && n < r <= n + BlockSize
    ensures r - BlockSize <= n
  {
    n + (BlockSize - n % BlockSize)
  }

  /** The spread kernel is added exactly when the padded input has more than one block. */
  predicate Spreads(n: nat)
  {
    PaddedSize(n) - BlockSize != 0
  }

  lemma SpreadsWhenLong(n: nat)
    ensures Spreads(n) <==> n >= BlockSize
    ensures PaddedSize(n) / BlockSize >= 1
  {
  }

  /**
    The device index after the fallback: an empty list is an error, and an
    index past the last device becomes 0.
   */
  function PickDevice(count: nat, index: u64): (r: Result<nat>)
    ensures r.Success? <==> count > 0
    ensures r.Failure? ==> r.error == NoDeviceError
    ensures r.Success? ==> r.value < count && (index < count ==> r.value == index)
    ensures r.Success? && index >= count ==> r.value == 0
  {
    if count == 0 then Failure(NoDeviceError)
    else if index > count - 1 then Success(0)
    else Success(index)
  }

  /** What the driver hands to `Program`: the device, the kernels and the shared buffers. */
  datatype Plan = Plan(padded: nat, blockSums: nat, device: Device, kernels: seq<Kernel>, bufs: seq<Buffer>)

  /** The three `IN_OUT` buffers over the padded input, the output and the block sums. */
  function DriverBuffers(padded: nat, blockSums: nat): (bufs: seq<Buffer>)
    ensures |bufs| == 3
    ensures forall b :: 0 <= b < 3 ==> bufs[b].mode == InOutBuffer && !bufs[b].mem
    ensures bufs[InBuf].size == bufs[OutBuf].size == FloatBytes * padded
    ensures bufs[SumsBuf].size == FloatBytes * blockSums
  {
    [ NewBuffer(InBuf, FloatBytes * padded, InOutBuffer),
      NewBuffer(OutBuf, FloatBytes * padded, InOutBuffer),
      NewBuffer(SumsBuf, FloatBytes * blockSums, InOutBuffer) ]
  }

  /** The prefix kernel over every block, and the spread kernel when there is more than one block. */
  predicate DriverKernels(padded: nat, ks: seq<Kernel>)
  {
    && |ks| == (if padded > BlockSize then 2 else 1)
    && ks[0] == NewKernel("prefixSum", [padded / 2], [BlockSize / 2], [InBuf, OutBuf, SumsBuf])
    && (padded > BlockSize ==>
          ks[1] == NewKernel("spreadBlockSums", [(padded - BlockSize) / 4], [BlockSize / 4], [OutBuf, SumsBuf]))
  }

  /**
    The kernels of the program: the global sizes come from
    `makeGlobalNDRange`, which leaves them unchanged because the padded
    length is a whole number of blocks. The padded `float` vector is in
    memory, so its size in bytes is a `std::size_t`; that keeps both global
    sizes below 2^61, where the multiples of 128 are doubles.
   */
  method MakeKernels(padded: nat) returns (ks: seq<Kernel>)
    requires padded % BlockSize == 0 && BlockSize <= padded && FloatBytes * padded < Modulus64
    ensures DriverKernels(padded, ks)
    ensures forall i :: 0 <= i < |ks| ==> ValidArgs(ks[i].args, DriverBuffers(padded, padded / BlockSize))
  {
    WholeBlocks(padded);
    assert Pow2(7) == 128 && Pow2(8) == 256;
    ExactMultiple(padded / 2, 8);
    ExactMultiple((padded - BlockSize) / 4, 7);
    DoubleNearest(BlockSize / 2);
    DoubleNearest(BlockSize / 4);
    var global := MakeGlobalNDRange([BlockSize / 2], [padded / 2]);
    ks := [NewKernel("prefixSum", global, [BlockSize / 2], [InBuf, OutBuf, SumsBuf])];
    if padded - BlockSize != 0 {
      var spread := MakeGlobalNDRange([BlockSize / 4], [(padded - BlockSize) / 4]);
      ks := ks + [NewKernel("spreadBlockSums", spread, [BlockSize / 4], [OutBuf, SumsBuf])];
    }
  }

  /** Half a whole number of blocks is a multiple of 256, and a quarter of all blocks but one a multiple of 128. */
  lemma WholeBlocks(padded: nat)
    requires padded % BlockSize == 0 && BlockSize <= padded
    ensures (padded / 2) % (BlockSize / 2) == 0
    ensures ((padded - BlockSize) / 4) % (BlockSize / 4) == 0
  {
    var k := padded / BlockSize;
    assert padded == k * 512;
    DivModUnique(padded, k * 256, 0, 2);
    DivModUnique(k * 256, k, 0, 256);
    assert padded - BlockSize == (k - 1) * 512;
    DivModUnique(padded - BlockSize, (k - 1) * 128, 0, 4);
    DivModUnique((k - 1) * 128, k - 1, 0, 128);
  }

  /**
    `main` up to the construction of the program: the argument count, the
    device number, the padding, the device choice and the kernels. The
    device number is what `std::stoul` produced, `None` when it threw; the
    input length `n` is what the vector file held, small enough that the
    padded `float` vector fits in memory.
   */
  method Prepare(argc: int, deviceArg: Option<u64>, n: nat, devices: seq<Device>) returns (r: Result<Plan>)
    requires FloatBytes * PaddedSize(n) < Modulus64
    ensures r.Success? <==> argc >= 4 && deviceArg.Some? && |devices| > 0
    ensures argc < 4 ==> r == Failure(ArityError)
    ensures argc >= 4 && deviceArg.None? ==> r == Failure(NumberError)
    ensures argc >= 4 && deviceArg.Some? && |devices| == 0 ==> r == Failure(NoDeviceError)
    ensures r.Success? ==>
              && r.value.padded == PaddedSize(n)
              && r.value.blockSums * BlockSize == r.value.padded
              && r.value.device == devices[PickDevice(|devices|, deviceArg.value).value]
    ensures r.Success? ==> DriverKernels(r.value.padded, r.value.kernels) && |r.value.kernels| == (if n >= BlockSize then 2 else 1)
    ensures r.Success? ==> r.value.bufs == DriverBuffers(r.value.padded, r.value.blockSums)
    ensures r.Success? ==> Valid(NewSession([], r.value.device, r.value.kernels, r.value.bufs))
  {
    if argc < 4 {
      return Failure(ArityError);
    }
    if deviceArg.None? {
      return Failure(NumberError);
    }
    var padded := PaddedSize(n);
    var blockSums := padded / BlockSize;
    var picked := PickDevice(|devices|, deviceArg.value);
    if picked.Failure? {
      return Failure(picked.error);
    }
    var bufs := DriverBuffers(padded, blockSums);
    var kernels := MakeKernels(padded);
    SpreadsWhenLong(n);
    r := Success(Plan(padded, blockSums, devices[picked.value], kernels, bufs));
  }

  /**
    The output written to the file: the device's output vector with the pad
    removed, exactly the original `n` elements.
   */
  function Output(out: seq<int>, n: nat): (r: Result<seq<int>>)
    requires |out| == PaddedSize(n) && |out| < Modulus64
    ensures r.Success? && |r.value| == n && r.value == out[..n]
  {
    RemovePadding(out, |out| - n)
  }

  /**
    The timing line as written: kernel times `[0] + [1]`, then total `[0]`
    plus kernel time `[1]`. `None` stands for a read past the end of a list,
    which the C++ does not check.
   */
  function ReportAsWritten(times: seq<u64>, totals: seq<u64>): (r: Option<(int, int)>)
    ensures r.Some? <==> |times| >= 2 && |totals| >= 1
    ensures r.Some? ==> r.value.0 == times[0] as int + times[1] as int
    ensures r.Some? ==> r.value.1 == totals[0] as int + times[1] as int
  {
    if |times| < 2 || |totals| < 1 then None
    else Some((times[0] as int + times[1] as int, totals[0] as int + times[1] as int))
  }

  /** The sum of a time list. */
  function TimeSum(ts: seq<u64>): nat
  {
    if ts == [] then 0 else TimeSum(ts[..|ts| - 1]) + ts[|ts| - 1]
  }

  lemma TimeSumShort(ts: seq<u64>)
    ensures |ts| == 1 ==> TimeSum(ts) == ts[0]
    ensures |ts| == 2 ==> TimeSum(ts) == ts[0] as int + ts[1] as int
  {
    if |ts| == 1 || |ts| == 2 {
      assert ts[..|ts| - 1][..0] == [];
      assert |ts| == 2 ==> TimeSum(ts[..1]) == ts[0];
    }
  }

  /**
    The timing line as intended, for however many kernels ran: the kernel
    times summed, and the first kernel's total plus the later kernels'
    execution times. The second figure is the one the two-kernel line
    prints: the spread kernel's buffers are the prefix kernel's, already
    uploaded, so the first total holds every transfer once.
   */
  function Report(times: seq<u64>, totals: seq<u64>): (r: (int, int))
    ensures |times| == 1 && |totals| == 1 ==> r == (times[0] as int, totals[0] as int)
    ensures |times| == 2 && |totals| >= 1 ==> ReportAsWritten(times, totals) == Some(r)
  {
    var later := if |times| == 0 then [] else times[1..];
    TimeSumShort(times);
    TimeSumShort(later);
    (TimeSum(times), (if |totals| == 0 then 0 else totals[0] as int) + TimeSum(later))
  }

  /** A returning `execute` of a fresh program leaves one execution time and one total per kernel. */
  lemma ExecuteTimeLists(api: Api, p: nat, s: Session)
    requires Valid(s) && s.execTimes == [] && s.totals == []
    ensures Execute(api, p, s, BuildOptions).Returned? ==>
              |Execute(api, p, s, BuildOptions).st.execTimes| == |Execute(api, p, s, BuildOptions).st.totals| == |s.kernels|
  {
  }

  /**
    A short input runs the one-kernel program, so a returning `execute`
    leaves one execution time and one total: the report as written reads
    past the end of the execution-time list, where the intended report
    shows that kernel's two times.
   */
  lemma ShortInputOverreads(api: Api, p: nat, s: Session)
    requires Valid(s) && s.execTimes == [] && s.totals == [] && |s.kernels| == 1
    ensures var e := Execute(api, p, s, BuildOptions);
            e.Returned? ==>
              && |e.st.execTimes| == 1 && |e.st.totals| == 1
              && ReportAsWritten(e.st.execTimes, e.st.totals).None?
              && Report(e.st.execTimes, e.st.totals) == (e.st.execTimes[0] as int, e.st.totals[0] as int)
  {
    ExecuteTimeLists(api, p, s);
    var e := Execute(api, p, s, BuildOptions);
    if e.Returned? {
      ReportOf(e.st.execTimes, e.st.totals);
    }
  }

  /**
    With two kernels the second figure as written is total `[0]` plus kernel
    time `[1]`, where `totals[1]` is the second kernel's total (its upload
    span, execution time and download span, modulo 2^64) and `times[1]` its
    execution time. The figure is the sum of both totals exactly when the
    second kernel's two spans add up to 0 modulo 2^64. Empty spans never do:
    each sentinel span is 1, so such a total is the execution time plus 2.
   */
  lemma TotalUsesKernelTime(api: Api, k: Kernel, bufs: seq<Buffer>, times: seq<u64>, totals: seq<u64>)
    requires |times| == 2 && |totals| == 2 && ValidArgs(k.args, bufs)
    requires times[1] == ExecValue(api, k) && totals[1] == Total(api, k, bufs)
    ensures ReportAsWritten(times, totals).Some?
    ensures ReportAsWritten(times, totals).value.1 == totals[0] as int + times[1] as int
    ensures var up := Span(Hull(api, UploadEvents(bufs, k.args)));
            var down := Span(Hull(api, DownloadEvents(bufs, k.args)));
            ReportAsWritten(times, totals).value.1 == totals[0] as int + totals[1] as int <==> (up + down) % Modulus64 == 0
    ensures (forall j :: 0 <= j < |k.args| ==> bufs[k.args[j]].upload.None? && bufs[k.args[j]].download.None?) ==>
              totals[1] == (times[1] + 2) % Modulus64 && ReportAsWritten(times, totals).value.1 != totals[0] as int + totals[1] as int
  {
    var up := Span(Hull(api, UploadEvents(bufs, k.args)));
    var down := Span(Hull(api, DownloadEvents(bufs, k.args)));
    var e := times[1];
    SumModulo(up, e, down);
    if forall j :: 0 <= j < |k.args| ==> bufs[k.args[j]].upload.None? && bufs[k.args[j]].download.None? {
      NoEvents(bufs, k.args);
    }
  }

  /** Two 64-bit additions: the sum is `e` exactly when the other two terms cancel modulo 2^64. */
  lemma SumModulo(u: u64, e: u64, d: u64)
    ensures Add64(Add64(u, e), d) == (u + e + d) % Modulus64
    ensures Add64(Add64(u, e), d) == e <==> (u + d) % Modulus64 == 0
  {
  }

  /** A returning two-kernel `execute` has the line as written defined, and the intended line is that line. */
  lemma LongInputReport(api: Api, p: nat, s: Session)
    requires Valid(s) && s.execTimes == [] && s.totals == [] && |s.kernels| == 2
    ensures var e := Execute(api, p, s, BuildOptions);
            e.Returned? ==>
              && ReportAsWritten(e.st.execTimes, e.st.totals) == Some(Report(e.st.execTimes, e.st.totals))
              && Report(e.st.execTimes, e.st.totals).1 == e.st.totals[0] as int + e.st.execTimes[1] as int
  {
    ExecuteTimeLists(api, p, s);
    var e := Execute(api, p, s, BuildOptions);
    if e.Returned? {
      ReportOf(e.st.execTimes, e.st.totals);
    }
  }

  /** Both reports on time lists of one or two entries. */
  lemma ReportOf(times: seq<u64>, totals: seq<u64>)
    requires |times| == |totals| && 1 <= |times| <= 2
    ensures ReportAsWritten(times, totals).Some? <==> |times| == 2
    ensures |times| == 1 ==> Report(times, totals) == (times[0] as int, totals[0] as int)
    ensures |times| == 2 ==> ReportAsWritten(times, totals) == Some(Report(times, totals))
  {
  }
}

=== FILE: program.dfy ===
/**
  `Program::execute` and the program's lifetime: create the context, the
  command queue and the program, build the program, dispatch every kernel in
  construction order, wait for the queue and run `teardown`; the destructor
  runs `teardown` once more.
 */
module Programs {
  import opened Common
  import opened Runtime
  import opened Buffers
  import opened Kernels
  import opened Timing
  import opened Devices
  import opened Sessions

  /** The creation calls of `execute`, in order. */
  function Creation(d: Device, options: string): seq<Call>
  {
    [CreateContext(d.platform, d.rawType), CreateQueue, CreateProgram, BuildProgram(options)]
  }

  /** The message thrown when creation call `j` reports an error. */
  function CreationMessage(j: nat): Failure
  {
    if j == 0 then CreateContextFailed
    else if j == 1 then CreateQueueFailed
    else if j == 2 then CreateProgramFailed
    else BuildProgramFailed
  }

  /** Creation call `k` is the first of the set-up's four calls to report an error. */
  predicate FailsFirst(api: Api, p: nat, k: nat)
  {
    k < 4 && FailsAt(api, p, k) && forall j :: 0 <= j < k ==> !FailsAt(api, p, j)
  }

  /** The index of the first creation call that reports an error, 4 when none does. */
  function FirstFailure(api: Api, p: nat): (k: nat)
    ensures k <= 4
    ensures k < 4 ==> FailsFirst(api, p, k)
    ensures k == 4 <==> forall j :: 0 <= j < 4 ==> !FailsAt(api, p, j)
  {
    if FailsAt(api, p, 0) then 0
    else if FailsAt(api, p, 1) then 1
    else if FailsAt(api, p, 2) then 2
    else if FailsAt(api, p, 3) then 3
    else 4
  }

  /** At most one creation call is the first to fail. */
  lemma FailsFirstUnique(api: Api, p: nat, k: nat)
    requires FailsFirst(api, p, k)
    ensures FirstFailure(api, p) == k
  {
  }

  /**
    The set-up of `execute`: each creation call stores its handle, present
    exactly when the call succeeded, and the first call that reports an error
    throws that step's message before any later step. The build stores
    nothing.
   */
  function Setup(api: Api, p: nat, s: Session, options: string): (r: Outcome<Session, ()>)
    ensures 1 <= |r.calls| <= 4 && r.calls == Creation(s.device, options)[..|r.calls|]
    ensures r.Returned? <==> forall j :: 0 <= j < 4 ==> !FailsAt(api, p, j)
    ensures r.Returned? ==> |r.calls| == 4 && r.st.context && r.st.queue && r.st.program
    ensures r.Raised? ==>
              && FailsAt(api, p, |r.calls| - 1)
              && (forall j :: 0 <= j < |r.calls| - 1 ==> !FailsAt(api, p, j))
              && r.msg == CreationMessage(|r.calls| - 1)
    ensures r.st == s.(context := r.st.context, queue := r.st.queue, program := r.st.program)
    ensures r.st.context == !FailsAt(api, p, 0)
    ensures r.st.queue == if |r.calls| < 2 then s.queue else !FailsAt(api, p, 1)
    ensures r.st.program == if |r.calls| < 3 then s.program else !FailsAt(api, p, 2)
    ensures CreatedBy(api, p, s, r.st)
  {
    var c := Creation(s.device, options);
    var s1 := s.(context := !FailsAt(api, p, 0));
    if FailsAt(api, p, 0) then Raised(s1, c[..1], CreationMessage(0))
    else
      var s2 := s1.(queue := !FailsAt(api, p, 1));
      if FailsAt(api, p, 1) then Raised(s2, c[..2], CreationMessage(1))
      else
        var s3 := s2.(program := !FailsAt(api, p, 2));
        if FailsAt(api, p, 2) then Raised(s3, c[..3], CreationMessage(2))
        else if FailsAt(api, p, 3) then Raised(s3, c, CreationMessage(3))
        else Returned(s3, c, ())
  }

  /**
    The calls `execute` issues while dispatching: argument creation and
    upload, kernel creation, binds, launches and execution-time queries.
    None of them releases anything.
   */
  predicate DispatchCall(c: Call)
  {
    c.CreateBuffer? || c.WriteBuffer? || c.CreateKernel? || c.SetArg? || c.EnqueueKernel? || c.QueryProfile?
  }

  /** The calls that name a kernel. */
  predicate Tagged(c: Call)
  {
    c.CreateKernel? || c.SetArg? || c.EnqueueKernel?
  }

  /** Kernel-naming calls sort by kernel, then creation before binds before the launch. */
  function Key(c: Call): nat
    requires Tagged(c)
  {
    3 * c.kernel + (if c.CreateKernel? then 0 else if c.SetArg? then 1 else 2)
  }

  /**
    Dispatch calls whose kernel-naming calls come in key order, with keys in
    `[lo, hi)`; kernels `i` to `n` own the keys `[3 * i, 3 * n)`.
   */
  predicate Dispatches(calls: seq<Call>, lo: nat, hi: nat)
  {
    && (forall j :: 0 <= j < |calls| ==> DispatchCall(calls[j]))
    && (forall j :: 0 <= j < |calls| && Tagged(calls[j]) ==> lo <= Key(calls[j]) < hi)
    && (forall a, b :: 0 <= a < b < |calls| && Tagged(calls[a]) && Tagged(calls[b]) ==> Key(calls[a]) <= Key(calls[b]))
  }

  /** Two runs of dispatch calls, the second's keys all above the first's, make one run. */
  lemma {:induction false} DispatchesAppend(a: seq<Call>, b: seq<Call>, lo: nat, mid: nat, hi: nat)
    requires lo <= mid <= hi && Dispatches(a, lo, mid) && Dispatches(b, mid, hi)
    ensures Dispatches(a + b, lo, hi)
  {
    var s := a + b;
    forall j | 0 <= j < |s|
      ensures DispatchCall(s[j]) && (Tagged(s[j]) ==> lo <= Key(s[j]) < hi)
    {
      if j < |a| { assert s[j] == a[j]; } else { assert s[j] == b[j - |a|]; }
    }
    forall x, y | 0 <= x < y < |s| && Tagged(s[x]) && Tagged(s[y])
      ensures Key(s[x]) <= Key(s[y])
    {
      if y < |a| {
        assert s[x] == a[x] && s[y] == a[y];
      } else if x < |a| {
        assert s[x] == a[x] && s[y] == b[y - |a|];
      } else {
        assert s[x] == b[x - |a|] && s[y] == b[y - |a|];
      }
    }
  }

  /** Calls of one key only are in key order. */
  lemma OneKey(calls: seq<Call>, key: nat)
    requires forall j :: 0 <= j < |calls| ==> DispatchCall(calls[j]) && (Tagged(calls[j]) ==> Key(calls[j]) == key)
    ensures Dispatches(calls, key, key + 1)
  {
  }

  /** The messages a dispatch can throw. */
  predicate DispatchMessage(msg: Failure)
  {
    || msg == CreateBufferFailed || msg == WriteBufferFailed || msg == CreateKernelFailed
    || msg == SetArgsFailed || msg == EnqueueKernelFailed
    || msg == KernelProfileFailed
  }

  /** Stores of the same shape bind the same arguments. */
  lemma BindsSameShape(ki: nat, a: seq<Buffer>, c: seq<Buffer>, args: seq<nat>)
    requires ValidArgs(args, a) && SameShape(a, c)
    ensures ValidArgs(args, c) && Binds(ki, a, args) == Binds(ki, c, args)
  {
  }

  /**
    The calls of `setArgsToKernel`, `runKernel` and `getExecutionTime` for
    kernel `ki` when nothing fails, the first issued at log position `p`:
    every argument bound, the kernel enqueued at `p + |args|`, and then,
    unless its time is already cached, that launch's event queried.
   */
  function FirePlan(k: Kernel, ki: nat, bufs: seq<Buffer>, p: nat): seq<Call>
    requires ValidArgs(k.args, bufs)
  {
    Binds(ki, bufs, k.args) + ([EnqueueKernel(ki, |k.global|, k.global, k.local)] + QueryPlan(k, p + |k.args|))
  }

  /** The query of `getExecutionTime` after a launch at log position `launch`: none when the time is cached. */
  function QueryPlan(k: Kernel, launch: nat): seq<Call>
  {
    if k.execTime == 0 then [QueryProfile(launch)] else []
  }

  /** The calls of kernel `ki`'s launch when nothing fails: the kernel created at `p`, then `FirePlan`. */
  function LaunchPlan(k: Kernel, ki: nat, bufs: seq<Buffer>, p: nat): seq<Call>
    requires ValidArgs(k.args, bufs)
  {
    [CreateKernel(ki, k.name)] + FirePlan(k, ki, bufs, p + 1)
  }

  /**
    The calls of one iteration of the dispatch loop when nothing fails, the
    first issued at log position `p`: the arguments' acquisitions, then the
    launch.
   */
  function KernelPlan(bufs: seq<Buffer>, k: Kernel, ki: nat, p: nat): seq<Call>
    requires ValidArgs(k.args, bufs)
  {
    var acquire := ArgsPlan(bufs, k.args, {});
    acquire + LaunchPlan(k, ki, bufs, p + |acquire|)
  }

  /** Every kernel's arguments name buffers of the store. */
  predicate AllValid(ks: seq<Kernel>, bufs: seq<Buffer>)
  {
    forall j :: 0 <= j < |ks| ==> ValidArgs(ks[j].args, bufs)
  }

  /**
    The calls of the dispatch loop over the kernels `ks`, numbered from `i`,
    when nothing fails, the first issued at log position `p`: each kernel's
    iteration in construction order, after all of the previous kernel's, in a
    store where every earlier kernel's arguments hold memory.
   */
  function DispatchPlan(bufs: seq<Buffer>, ks: seq<Kernel>, i: nat, p: nat): seq<Call>
    requires AllValid(ks, bufs)
    decreases |ks|
  {
    if |ks| == 0 then []
    else
      var first := KernelPlan(bufs, ks[0], i, p);
      first + DispatchPlan(Mark(bufs, ks[0].args), ks[1..], i + 1, p + |first|)
  }

  /** The dispatch plan of a non-empty list: the first kernel's iteration, then the rest's plan. */
  lemma DispatchPlanUnfold(bufs: seq<Buffer>, ks: seq<Kernel>, i: nat, p: nat)
    requires |ks| > 0 && AllValid(ks, bufs)
    ensures AllValid(ks[1..], Mark(bufs, ks[0].args))
    ensures var first := KernelPlan(bufs, ks[0], i, p);
      DispatchPlan(bufs, ks, i, p) == first + DispatchPlan(Mark(bufs, ks[0].args), ks[1..], i + 1, p + |first|)
  {
  }

  /**
    A step of the dispatch loop against its plan: the calls of the first
    iteration, a prefix of its plan and all of it if it returned, then, if it
    returned, the calls of the rest against the rest's plan.
   */
  lemma DispatchPlanStep(bufs: seq<Buffer>, ks: seq<Kernel>, i: nat, p: nat, first: seq<Call>, rest: seq<Call>, returned: bool, whole: bool)
    requires |ks| > 0 && AllValid(ks, bufs)
    requires OnPlan(first, KernelPlan(bufs, ks[0], i, p), returned)
    requires !returned ==> rest == [] && !whole
    requires returned ==> AllValid(ks[1..], Mark(bufs, ks[0].args))
    requires returned ==> OnPlan(rest, DispatchPlan(Mark(bufs, ks[0].args), ks[1..], i + 1, p + |first|), whole)
    ensures OnPlan(first + rest, DispatchPlan(bufs, ks, i, p), whole)
  {
    DispatchPlanUnfold(bufs, ks, i, p);
    var tail := DispatchPlan(Mark(bufs, ks[0].args), ks[1..], i + 1, p + |KernelPlan(bufs, ks[0], i, p)|);
    if returned {
      PrefixAfter(first, rest, tail);
    } else {
      assert first + rest == first;
      PrefixAfter(first, [], tail);
      assert first + [] == first;
    }
  }

  /** Stores of the same shape that agree on which buffers are acquired plan the same iteration. */
  lemma KernelPlanAgrees(a: seq<Buffer>, c: seq<Buffer>, k: Kernel, ki: nat, p: nat)
    requires ValidArgs(k.args, a) && SameShape(a, c)
    requires forall x :: 0 <= x < |a| ==> (Acquired(a[x]) <==> Acquired(c[x]))
    ensures ValidArgs(k.args, c) && KernelPlan(a, k, ki, p) == KernelPlan(c, k, ki, p)
  {
    ArgsPlanAgrees(a, {}, c, {}, k.args);
    BindsSameShape(ki, a, c, k.args);
  }

  /** Planning on the store as planning sees it plans the same iteration. */
  lemma KernelPlanCanon(bufs: seq<Buffer>, k: Kernel, ki: nat, p: nat)
    requires ValidArgs(k.args, bufs)
    ensures ValidArgs(k.args, Canon(bufs)) && KernelPlan(Canon(bufs), k, ki, p) == KernelPlan(bufs, k, ki, p)
  {
    KernelPlanAgrees(bufs, Canon(bufs), k, ki, p);
  }

  /**
    The kernel half of one iteration of the dispatch loop: `acquireHandle`,
    `setArgsToKernel`, `runKernel` and `getExecutionTime`, stopping at the
    first that throws. On return the kernel holds its handle and launch event,
    and the value is its execution time, now cached.
   */
  function Launch(api: Api, p: nat, k: Kernel, ki: nat, bufs: seq<Buffer>): (r: Outcome<Kernel, u64>)
    requires ValidArgs(k.args, bufs)
    ensures r.st == k.(handle := r.st.handle, event := r.st.event, execTime := r.st.execTime)
    ensures Dispatches(r.calls, 3 * ki, 3 * ki + 3)
    ensures |r.calls| > 0 && r.calls[0] == CreateKernel(ki, k.name)
    ensures r.Returned? ==> EnqueueKernel(ki, |k.global|, k.global, k.local) in r.calls
    ensures r.Returned? ==> r.st.handle && r.st.event.Some? && r.value == r.st.execTime
    ensures r.Returned? && k.execTime == 0 ==> r.value == Elapsed(api.stamp(r.st.event.value))
    ensures r.Returned? && k.execTime != 0 ==> r.value == k.execTime
    ensures r.Raised? ==> DispatchMessage(r.msg)
    ensures OnPlan(r.calls, LaunchPlan(k, ki, bufs, p), r.Returned?)
    ensures r.Returned? ==> r.st.event == Some(p + 1 + |k.args|)
  {
    var a := AcquireHandle(api, p, k, ki);
    if a.Raised? then
      OneKey(a.calls, 3 * ki);
      PrefixAfter(a.calls, [], FirePlan(k, ki, bufs, p + 1));
      assert a.calls + [] == a.calls;
      Raised(a.st, a.calls, a.msg)
    else
      LaunchHeld(api, p, k, ki, bufs)
  }

  /** `Launch` once kernel creation, the call at log position `p`, succeeded. */
  function LaunchHeld(api: Api, p: nat, k: Kernel, ki: nat, bufs: seq<Buffer>): (r: Outcome<Kernel, u64>)
    requires ValidArgs(k.args, bufs)
    ensures r.st == k.(handle := r.st.handle, event := r.st.event, execTime := r.st.execTime)
    ensures Dispatches(r.calls, 3 * ki, 3 * ki + 3)
    ensures |r.calls| > 0 && r.calls[0] == CreateKernel(ki, k.name)
    ensures r.Returned? ==> EnqueueKernel(ki, |k.global|, k.global, k.local) in r.calls
    ensures r.Returned? ==> r.st.handle && r.st.event.Some? && r.value == r.st.execTime
    ensures r.Returned? && k.execTime == 0 ==> r.value == Elapsed(api.stamp(r.st.event.value))
    ensures r.Returned? && k.execTime != 0 ==> r.value == k.execTime
    ensures r.Raised? ==> DispatchMessage(r.msg)
    ensures OnPlan(r.calls, LaunchPlan(k, ki, bufs, p), r.Returned?)
    ensures r.Returned? ==> r.st.event == Some(p + 1 + |k.args|)
  {
    var created := [CreateKernel(ki, k.name)];
    var h := k.(handle := true);
    var f := Fire(api, p + 1, h, ki, bufs);
    LaunchOnPlan(k, h, ki, bufs, p, f.calls, f.Returned?);
    if f.Raised? then Raised(f.st, created + f.calls, f.msg) else Returned(f.st, created + f.calls, f.value)
  }

  /** The kernel's creation, then calls on the launch's plan of the held kernel: on the plan of the whole launch. */
  lemma LaunchOnPlan(k: Kernel, h: Kernel, ki: nat, bufs: seq<Buffer>, p: nat, calls: seq<Call>, whole: bool)
    requires ValidArgs(k.args, bufs) && h == k.(handle := h.handle)
    requires Dispatches(calls, 3 * ki + 1, 3 * ki + 3) && OnPlan(calls, FirePlan(h, ki, bufs, p + 1), whole)
    ensures Dispatches([CreateKernel(ki, k.name)] + calls, 3 * ki, 3 * ki + 3)
    ensures OnPlan([CreateKernel(ki, k.name)] + calls, LaunchPlan(k, ki, bufs, p), whole)
  {
    LaunchCalls(ki, k.name, calls);
    FirePlanHandle(k, h, ki, bufs, p + 1);
    PrefixAfter([CreateKernel(ki, k.name)], calls, FirePlan(k, ki, bufs, p + 1));
  }

  /** The plan of the launch does not depend on whether the kernel holds its handle. */
  lemma FirePlanHandle(k: Kernel, h: Kernel, ki: nat, bufs: seq<Buffer>, p: nat)
    requires ValidArgs(k.args, bufs) && h == k.(handle := h.handle)
    ensures FirePlan(h, ki, bufs, p) == FirePlan(k, ki, bufs, p)
  {
  }

  /** The kernel's creation, then its binds, launch and queries. */
  lemma LaunchCalls(ki: nat, name: string, rest: seq<Call>)
    requires Dispatches(rest, 3 * ki + 1, 3 * ki + 3)
    ensures Dispatches([CreateKernel(ki, name)] + rest, 3 * ki, 3 * ki + 3)
  {
    OneKey([CreateKernel(ki, name)], 3 * ki);
    DispatchesAppend([CreateKernel(ki, name)], rest, 3 * ki, 3 * ki + 1, 3 * ki + 3);
  }

  /**
    `setArgsToKernel`, `runKernel` and `getExecutionTime` on a kernel that
    holds its handle, stopping at the first that throws.
   */
  function Fire(api: Api, p: nat, k: Kernel, ki: nat, bufs: seq<Buffer>): (r: Outcome<Kernel, u64>)
    requires ValidArgs(k.args, bufs)
    ensures r.st == k.(event := r.st.event, execTime := r.st.execTime)
    ensures Dispatches(r.calls, 3 * ki + 1, 3 * ki + 3)
    ensures r.Returned? ==> EnqueueKernel(ki, |k.global|, k.global, k.local) in r.calls
    ensures r.Returned? ==> r.st.event.Some? && r.value == r.st.execTime
    ensures r.Returned? && k.execTime == 0 ==> r.value == Elapsed(api.stamp(r.st.event.value))
    ensures r.Returned? && k.execTime != 0 ==> r.value == k.execTime
    ensures r.Raised? ==> DispatchMessage(r.msg)
    ensures r.calls <= FirePlan(k, ki, bufs, p)
    ensures r.Returned? ==> r.calls == FirePlan(k, ki, bufs, p) && r.st.event == Some(p + |k.args|)
  {
    var b := SetArgs(api, p, k, ki, bufs);
    if b.Raised? then
      FireCalls(ki, b.calls, []);
      PrefixAfter(b.calls, [], [EnqueueKernel(ki, |k.global|, k.global, k.local)] + QueryPlan(k, p + |k.args|));
      assert b.calls + [] == b.calls;
      Raised(k, b.calls, b.msg)
    else
      FireBound(api, p, k, ki, bufs, b.calls)
  }

  /** `runKernel` and `getExecutionTime` after every argument of kernel `ki` was bound by `binds`. */
  function FireBound(api: Api, p: nat, k: Kernel, ki: nat, bufs: seq<Buffer>, binds: seq<Call>): (r: Outcome<Kernel, u64>)
    requires ValidArgs(k.args, bufs) && binds == Binds(ki, bufs, k.args) && |binds| == |k.args|
    requires forall j :: 0 <= j < |k.args| ==> binds[j] == SetArg(ki, j, ArgOf(bufs, k.args[j]))
    ensures r.st == k.(event := r.st.event, execTime := r.st.execTime)
    ensures Dispatches(r.calls, 3 * ki + 1, 3 * ki + 3)
    ensures r.Returned? ==> EnqueueKernel(ki, |k.global|, k.global, k.local) in r.calls
    ensures r.Returned? ==> r.st.event.Some? && r.value == r.st.execTime
    ensures r.Returned? && k.execTime == 0 ==> r.value == Elapsed(api.stamp(r.st.event.value))
    ensures r.Returned? && k.execTime != 0 ==> r.value == k.execTime
    ensures r.Raised? ==> DispatchMessage(r.msg)
    ensures r.calls <= FirePlan(k, ki, bufs, p)
    ensures r.Returned? ==> r.calls == FirePlan(k, ki, bufs, p) && r.st.event == Some(p + |k.args|)
  {
    var enqueue := [EnqueueKernel(ki, |k.global|, k.global, k.local)];
    var query := QueryPlan(k, p + |k.args|);
    var run := RunKernel(api, p + |binds|, k, ki);
    PrefixAfter(binds, enqueue, enqueue + query);
    if run.Raised? then
      FireCalls(ki, binds, run.calls);
      Raised(k, binds + run.calls, run.msg)
    else
      var t := ExecutionTime(api, p + |binds| + 1, run.st);
      assert t.calls == query;
      FireCalls(ki, binds, run.calls + t.calls);
      var calls := binds + (run.calls + t.calls);
      if t.Raised? then Raised(t.st, calls, t.msg) else Returned(t.st, calls, t.value)
  }

  /** Binds of kernel `ki`, then its launch and execution-time queries. */
  lemma FireCalls(ki: nat, binds: seq<Call>, rest: seq<Call>)
    requires forall j :: 0 <= j < |binds| ==> binds[j].SetArg? && binds[j].kernel == ki
    requires forall j :: 0 <= j < |rest| ==> rest[j].QueryProfile? || (rest[j].EnqueueKernel? && rest[j].kernel == ki)
    ensures Dispatches(binds, 3 * ki + 1, 3 * ki + 3) && Dispatches(binds + rest, 3 * ki + 1, 3 * ki + 3)
  {
    OneKey(binds, 3 * ki + 1);
    OneKey(rest, 3 * ki + 2);
    DispatchesAppend(binds, rest, 3 * ki + 1, 3 * ki + 2, 3 * ki + 3);
    assert binds + [] == binds;
  }

  /** A buffer that is acquired stays as it is. */
  predicate KeepsHeld(a: seq<Buffer>, c: seq<Buffer>)
  {
    |c| == |a| && forall b :: 0 <= b < |a| && Acquired(a[b]) ==> c[b] == a[b]
  }

  /**
    Between `s` and `st` only the buffers, the kernels' handles, launch events
    and cached times, and the execution-time list may differ: buffers keep
    their shape, acquired buffers stay as they are and the list only grows.
   */
  predicate Progress(s: Session, st: Session)
  {
    && st == s.(kernels := st.kernels, bufs := st.bufs, execTimes := st.execTimes)
    && |st.kernels| == |s.kernels|
    && (forall j :: 0 <= j < |s.kernels| ==>
          st.kernels[j] == s.kernels[j].(handle := st.kernels[j].handle, event := st.kernels[j].event, execTime := st.kernels[j].execTime))
    && SameShape(s.bufs, st.bufs) && KeepsHeld(s.bufs, st.bufs)
    && |s.execTimes| <= |st.execTimes| && st.execTimes[..|s.execTimes|] == s.execTimes
  }

  /** Kernels outside `[lo, hi)` are as in `s`. */
  predicate Untouched(s: Session, st: Session, lo: nat, hi: nat)
  {
    forall j :: 0 <= j < |s.kernels| && j < |st.kernels| && (j < lo || hi <= j) ==> st.kernels[j] == s.kernels[j]
  }

  /** Kernel `j` holds its handle and a launch event, and every argument of it is acquired. */
  predicate Launched(s: Session, j: nat)
    requires Valid(s) && j < |s.kernels|
  {
    && s.kernels[j].handle && s.kernels[j].event.Some?
    && forall x :: 0 <= x < |s.kernels[j].args| ==> Acquired(s.bufs[s.kernels[j].args[x]])
  }

  /** The calls are a prefix of the plan, and the whole of it when `whole`. */
  predicate OnPlan(calls: seq<Call>, plan: seq<Call>, whole: bool)
  {
    calls <= plan && (whole ==> calls == plan)
  }

  /**
    One iteration of the dispatch loop: `enqueueArgs`, then `Launch`, then the
    execution time is appended to the list, stopping at the first step that
    throws. Kernel `ki` is the only kernel that changes and the calls belong
    to its slots; on return it holds its handle and launch event, every
    argument is acquired, and its execution time is appended to the list.
   */
  function DispatchOne(api: Api, p: nat, s: Session, ki: nat): (r: Outcome<Session, ()>)
    requires Valid(s) && ki < |s.kernels|
    ensures Valid(r.st) && Progress(s, r.st) && Untouched(s, r.st, ki, ki + 1)
    ensures Dispatches(r.calls, 3 * ki, 3 * ki + 3)
    ensures r.Returned? ==> Launched(r.st, ki) && r.st.execTimes == s.execTimes + [r.st.kernels[ki].execTime]
    ensures r.Returned? && s.kernels[ki].execTime == 0 ==>
              r.st.kernels[ki].execTime == Elapsed(api.stamp(r.st.kernels[ki].event.value))
    ensures r.Returned? ==> && CreateKernel(ki, s.kernels[ki].name) in r.calls
                            && EnqueueKernel(ki, |s.kernels[ki].global|, s.kernels[ki].global, s.kernels[ki].local) in r.calls
    ensures r.Raised? ==> r.st.execTimes == s.execTimes && DispatchMessage(r.msg)
    ensures OnPlan(r.calls, KernelPlan(s.bufs, s.kernels[ki], ki, p), r.Returned?)
    ensures r.Returned? ==> Canon(r.st.bufs) == Mark(Canon(s.bufs), s.kernels[ki].args)
  {
    var k := s.kernels[ki];
    var e := EnqueueArgs(api, p, s.bufs, k.args);
    var s1 := s.(bufs := e.st);
    BuffersStep(s, s1, ki);
    if e.Raised? then
      AcquireFollows(s.bufs, k, ki, p, e.calls);
      Raised(s1, e.calls, e.msg)
    else
      AcquireShape(s.bufs, e.st, k.args);
      var l := Launch(api, p + |e.calls|, k, ki, e.st);
      LaunchFollows(p, s.bufs, k, ki, e, l);
      var s2 := s1.(kernels := s.kernels[ki := l.st]);
      KernelStep(s, s1, s2, ki, l.st);
      if l.Raised? then Raised(s2, e.calls + l.calls, l.msg)
      else
        var st := s2.(execTimes := s.execTimes + [l.value]);
        assert st.kernels[ki] == l.st;
        Returned(st, e.calls + l.calls, ())
  }

  /**
    Every acquisition, then the launch in the store they left: the calls
    follow the iteration's plan, touch only this kernel's objects, and leave
    the canonical store with the arguments marked.
   */
  lemma LaunchFollows(p: nat, bufs: seq<Buffer>, k: Kernel, ki: nat, e: Outcome<seq<Buffer>, ()>, l: Outcome<Kernel, u64>)
    requires ValidArgs(k.args, bufs) && Enqueued(p, bufs, k.args, e) && e.Returned? && ValidArgs(k.args, e.st)
    requires Dispatches(l.calls, 3 * ki, 3 * ki + 3) && OnPlan(l.calls, LaunchPlan(k, ki, e.st, p + |e.calls|), l.Returned?)
    ensures Dispatches(e.calls + l.calls, 3 * ki, 3 * ki + 3)
    ensures OnPlan(e.calls + l.calls, KernelPlan(bufs, k, ki, p), l.Returned?)
    ensures Canon(e.st) == Mark(Canon(bufs), k.args)
  {
    EnqueuedCanon(p, bufs, k.args, e);
    LaunchJoin(bufs, e.st, k, ki, p, e.calls, l.calls, l.Returned?);
  }

  /** The whole acquisition plan, then a launch: the calls touch only this kernel's objects and follow its plan. */
  lemma LaunchJoin(bufs: seq<Buffer>, st: seq<Buffer>, k: Kernel, ki: nat, p: nat, acquire: seq<Call>, launch: seq<Call>, whole: bool)
    requires ValidArgs(k.args, bufs) && SameShape(bufs, st) && acquire == ArgsPlan(bufs, k.args, {})
    requires ValidArgs(k.args, st) && OnPlan(launch, LaunchPlan(k, ki, st, p + |acquire|), whole)
    requires Dispatches(launch, 3 * ki, 3 * ki + 3)
    ensures Dispatches(acquire + launch, 3 * ki, 3 * ki + 3)
    ensures OnPlan(acquire + launch, KernelPlan(bufs, k, ki, p), whole)
  {
    PlanCalls(bufs, k.args, acquire);
    BufferCalls(acquire, k.args, bufs, launch, ki);
    KernelPlanJoin(bufs, st, k, ki, p, acquire, launch, whole);
  }

  /** An iteration's plan is the given acquisitions, then the launch's plan. */
  lemma KernelPlanJoin(bufs: seq<Buffer>, st: seq<Buffer>, k: Kernel, ki: nat, p: nat, acquire: seq<Call>, launch: seq<Call>, whole: bool)
    requires ValidArgs(k.args, bufs) && SameShape(bufs, st) && acquire == ArgsPlan(bufs, k.args, {})
    requires ValidArgs(k.args, st) && OnPlan(launch, LaunchPlan(k, ki, st, p + |acquire|), whole)
    ensures OnPlan(acquire + launch, KernelPlan(bufs, k, ki, p), whole)
  {
    BindsSameShape(ki, bufs, st, k.args);
    assert LaunchPlan(k, ki, st, p + |acquire|) == LaunchPlan(k, ki, bufs, p + |acquire|);
    PrefixAfter(acquire, launch, LaunchPlan(k, ki, bufs, p + |acquire|));
  }

  /** The arguments stay valid in a store of the same shape. */
  lemma AcquireShape(bufs: seq<Buffer>, st: seq<Buffer>, args: seq<nat>)
    requires ValidArgs(args, bufs) && SameShape(bufs, st)
    ensures ValidArgs(args, st)
  {
  }

  /** Acquisitions that stopped early follow the iteration's plan. */
  lemma AcquireFollows(bufs: seq<Buffer>, k: Kernel, ki: nat, p: nat, calls: seq<Call>)
    requires ValidArgs(k.args, bufs) && calls <= ArgsPlan(bufs, k.args, {})
    ensures OnPlan(calls, KernelPlan(bufs, k, ki, p), false) && Dispatches(calls, 3 * ki, 3 * ki + 3)
  {
    PlanCalls(bufs, k.args, calls);
    BufferCalls(calls, k.args, bufs, [], ki);
    var acquire := ArgsPlan(bufs, k.args, {});
    PrefixBefore(calls, acquire, LaunchPlan(k, ki, bufs, p + |acquire|));
  }

  /** Argument acquisitions, then a kernel's launch. */
  lemma BufferCalls(calls: seq<Call>, args: seq<nat>, bufs: seq<Buffer>, rest: seq<Call>, ki: nat)
    requires ValidArgs(args, bufs) && AcquireCalls(calls, args, bufs)
    requires Dispatches(rest, 3 * ki, 3 * ki + 3)
    ensures Dispatches(calls, 3 * ki, 3 * ki + 3) && Dispatches(calls + rest, 3 * ki, 3 * ki + 3)
  {
    forall j | 0 <= j < |calls| ensures calls[j].CreateBuffer? || calls[j].WriteBuffer? {
      assert calls[j] in calls;
    }
    DispatchesAppend(calls, rest, 3 * ki, 3 * ki, 3 * ki + 3);
  }

  /** The store after `enqueueArgs`. */
  lemma BuffersStep(s: Session, s1: Session, ki: nat)
    requires Valid(s) && ki < |s.kernels|
    requires s1 == s.(bufs := s1.bufs) && SameShape(s.bufs, s1.bufs) && KeepsAcquired(s.bufs, s1.bufs, s.kernels[ki].args)
    ensures Valid(s1) && Progress(s, s1) && Untouched(s, s1, ki, ki + 1)
  {
    forall j | 0 <= j < |s1.kernels| ensures ValidArgs(s1.kernels[j].args, s1.bufs) {
      assert s1.kernels[j] == s.kernels[j];
    }
  }

  /** Kernel `ki` updated after `enqueueArgs`. */
  lemma KernelStep(s: Session, s1: Session, s2: Session, ki: nat, k: Kernel)
    requires Valid(s) && ki < |s.kernels| && Valid(s1) && Progress(s, s1) && s1.kernels == s.kernels
    requires k == s.kernels[ki].(handle := k.handle, event := k.event, execTime := k.execTime)
    requires s2 == s1.(kernels := s.kernels[ki := k])
    ensures Valid(s2) && Progress(s, s2) && Untouched(s, s2, ki, ki + 1)
  {
    forall j | 0 <= j < |s2.kernels| ensures ValidArgs(s2.kernels[j].args, s2.bufs) {
      assert s2.kernels[j].args == s.kernels[j].args;
    }
  }

  /**
    Every kernel from `i` on is launched, and `st`'s execution-time list is
    `s`'s followed by one entry per such kernel, in kernel order, each the
    execution time that kernel caches.
   */
  predicate AllLaunched(s: Session, st: Session, i: nat)
  {
    && Valid(st) && |st.kernels| == |s.kernels| && i <= |s.kernels|
    && |st.execTimes| == |s.execTimes| + |s.kernels| - i
    && forall j :: i <= j < |s.kernels| ==>
         Launched(st, j) && st.execTimes[|s.execTimes| + j - i] == st.kernels[j].execTime
  }

  /**
    The dispatch loop of `execute` from kernel `i` on: kernel after kernel in
    construction order, stopping at the first that throws.
   */
  function DispatchAll(api: Api, p: nat, s: Session, i: nat): (r: Outcome<Session, ()>)
    requires Valid(s) && i <= |s.kernels|
    ensures Valid(r.st) && Progress(s, r.st) && Untouched(s, r.st, i, |s.kernels|)
    ensures Dispatches(r.calls, 3 * i, 3 * |s.kernels|)
    ensures r.Returned? ==> AllLaunched(s, r.st, i)
    ensures r.Raised? ==> DispatchMessage(r.msg)
    ensures FollowsPlan(r.calls, s, i, p, r.Returned?)
    decreases |s.kernels| - i, 1
  {
    if i == |s.kernels| then
      ProgressRefl(s);
      PlanEnd(s, p);
      Returned(s, [], ())
    else
      var d := DispatchOne(api, p, s, i);
      if d.Raised? then
        DispatchesWiden(d.calls, 3 * i, 3 * i + 3, 3 * |s.kernels|);
        DispatchFollows(s, d.st, i, p, d.calls, [], false, false);
        assert d.calls + [] == d.calls;
        Raised(d.st, d.calls, d.msg)
      else
        DispatchRest(api, p, s, i, d.calls, d.st)
  }

  /**
    `DispatchAll` past a kernel `i` that returned, leaving session `s1` after
    issuing `first`: those calls, then the rest's.
   */
  function DispatchRest(api: Api, p: nat, s: Session, i: nat, first: seq<Call>, s1: Session): (r: Outcome<Session, ()>)
    requires Valid(s) && i < |s.kernels| && Valid(s1) && Progress(s, s1) && Untouched(s, s1, i, i + 1)
    requires Dispatches(first, 3 * i, 3 * i + 3)
    requires Launched(s1, i) && s1.execTimes == s.execTimes + [s1.kernels[i].execTime]
    requires OnPlan(first, KernelPlan(s.bufs, s.kernels[i], i, p), true)
    requires Canon(s1.bufs) == Mark(Canon(s.bufs), s.kernels[i].args)
    ensures Valid(r.st) && Progress(s, r.st) && Untouched(s, r.st, i, |s.kernels|)
    ensures Dispatches(r.calls, 3 * i, 3 * |s.kernels|)
    ensures r.Returned? ==> AllLaunched(s, r.st, i)
    ensures r.Raised? ==> DispatchMessage(r.msg)
    ensures FollowsPlan(r.calls, s, i, p, r.Returned?)
    decreases |s.kernels| - i, 0
  {
    var rest := DispatchAll(api, p + |first|, s1, i + 1);
    DispatchStep(s, s1, rest.st, i, first, rest.calls, rest.Returned?);
    DispatchFollows(s, s1, i, p, first, rest.calls, true, rest.Returned?);
    if rest.Returned? then Returned(rest.st, first + rest.calls, ())
    else Raised(rest.st, first + rest.calls, rest.msg)
  }

  /**
    The calls follow the plan of the dispatch loop over the kernels of `s`
    from `i` on, the first issued at log position `p`: a prefix of it, and
    all of it when `whole`.
   */
  predicate FollowsPlan(calls: seq<Call>, s: Session, i: nat, p: nat, whole: bool)
  {
    && i <= |s.kernels| && AllValid(s.kernels[i..], Canon(s.bufs))
    && OnPlan(calls, DispatchPlan(Canon(s.bufs), s.kernels[i..], i, p), whole)
  }

  /** Every kernel from `i` on has valid arguments in the store as planning sees it. */
  lemma PlanValid(s: Session, i: nat)
    requires Valid(s) && i <= |s.kernels|
    ensures AllValid(s.kernels[i..], Canon(s.bufs))
  {
    forall j | 0 <= j < |s.kernels[i..]| ensures ValidArgs(s.kernels[i..][j].args, Canon(s.bufs)) {
      assert s.kernels[i..][j] == s.kernels[i + j];
    }
  }

  /** Past the last kernel the plan is empty, and the empty log follows all of it. */
  lemma PlanEnd(s: Session, p: nat)
    requires Valid(s)
    ensures FollowsPlan([], s, |s.kernels|, p, true)
  {
    PlanValid(s, |s.kernels|);
    assert s.kernels[|s.kernels|..] == [];
  }

  /**
    One step of `DispatchAll` against its plan: kernel `i`'s calls, then, if
    it returned, the rest's calls planned in the store it left.
   */
  lemma DispatchFollows(s: Session, s1: Session, i: nat, p: nat, first: seq<Call>, rest: seq<Call>, returned: bool, whole: bool)
    requires Valid(s) && i < |s.kernels| && |s1.kernels| == |s.kernels| && Untouched(s, s1, i, i + 1)
    requires OnPlan(first, KernelPlan(s.bufs, s.kernels[i], i, p), returned)
    requires returned ==> Canon(s1.bufs) == Mark(Canon(s.bufs), s.kernels[i].args)
    requires !returned ==> rest == [] && !whole
    ensures (returned ==> FollowsPlan(rest, s1, i + 1, p + |first|, whole)) ==> FollowsPlan(first + rest, s, i, p, whole)
  {
    PlanValid(s, i);
    var ks := s.kernels[i..];
    assert ks[0] == s.kernels[i];
    KernelPlanCanon(s.bufs, s.kernels[i], i, p);
    if returned {
      assert s1.kernels[i + 1..] == ks[1..];
      assert AllValid(ks[1..], Mark(Canon(s.bufs), ks[0].args));
    }
    if returned ==> FollowsPlan(rest, s1, i + 1, p + |first|, whole) {
      DispatchPlanStep(Canon(s.bufs), ks, i, p, first, rest, returned, whole);
    }
  }

  lemma ProgressRefl(s: Session)
    requires Valid(s)
    ensures Progress(s, s) && Untouched(s, s, |s.kernels|, |s.kernels|) && Dispatches([], 0, 0)
  {
    assert s.execTimes[..|s.execTimes|] == s.execTimes;
  }

  lemma DispatchesWiden(calls: seq<Call>, lo: nat, hi: nat, hi': nat)
    requires Dispatches(calls, lo, hi) && hi <= hi'
    ensures Dispatches(calls, lo, hi')
  {
  }

  /** One step of `DispatchAll`: kernel `i` dispatched, then the rest. */
  lemma DispatchStep(s: Session, s1: Session, st: Session, i: nat, first: seq<Call>, rest: seq<Call>, returned: bool)
    requires Valid(s) && i < |s.kernels|
    requires Dispatches(first, 3 * i, 3 * i + 3) && Dispatches(rest, 3 * i + 3, 3 * |s.kernels|)
    requires Valid(s1) && Progress(s, s1) && Untouched(s, s1, i, i + 1)
    requires Launched(s1, i) && s1.execTimes == s.execTimes + [s1.kernels[i].execTime]
    requires Valid(st) && Progress(s1, st) && Untouched(s1, st, i + 1, |s.kernels|)
    requires returned ==> AllLaunched(s1, st, i + 1)
    ensures Progress(s, st) && Untouched(s, st, i, |s.kernels|)
    ensures returned ==> AllLaunched(s, st, i)
    ensures Dispatches(first + rest, 3 * i, 3 * |s.kernels|)
  {
    DispatchesAppend(first, rest, 3 * i, 3 * i + 3, 3 * |s.kernels|);
    ProgressTrans(s, s1, st);
    assert st.kernels[i] == s1.kernels[i];
    LaunchedKept(s1, st, i);
    if returned {
      assert st.execTimes[|s.execTimes|] == s1.execTimes[|s.execTimes|];
      forall j | i < j < |s.kernels|
        ensures Launched(st, j) && st.execTimes[|s.execTimes| + j - i] == st.kernels[j].execTime
      {
        assert |s.execTimes| + j - i == |s1.execTimes| + j - (i + 1);
      }
    }
  }

  lemma ProgressTrans(a: Session, b: Session, c: Session)
    requires Progress(a, b) && Progress(b, c)
    ensures Progress(a, c)
  {
    assert c.execTimes[..|a.execTimes|] == c.execTimes[..|b.execTimes|][..|a.execTimes|];
  }

  /** Later dispatches leave a launched kernel launched. */
  lemma LaunchedKept(s: Session, st: Session, i: nat)
    requires Valid(s) && Valid(st) && i < |s.kernels| && Progress(s, st) && st.kernels[i] == s.kernels[i]
    requires Launched(s, i)
    ensures Launched(st, i)
  {
    forall x | 0 <= x < |st.kernels[i].args|
      ensures Acquired(st.bufs[st.kernels[i].args[x]])
    {
      assert Acquired(s.bufs[s.kernels[i].args[x]]);
    }
  }

  /** No call releases anything. */
  predicate Unreleasing(calls: seq<Call>)
  {
    forall j :: 0 <= j < |calls| ==> !(1 <= Stage(calls[j]) <= 5)
  }

  /**
    The calls wait for the queue exactly once; nothing is released before the
    wait, and only `teardown`'s calls come after it.
   */
  predicate WaitSplits(calls: seq<Call>)
  {
    exists w :: 0 <= w < |calls| && calls[w] == Finish && WaitsAt(calls, w)
  }

  predicate WaitsAt(calls: seq<Call>, w: nat)
    requires w < |calls|
  {
    Unreleasing(calls[..w]) && Finish !in calls[..w] && InStages(calls[w + 1..], 0, 5)
  }

  /** The messages `execute` can throw after its set-up. */
  predicate LaterMessage(msg: Failure)
  {
    DispatchMessage(msg) || TotalMessage(msg) || ReleaseMessages(msg)
  }

  /**
    The session handles after the set-up that starts at log position `p`:
    each one the set-up reached is present exactly when its creation
    succeeded, the others are as they were.
   */
  predicate CreatedBy(api: Api, p: nat, s: Session, st: Session)
  {
    && st.context == !FailsAt(api, p, 0)
    && st.queue == (if FailsAt(api, p, 0) then s.queue else !FailsAt(api, p, 1))
    && st.program == (if FailsAt(api, p, 0) || FailsAt(api, p, 1) then s.program else !FailsAt(api, p, 2))
  }

  /**
    A run completed from `s`: every handle is released, and every kernel's
    execution time and total were appended once, in kernel order. Entry `j`
    of the new execution times is kernel `j`'s cached time; only a zero time,
    which is no cache, may have been measured again by `teardown`.
   */
  predicate Completed(s: Session, st: Session)
  {
    && Finished(st)
    && |st.kernels| == |s.kernels|
    && |st.execTimes| == |s.execTimes| + |s.kernels|
    && |st.totals| == |s.totals| + |s.kernels|
    && forall j :: 0 <= j < |s.kernels| && st.execTimes[|s.execTimes| + j] != 0 ==>
         st.execTimes[|s.execTimes| + j] == st.kernels[j].execTime
  }

  /** The set-up, as `execute` relies on it. */
  function Open(api: Api, p: nat, s: Session, options: string): (r: Outcome<Session, ()>)
    ensures 1 <= |r.calls| <= 4 && r.calls == Creation(s.device, options)[..|r.calls|]
    ensures Unreleasing(r.calls) && Finish !in r.calls
    ensures r.Returned? ==> |r.calls| == 4 && r.st.context && r.st.queue && r.st.program
    ensures r.Raised? ==> r.msg == CreationMessage(|r.calls| - 1) && FailsFirst(api, p, |r.calls| - 1)
    ensures var k := FirstFailure(api, p);
      k < 4 ==> r.Raised? && r.calls == Creation(s.device, options)[..k + 1] && r.msg == CreationMessage(k)
    ensures r.st.kernels == s.kernels && r.st.bufs == s.bufs && r.st.execTimes == s.execTimes && r.st.totals == s.totals
    ensures CreatedBy(api, p, s, r.st)
  {
    var su := Setup(api, p, s, options);
    SetupCalls(s.device, options, |su.calls|);
    su
  }

  /** The dispatch loop over every kernel, as `execute` relies on it. */
  function DispatchEvery(api: Api, p: nat, s: Session): (r: Outcome<Session, ()>)
    requires Valid(s)
    ensures Valid(r.st) && |r.st.kernels| == |s.kernels|
    ensures r.st.context == s.context && r.st.queue == s.queue && r.st.program == s.program && r.st.totals == s.totals
    ensures Unreleasing(r.calls) && Finish !in r.calls
    ensures r.Returned? ==> |r.st.execTimes| == |s.execTimes| + |s.kernels|
    ensures r.Returned? ==> forall j :: 0 <= j < |s.kernels| ==> Launched(r.st, j)
    ensures r.Returned? ==> forall j :: 0 <= j < |s.kernels| ==> r.st.execTimes[|s.execTimes| + j] == r.st.kernels[j].execTime
    ensures r.Raised? ==> DispatchMessage(r.msg)
  {
    var d := DispatchAll(api, p, s, 0);
    DispatchUnreleasing(d.calls, 0, 3 * |s.kernels|);
    if d.Raised? then d
    else
      EveryLaunched(s, d.st);
      d
  }

  /** A dispatch loop from the first kernel launched them all, each time appended at its index. */
  lemma EveryLaunched(s: Session, st: Session)
    requires AllLaunched(s, st, 0)
    ensures forall j :: 0 <= j < |s.kernels| ==> Launched(st, j) && st.execTimes[|s.execTimes| + j] == st.kernels[j].execTime
  {
    forall j | 0 <= j < |s.kernels|
      ensures Launched(st, j) && st.execTimes[|s.execTimes| + j] == st.kernels[j].execTime
    {
      assert |s.execTimes| + j - 0 == |s.execTimes| + j;
    }
  }

  /** `teardown`, as `execute` and the destructor rely on it. */
  function Close(api: Api, p: nat, s: Session): (r: Outcome<Session, ()>)
    requires Valid(s)
    ensures Valid(r.st) && |r.st.kernels| == |s.kernels| && r.st.execTimes == s.execTimes && KeepsCached(s, r.st)
    ensures InStages(r.calls, 0, 5)
    ensures r.Returned? ==> Finished(r.st) && |r.st.totals| == |s.totals| + |s.kernels|
    ensures ReleasesSession(r.calls, r.Returned? && s.queue, r.Returned? && s.program, r.Returned? && s.context)
    ensures r.Raised? ==> r.st.context == s.context && r.st.program == s.program && r.st.queue == s.queue
    ensures r.Raised? ==> TotalMessage(r.msg) || ReleaseMessages(r.msg)
    ensures r.Raised? && NoMemFrom(s, 0) ==> TotalMessage(r.msg)
  {
    Teardown(api, p, s)
  }

  /**
    What `execute` does once the set-up succeeded: the dispatch loop,
    `clFinish` (whose result is not checked) and `teardown`, stopping at the
    first step that throws.
   */
  function Run(api: Api, p: nat, s: Session): (r: Outcome<Session, ()>)
    requires Valid(s)
    ensures Valid(r.st) && |r.st.kernels| == |s.kernels|
    ensures r.Returned? ==> WaitSplits(r.calls) && Completed(s, r.st)
    ensures ReleasesSession(r.calls, r.Returned? && s.queue, r.Returned? && s.program, r.Returned? && s.context)
    ensures r.Raised? ==> r.st.context == s.context && r.st.queue == s.queue && r.st.program == s.program
    ensures r.Raised? ==> LaterMessage(r.msg)
  {
    var d := DispatchEvery(api, p, s);
    if d.Raised? then
      NoReleases(d.calls);
      Raised(d.st, d.calls, d.msg)
    else
      var t := Close(api, p + |d.calls| + 1, d.st);
      ExecuteCalls(d.calls, t.calls, t.Returned? && s.queue, t.Returned? && s.program, t.Returned? && s.context);
      var calls := d.calls + [Finish] + t.calls;
      if t.Returned? then Returned(t.st, calls, ()) else Raised(t.st, calls, t.msg)
  }

  /**
    `execute`: the set-up, then the dispatch loop, the wait and `teardown`.
    On return every handle the set-up created is released exactly once, every
    kernel's execution time and total have been appended once, and nothing
    was released before the wait for the queue.
   */
  function Execute(api: Api, p: nat, s: Session, options: string): (r: Outcome<Session, ()>)
    requires Valid(s)
    ensures Valid(r.st) && |r.st.kernels| == |s.kernels|
    ensures r.Returned? ==> |r.calls| >= 4 && r.calls[..4] == Creation(s.device, options) && WaitSplits(r.calls)
    ensures r.Returned? ==> Completed(s, r.st) && !FailsAt(api, p, 0) && !FailsAt(api, p, 1) && !FailsAt(api, p, 2)
    ensures ReleasesSession(r.calls, r.Returned?, r.Returned?, r.Returned?)
    ensures r.Raised? ==> CreatedBy(api, p, s, r.st)
    ensures r.Raised? ==> (1 <= |r.calls| <= 4 && r.msg == CreationMessage(|r.calls| - 1)) || LaterMessage(r.msg)
    ensures var k := FirstFailure(api, p);
      k < 4 ==> r.Raised? && r.calls == Creation(s.device, options)[..k + 1] && r.msg == CreationMessage(k)
    ensures FirstFailure(api, p) == 4 ==>
              |r.calls| >= 4 && r.calls[..4] == Creation(s.device, options) && (r.Raised? ==> LaterMessage(r.msg))
  {
    var su := Open(api, p, s, options);
    if su.Raised? then
      NoReleases(su.calls);
      Raised(su.st, su.calls, su.msg)
    else Proceed(api, p, s, su.st, su.calls)
  }

  /**
    When creation call `k` is the first to report an error, `execute` throws
    that step's message right after it, having issued only the creation
    calls up to it.
   */
  lemma CreationFailureRaises(api: Api, p: nat, s: Session, options: string, k: nat)
    requires Valid(s) && FailsFirst(api, p, k)
    ensures var r := Execute(api, p, s, options);
      r.Raised? && |r.calls| == k + 1 && r.calls == Creation(s.device, options)[..k + 1] && r.msg == CreationMessage(k)
  {
    FailsFirstUnique(api, p, k);
  }

  /**
    The rest of `execute` after a set-up that returned in state `t` with the
    log `creation`: the dispatch loop and the closing waits.
   */
  function Proceed(api: Api, p: nat, s: Session, t: Session, creation: seq<Call>): (r: Outcome<Session, ()>)
    requires Valid(t) && t.context && t.queue && t.program
    requires |creation| == 4 && Unreleasing(creation) && Finish !in creation
    requires t.kernels == s.kernels && t.execTimes == s.execTimes && t.totals == s.totals
    ensures Valid(r.st) && |r.st.kernels| == |s.kernels|
    ensures |r.calls| >= 4 && r.calls[..4] == creation
    ensures r.Returned? ==> WaitSplits(r.calls) && Completed(s, r.st)
    ensures ReleasesSession(r.calls, r.Returned?, r.Returned?, r.Returned?)
    ensures r.Raised? ==> LaterMessage(r.msg)
    ensures r.Raised? ==> r.st.context == t.context && r.st.queue == t.queue && r.st.program == t.program
  {
    NoReleases(creation);
    var u := Run(api, p + 4, t);
    ExecuteJoin(s, t, creation, u, creation);
    if u.Raised? then Raised(u.st, creation + u.calls, u.msg)
    else Returned(u.st, creation + u.calls, ())
  }

  lemma ExecuteJoin(s: Session, t: Session, head: seq<Call>, u: Outcome<Session, ()>, creation: seq<Call>)
    requires head == creation && |head| == 4 && Unreleasing(head) && Finish !in head
    requires ReleasesSession(head, false, false, false)
    requires t.kernels == s.kernels && t.execTimes == s.execTimes && t.totals == s.totals
    requires ReleasesSession(u.calls, u.Returned?, u.Returned?, u.Returned?)
    requires u.Returned? ==> WaitSplits(u.calls) && Completed(t, u.st)
    ensures ReleasesSession(head + u.calls, u.Returned?, u.Returned?, u.Returned?)
    ensures (head + u.calls)[..4] == creation
    ensures u.Returned? ==> WaitSplits(head + u.calls) && Completed(s, u.st)
  {
    ReleasesAfter(head, u.calls, u.Returned?, u.Returned?, u.Returned?);
    assert (head + u.calls)[..4] == head;
    if u.Returned? {
      WaitAfter(head, u.calls);
    }
  }

  /**
    What a program object's life leaves: the state, every call, the exception
    `execute` threw if it threw, and the exception the destructor's
    `teardown` threw if it threw. The destructor is implicitly `noexcept`, so
    the latter ends the process.
   */
  datatype Life = Life(st: Session, calls: seq<Call>, thrown: Option<Failure>, fault: Option<Failure>)

  /**
    A program object constructed, executed once and destroyed: `execute`,
    then the destructor's `teardown` whether or not `execute` threw. Every
    session handle is released at most once, each one that was created is
    released unless the destructor threw, and when `execute` returned the
    destructor can only throw while computing a total, not while releasing.
   */
  function Lifetime(api: Api, p: nat, source: string, device: Device, kernels: seq<Kernel>, bufs: seq<Buffer>, options: string): (r: Life)
    requires Valid(NewSession(source, device, kernels, bufs))
    ensures r.fault.None? ==> Finished(r.st)
    ensures r.fault.None? ==>
              ReleasesSession(r.calls, !FailsAt(api, p, 0) && !FailsAt(api, p, 1),
                              !FailsAt(api, p, 0) && !FailsAt(api, p, 1) && !FailsAt(api, p, 2), !FailsAt(api, p, 0))
    ensures r.fault.Some? ==> ReleasesSession(r.calls, r.thrown.None?, r.thrown.None?, r.thrown.None?)
    ensures r.thrown.None? ==> |r.st.execTimes| == |kernels|
    ensures r.thrown.None? && r.fault.None? ==> |r.st.totals| == 2 * |kernels|
    ensures r.thrown.None? && r.fault.Some? ==> TotalMessage(r.fault.value)
  {
    var s := NewSession(source, device, kernels, bufs);
    var e := Execute(api, p, s, options);
    var d := Close(api, p + |e.calls|, e.st);
    LifeFacts(api, p, s, e, d);
    Life(d.st, e.calls + d.calls, if e.Raised? then Some(e.msg) else None, if d.Raised? then Some(d.msg) else None)
  }

  /** What `execute`'s and the destructor's contracts give together. */
  lemma LifeFacts(api: Api, p: nat, s: Session, e: Outcome<Session, ()>, d: Outcome<Session, ()>)
    requires !s.context && !s.queue && !s.program && s.execTimes == [] && s.totals == []
    requires e.Returned? ==> Completed(s, e.st) && !FailsAt(api, p, 0) && !FailsAt(api, p, 1) && !FailsAt(api, p, 2)
    requires ReleasesSession(e.calls, e.Returned?, e.Returned?, e.Returned?)
    requires e.Raised? ==> CreatedBy(api, p, s, e.st)
    requires |d.st.kernels| == |e.st.kernels| == |s.kernels| && d.st.execTimes == e.st.execTimes
    requires d.Returned? ==> Finished(d.st) && |d.st.totals| == |e.st.totals| + |e.st.kernels|
    requires ReleasesSession(d.calls, d.Returned? && e.st.queue, d.Returned? && e.st.program, d.Returned? && e.st.context)
    requires d.Raised? && NoMemFrom(e.st, 0) ==> TotalMessage(d.msg)
    ensures d.Returned? ==> ReleasesSession(e.calls + d.calls, !FailsAt(api, p, 0) && !FailsAt(api, p, 1),
                                            !FailsAt(api, p, 0) && !FailsAt(api, p, 1) && !FailsAt(api, p, 2), !FailsAt(api, p, 0))
    ensures d.Raised? ==> ReleasesSession(e.calls + d.calls, e.Returned?, e.Returned?, e.Returned?)
    ensures e.Returned? ==> |d.st.execTimes| == |s.kernels|
    ensures e.Returned? && d.Returned? ==> |d.st.totals| == 2 * |s.kernels|
    ensures e.Returned? && d.Raised? ==> TotalMessage(d.msg)
  {
    ReleasesAppend(e.calls, d.calls);
  }

  lemma FinishedNoMem(s: Session)
    requires Finished(s)
    ensures NoMemFrom(s, 0)
  {
  }

  /** The creation calls release nothing. */
  lemma SetupCalls(d: Device, options: string, n: nat)
    requires n <= 4
    ensures Unreleasing(Creation(d, options)[..n]) && Finish !in Creation(d, options)[..n]
  {
  }

  lemma DispatchUnreleasing(calls: seq<Call>, lo: nat, hi: nat)
    requires Dispatches(calls, lo, hi)
    ensures Unreleasing(calls) && Finish !in calls
  {
    forall j | 0 <= j < |calls| ensures !(1 <= Stage(calls[j]) <= 5) {
      assert DispatchCall(calls[j]);
    }
  }

  lemma UnreleasingAppend(a: seq<Call>, b: seq<Call>)
    requires Unreleasing(a) && Unreleasing(b)
    ensures Unreleasing(a + b)
  {
    forall j | 0 <= j < |a + b| ensures !(1 <= Stage((a + b)[j]) <= 5) {
      if j < |a| { assert (a + b)[j] == a[j]; } else { assert (a + b)[j] == b[j - |a|]; }
    }
  }

  /** Calls that release nothing release no session handle. */
  lemma NoReleases(calls: seq<Call>)
    requires Unreleasing(calls)
    ensures ReleasesSession(calls, false, false, false)
  {
    forall j | 0 <= j < |calls| ensures calls[j] != ReleaseQueue && calls[j] != ReleaseProgram && calls[j] != ReleaseContext {
      assert !(1 <= Stage(calls[j]) <= 5);
    }
    assert ReleaseQueue !in calls && ReleaseProgram !in calls && ReleaseContext !in calls;
    CountAbsent(calls, ReleaseQueue);
    CountAbsent(calls, ReleaseProgram);
    CountAbsent(calls, ReleaseContext);
  }

  /** The calls of a returning dispatch, the wait, then `teardown`'s calls. */
  lemma ExecuteCalls(pre: seq<Call>, post: seq<Call>, queue: bool, program: bool, context: bool)
    requires Unreleasing(pre) && Finish !in pre
    requires InStages(post, 0, 5)
    requires ReleasesSession(post, queue, program, context)
    ensures WaitSplits(pre + [Finish] + post)
    ensures ReleasesSession(pre + [Finish] + post, queue, program, context)
  {
    var c := pre + [Finish] + post;
    assert c[|pre|] == Finish && c[..|pre|] == pre && c[|pre| + 1..] == post;
    assert WaitsAt(c, |pre|);
    NoReleases(pre + [Finish]);
    ReleasesAfter(pre + [Finish], post, queue, program, context);
  }

  /** Calls that release nothing, put before a waiting run, keep it waiting. */
  lemma WaitAfter(pre: seq<Call>, calls: seq<Call>)
    requires Unreleasing(pre) && Finish !in pre
    requires WaitSplits(calls)
    ensures WaitSplits(pre + calls)
  {
    var w :| 0 <= w < |calls| && calls[w] == Finish && WaitsAt(calls, w);
    var c := pre + calls;
    assert c[..|pre| + w] == pre + calls[..w];
    assert c[|pre| + w + 1..] == calls[w + 1..];
    UnreleasingAppend(pre, calls[..w]);
    assert c[|pre| + w] == Finish && WaitsAt(c, |pre| + w);
  }
}

=== FILE: runtime.dfy ===
/**
  The accelerator runtime as the timing layer sees it. Every OpenCL call the
  layer makes takes the next position of a call log; an oracle `Api` decides
  whether the call at a given log position reports an error and which start
  and end timestamps the event recorded by the call at a given position
  carries. Handles are present/absent slots; an event is identified by the
  log position of the call that recorded it. An operation is given the log
  position it starts at and reports the calls it issued.
 */
module Runtime {
  import opened Common

  /** `BufferType`. */
  datatype Mode = InBuffer | InOutBuffer | OutBuffer | InScalar

  /** `cl_mem_flags` bits. */
  const ClMemReadWrite: nat := 1
  const ClMemWriteOnly: nat := 2
  const ClMemReadOnly: nat := 4

  /**
    The enumerator's value, which the source passes to `clCreateBuffer` as the
    memory flags; `IN_SCALAR` follows `OUT_BUFFER` and is never passed.
   */
  function Flags(m: Mode): nat
  {
    match m
    case InBuffer => ClMemReadOnly
    case InOutBuffer => ClMemReadWrite
    case OutBuffer => ClMemWriteOnly
    case InScalar => ClMemWriteOnly + 1
  }

  /** Modes whose host data is copied to the device on acquisition. */
  predicate Uploads(m: Mode) { m == InBuffer || m == InOutBuffer }

  /** Modes whose device data is copied back to the host on release. */
  predicate Downloads(m: Mode) { m == OutBuffer || m == InOutBuffer }

  /** One kernel argument (`Buffer`). */
  datatype Buffer = Buffer(
    host: nat,               // the host pointer, as an abstract address
    size: nat,               // bytes
    mode: Mode,
    mem: bool,               // the `cl_mem` handle is present
    upload: Option<nat>,     // `time_profiler[0]`
    download: Option<nat>)   // `time_profiler[1]`

  /** `sizeof(cl_mem)`: a memory argument is passed as its handle. */
  const HandleBytes: nat := 8

  /** What `clSetKernelArg` receives: a scalar's own bytes, or the address of a buffer's handle. */
  datatype Arg = ByValue(host: nat, size: nat) | ByHandle(buffer: nat, size: nat)

  datatype Call =
    | CreateContext(platform: nat, deviceType: nat)
    | CreateQueue
    | CreateProgram
    | BuildProgram(options: string)
    | CreateBuffer(buffer: nat, size: nat, flags: nat)
    | WriteBuffer(buffer: nat)                       // non-blocking host-to-device copy
    | ReadBuffer(buffer: nat)                        // blocking device-to-host copy
    | ReleaseTransferEvent(buffer: nat, event: nat)
    | ReleaseMem(buffer: nat)
    | QueryProfile(event: nat)                       // wait for the event, read start and end
    | CreateKernel(kernel: nat, name: string)
    | SetArg(kernel: nat, index: nat, arg: Arg)
    | EnqueueKernel(kernel: nat, dims: nat, global: seq<nat>, local: seq<nat>)
    | ReleaseLaunchEvent(kernel: nat, event: nat)
    | ReleaseKernel(kernel: nat)
    | Finish
    | ReleaseQueue
    | ReleaseProgram
    | ReleaseContext

  datatype Api = Api(
    fails: nat -> bool,          // does the call at this log position report an error?
    stamp: nat -> (u64, u64))    // (start, end) of the event recorded at this log position

  /** Does the `j`-th call of an operation that starts at log position `p` fail? */
  predicate FailsAt(api: Api, p: nat, j: nat)
  {
    api.fails(p + j)
  }

  /** The failures the layer reports, one per check that throws. */
  datatype Failure =
    | CreateContextFailed | CreateQueueFailed | CreateProgramFailed | BuildProgramFailed
    | CreateBufferFailed | WriteBufferFailed | ReadBufferFailed | ReleaseBufferFailed
    | CreateKernelFailed | SetArgsFailed | EnqueueKernelFailed
    | KernelProfileFailed | UploadProfileFailed | DownloadProfileFailed

  /** The text of the `std::runtime_error` thrown for a failure, spelled as the source spells it. */
  function Text(f: Failure): string
  {
    match f
    case CreateContextFailed => "Unable to create context"
    case CreateQueueFailed => "Unable to create command_queue"
    case CreateProgramFailed => "Unable to create program"
    case BuildProgramFailed => "Unable to build program"
    case CreateBufferFailed => "Unalbe to create buffer"
    case WriteBufferFailed => "Unable to enqueue buffer"
    case ReadBufferFailed => "Unable to read enqueued buffer"
    case ReleaseBufferFailed => "Unable to release buffer"
    case CreateKernelFailed => "Unable to create kernel"
    case SetArgsFailed => "Unable to set kernel arguments"
    case EnqueueKernelFailed => "Unable to enqueue NDRange kernel"
    case KernelProfileFailed => "Unable to get profiling info [kernel]"
    case UploadProfileFailed => "Unable to get profiling info [transfer to]"
    case DownloadProfileFailed => "Unable to get profiling info [transfer from]"
  }

  /**
    What an operation that starts at some log position leaves behind: the
    state as it was when the operation returned or threw, and the calls it
    issued, in order. The source mutates fields before the check that throws,
    so a raised outcome carries a state too.
   */
  datatype Outcome<S, T> =
    | Returned(st: S, calls: seq<Call>, value: T)
    | Raised(st: S, calls: seq<Call>, msg: Failure)

  /** A returned run followed by a run started where it stopped: the later outcome, with the earlier calls in front. */
  function Then<S, T, U>(first: Outcome<S, T>, rest: Outcome<S, U>): (r: Outcome<S, U>)
    requires first.Returned?
    ensures r.calls == first.calls + rest.calls && r.st == rest.st && r.Returned? == rest.Returned?
    ensures r.Returned? ==> r.value == rest.value
    ensures r.Raised? ==> r.msg == rest.msg
  {
    match rest
    case Returned(st, calls, value) => Returned(st, first.calls + calls, value)
    case Raised(st, calls, msg) => Raised(st, first.calls + calls, msg)
  }

  /** A prefix of `rest`, put after `head`, is a prefix of `head + rest`. */
  lemma PrefixAfter<T>(head: seq<T>, tail: seq<T>, rest: seq<T>)
    requires tail <= rest
    ensures head + tail <= head + rest
  {
    assert (head + rest)[..|head + tail|] == head + rest[..|tail|];
  }

  /** A prefix of `head` is a prefix of `head + rest`. */
  lemma PrefixBefore<T>(calls: seq<T>, head: seq<T>, rest: seq<T>)
    requires calls <= head
    ensures calls <= head + rest
  {
    assert (head + rest)[..|calls|] == head[..|calls|];
  }
}

=== FILE: session.dfy ===
/**
  `Program`: a device, the kernels in construction order, the shared buffer
  store their arguments index, the context, program and command-queue
  handles, and the two time lists. This module holds the state and
  `teardown`, which the destructor runs too.
 */
module Sessions {
  import opened Common
  import opened Runtime
  import opened Buffers
  import opened Kernels
  import opened Timing
  import opened Devices

  datatype Session = Session(
    source: string,          // `program_source`
    device: Device,
    kernels: seq<Kernel>,
    bufs: seq<Buffer>,       // the buffers the kernels' arguments name
    context: bool,           // the `cl_context` handle is present
    program: bool,           // the `cl_program` handle is present
    queue: bool,             // the `cl_command_queue` handle is present
    totals: seq<u64>,        // `total_execution_time`
    execTimes: seq<u64>)     // `kernel_execution_time`

  /** Every kernel's arguments name buffers of the store. */
  predicate Valid(s: Session)
  {
    forall i :: 0 <= i < |s.kernels| ==> ValidArgs(s.kernels[i].args, s.bufs)
  }

  /** Buffer `b` is an argument of some kernel. */
  predicate Held(s: Session, b: nat)
  {
    exists i :: 0 <= i < |s.kernels| && b in s.kernels[i].args
  }

  /** A program as constructed: no handles and empty time lists. */
  function NewSession(source: string, device: Device, kernels: seq<Kernel>, bufs: seq<Buffer>): (s: Session)
    ensures !s.context && !s.program && !s.queue && s.totals == [] && s.execTimes == []
    ensures s.source == source && s.device == device && s.kernels == kernels && s.bufs == bufs
  {
    Session(source, device, kernels, bufs, false, false, false, [], [])
  }

  /**
    The stage of `teardown` a call belongs to: profiling queries for the
    totals, then argument releases, then the queue, then kernel handles, then
    the program, then the context.
   */
  function Stage(c: Call): nat
  {
    match c
    case QueryProfile(_) => 0
    case ReadBuffer(_) => 1
    case ReleaseMem(_) => 1
    case ReleaseTransferEvent(_, _) => 1
    case ReleaseQueue => 2
    case ReleaseLaunchEvent(_, _) => 3
    case ReleaseKernel(_) => 3
    case ReleaseProgram => 4
    case ReleaseContext => 5
    case _ => 6
  }

  /** Every call belongs to a stage between `lo` and `hi`. */
  predicate InStages(calls: seq<Call>, lo: nat, hi: nat)
  {
    forall j :: 0 <= j < |calls| ==> lo <= Stage(calls[j]) <= hi
  }

  /** No call belongs to an earlier stage than a call before it. */
  predicate StageOrdered(calls: seq<Call>)
  {
    forall a, b :: 0 <= a < b < |calls| ==> Stage(calls[a]) <= Stage(calls[b])
  }

  /** Calls of a single stage are trivially ordered. */
  lemma OneStage(calls: seq<Call>, k: nat)
    requires InStages(calls, k, k)
    ensures StageOrdered(calls)
  {
  }

  /** Two ordered runs, the second starting no earlier than the first ends, make an ordered run. */
  lemma {:induction false} StagesAppend(a: seq<Call>, b: seq<Call>, lo: nat, mid: nat, hi: nat)
    requires lo <= mid <= hi
    requires StageOrdered(a) && InStages(a, lo, mid)
    requires StageOrdered(b) && InStages(b, mid, hi)
    ensures StageOrdered(a + b) && InStages(a + b, lo, hi)
  {
    var s := a + b;
    forall x, y | 0 <= x < y < |s|
      ensures Stage(s[x]) <= Stage(s[y])
    {
      if y < |a| {
        assert s[x] == a[x] && s[y] == a[y];
      } else if x < |a| {
        assert s[x] == a[x] && s[y] == b[y - |a|];
      } else {
        assert s[x] == b[x - |a|] && s[y] == b[y - |a|];
      }
    }
    forall j | 0 <= j < |s|
      ensures lo <= Stage(s[j]) <= hi
    {
      if j < |a| { assert s[j] == a[j]; } else { assert s[j] == b[j - |a|]; }
    }
  }

  /** Profiling queries all belong to the first stage. */
  lemma QueriesFirst(calls: seq<Call>)
    requires forall j :: 0 <= j < |calls| ==> calls[j].QueryProfile?
    ensures InStages(calls, 0, 0)
  {
  }

  /** The messages a total-time computation can throw. */
  predicate TotalMessage(msg: Failure)
  {
    msg == UploadProfileFailed || msg == DownloadProfileFailed || msg == KernelProfileFailed
  }

  /** Between `s` and `st`, only the kernels' cached execution times and the totals may differ. */
  predicate OnlyTimes(s: Session, st: Session)
  {
    && st == s.(kernels := st.kernels, totals := st.totals)
    && |st.kernels| == |s.kernels|
    && forall j :: 0 <= j < |s.kernels| ==> st.kernels[j] == s.kernels[j].(execTime := st.kernels[j].execTime)
  }

  /**
    Every kernel whose execution time was cached in `s` still has it in `st`.
    A zero time is no cache: `getExecutionTime` queries it again.
   */
  predicate KeepsCached(s: Session, st: Session)
  {
    && |st.kernels| == |s.kernels|
    && forall j :: 0 <= j < |s.kernels| && s.kernels[j].execTime != 0 ==> st.kernels[j].execTime == s.kernels[j].execTime
  }

  /** The totals of kernels `i` onwards, in kernel order, each as computed in `s`. */
  function TotalsOf(api: Api, s: Session, i: nat): (r: seq<u64>)
    requires Valid(s) && i <= |s.kernels|
    ensures |r| == |s.kernels| - i
    decreases |s.kernels| - i
  {
    if i == |s.kernels| then [] else [Total(api, s.kernels[i], s.bufs)] + TotalsOf(api, s, i + 1)
  }

  /** Entry `j - i` of `TotalsOf(api, s, i)` is kernel `j`'s total. */
  lemma {:induction false} TotalsOfAt(api: Api, s: Session, i: nat)
    requires Valid(s) && i <= |s.kernels|
    ensures forall j :: i <= j < |s.kernels| ==> TotalsOf(api, s, i)[j - i] == Total(api, s.kernels[j], s.bufs)
    decreases |s.kernels| - i
  {
    if i < |s.kernels| {
      TotalsOfAt(api, s, i + 1);
      forall j | i < j < |s.kernels|
        ensures TotalsOf(api, s, i)[j - i] == Total(api, s.kernels[j], s.bufs)
      {
        assert TotalsOf(api, s, i)[j - i] == TotalsOf(api, s, i + 1)[j - (i + 1)];
      }
    }
  }

  /** The totals of kernels `i` onwards depend on those kernels and the buffers only. */
  lemma {:induction false} TotalsOfSame(api: Api, s: Session, s2: Session, i: nat)
    requires Valid(s) && Valid(s2) && i <= |s.kernels| == |s2.kernels| && s.bufs == s2.bufs
    requires forall j :: i <= j < |s.kernels| ==> s2.kernels[j] == s.kernels[j]
    ensures TotalsOf(api, s2, i) == TotalsOf(api, s, i)
    decreases |s.kernels| - i
  {
    if i < |s.kernels| {
      TotalsOfSame(api, s, s2, i + 1);
      assert s2.kernels[i] == s.kernels[i];
      assert TotalsOf(api, s2, i) == [Total(api, s2.kernels[i], s2.bufs)] + TotalsOf(api, s2, i + 1);
    }
  }

  /** `st`'s totals are `s`'s followed by the totals of kernels `i` onwards, as computed in `s`. */
  predicate TotalsAppended(api: Api, s: Session, st: Session, i: nat)
    requires Valid(s) && i <= |s.kernels|
  {
    st.totals == s.totals + TotalsOf(api, s, i)
  }

  /**
    One iteration of the first loop of `teardown`: kernel `i`'s total,
    computed in `s`. Only kernel `i`'s cached execution time may change.
   */
  function TotalOf(api: Api, p: nat, s: Session, i: nat): (r: Outcome<Session, u64>)
    requires Valid(s) && i < |s.kernels|
    ensures Valid(r.st) && OnlyTimes(s, r.st) && r.st.totals == s.totals && KeepsCached(s, r.st)
    ensures forall j :: 0 <= j < |s.kernels| && j != i ==> r.st.kernels[j] == s.kernels[j]
    ensures InStages(r.calls, 0, 0)
    ensures r.Returned? ==> r.value == Total(api, s.kernels[i], s.bufs)
    ensures r.Raised? ==> TotalMessage(r.msg)
  {
    var t := TotalTime(api, p, s.kernels[i], s.bufs);
    var s1 := s.(kernels := s.kernels[i := t.st]);
    QueriesFirst(t.calls);
    TotalsValid(s, s1, i, t.st.execTime);
    if t.Raised? then Raised(s1, t.calls, t.msg) else Returned(s1, t.calls, t.value)
  }

  /**
    The first loop of `teardown`, from kernel `i` on: each kernel's total is
    computed and appended, in kernel order, stopping at the first that
    throws. Only the cached execution times and the totals change.
   */
  function TotalsFrom(api: Api, p: nat, s: Session, i: nat): (r: Outcome<Session, ()>)
    requires Valid(s) && i <= |s.kernels|
    ensures OnlyTimes(s, r.st) && KeepsCached(s, r.st)
    ensures InStages(r.calls, 0, 0)
    ensures r.Returned? ==> TotalsAppended(api, s, r.st, i)
    ensures r.Raised? ==> TotalMessage(r.msg)
    decreases |s.kernels| - i
  {
    if i == |s.kernels| then Returned(s, [], ())
    else
      var t := TotalOf(api, p, s, i);
      if t.Raised? then Raised(t.st, t.calls, t.msg)
      else
        var s2 := t.st.(totals := s.totals + [t.value]);
        var rest := TotalsFrom(api, p + |t.calls|, s2, i + 1);
        TotalsStep(api, s, t.st, s2, i, rest.st, rest.Returned?);
        QueriesAppend(t.calls, rest.calls);
        if rest.Returned? then Returned(rest.st, t.calls + rest.calls, ())
        else Raised(rest.st, t.calls + rest.calls, rest.msg)
  }

  lemma TotalsValid(s: Session, s1: Session, i: nat, x: u64)
    requires Valid(s) && i < |s.kernels|
    requires s1 == s.(kernels := s.kernels[i := s.kernels[i].(execTime := x)])
    ensures Valid(s1) && OnlyTimes(s, s1)
  {
    forall j | 0 <= j < |s1.kernels| ensures ValidArgs(s1.kernels[j].args, s1.bufs) {
      assert s1.kernels[j].args == s.kernels[j].args;
    }
  }

  /** One step of `TotalsFrom`: kernel `i`'s total appended, then the rest. */
  lemma TotalsStep(api: Api, s: Session, s1: Session, s2: Session, i: nat, st: Session, returned: bool)
    requires Valid(s) && i < |s.kernels|
    requires Valid(s1) && OnlyTimes(s, s1) && s1.totals == s.totals
    requires forall j :: 0 <= j < |s.kernels| && j != i ==> s1.kernels[j] == s.kernels[j]
    requires s2 == s1.(totals := s.totals + [Total(api, s.kernels[i], s.bufs)])
    requires OnlyTimes(s2, st)
    requires returned ==> TotalsAppended(api, s2, st, i + 1)
    ensures OnlyTimes(s, st)
    ensures returned ==> TotalsAppended(api, s, st, i)
  {
    OnlyTimesTrans(s, s1, s2);
    OnlyTimesTrans(s, s2, st);
    if returned {
      TotalsSum(api, s, s2, i, st.totals);
    }
  }

  /** The totals of kernels `i` onwards: kernel `i`'s, then those after it, which the first append leaves alone. */
  lemma TotalsSum(api: Api, s: Session, s2: Session, i: nat, totals: seq<u64>)
    requires Valid(s) && Valid(s2) && i < |s.kernels| == |s2.kernels| && s2.bufs == s.bufs
    requires forall j :: i < j < |s.kernels| ==> s2.kernels[j] == s.kernels[j]
    requires s2.totals == s.totals + [Total(api, s.kernels[i], s.bufs)]
    requires totals == s2.totals + TotalsOf(api, s2, i + 1)
    ensures totals == s.totals + TotalsOf(api, s, i)
  {
    TotalsOfSame(api, s, s2, i + 1);
    assert totals == s.totals + ([Total(api, s.kernels[i], s.bufs)] + TotalsOf(api, s, i + 1));
  }

  /** Profiling queries followed by profiling queries. */
  lemma QueriesAppend(first: seq<Call>, rest: seq<Call>)
    requires InStages(first, 0, 0) && InStages(rest, 0, 0)
    ensures InStages(first + rest, 0, 0)
  {
    OneStage(first, 0);
    OneStage(rest, 0);
    StagesAppend(first, rest, 0, 0, 0);
  }

  /** Changing only times twice changes only times. */
  lemma OnlyTimesTrans(a: Session, b: Session, c: Session)
    requires OnlyTimes(a, b) && OnlyTimes(b, c)
    ensures OnlyTimes(a, c)
  {
  }

  /** Between `s` and `st`, only the buffer store may differ: no buffer changes shape or gains memory. */
  predicate OnlyBufs(s: Session, st: Session)
  {
    && st == s.(bufs := st.bufs)
    && SameShape(s.bufs, st.bufs)
    && NeverAcquires(s.bufs, st.bufs)
  }

  /** No buffer gains an upload event. */
  predicate NoNewUploads(a: seq<Buffer>, c: seq<Buffer>)
  {
    |c| == |a| && forall b :: 0 <= b < |a| && a[b].upload.None? ==> c[b].upload.None?
  }

  /** Every argument of kernels `i` onwards has neither memory nor an upload event. */
  predicate ArgsReleased(s: Session, i: nat)
  {
    forall j, x :: i <= j < |s.kernels| && 0 <= x < |s.kernels[j].args| ==>
      s.kernels[j].args[x] < |s.bufs| && !s.bufs[s.kernels[j].args[x]].mem && s.bufs[s.kernels[j].args[x]].upload.None?
  }

  /**
    The calls of the release loop: argument releases only, each of a buffer
    some kernel holds, and downloads and frees only of buffers that held
    memory when the loop began.
   */
  predicate ReleaseLoopCalls(s: Session, calls: seq<Call>)
  {
    && InStages(calls, 1, 1)
    && forall j :: 0 <= j < |calls| ==>
         && Held(s, calls[j].buffer)
         && ((calls[j].ReadBuffer? || calls[j].ReleaseMem?) ==> calls[j].buffer < |s.bufs| && s.bufs[calls[j].buffer].mem)
  }

  /** No argument of kernels `i` onwards holds memory. */
  predicate NoMemFrom(s: Session, i: nat)
  {
    forall j, x :: i <= j < |s.kernels| && 0 <= x < |s.kernels[j].args| ==>
      s.kernels[j].args[x] < |s.bufs| && !s.bufs[s.kernels[j].args[x]].mem
  }

  /** The messages releasing a buffer can throw. */
  predicate ReleaseMessages(msg: Failure)
  {
    msg == ReadBufferFailed || msg == ReleaseBufferFailed
  }

  /**
    The second loop of `teardown`, from kernel `i` on: every kernel's
    arguments are released, in kernel order, stopping at the first throw.
   */
  function ReleaseAllFrom(api: Api, p: nat, s: Session, i: nat): (r: Outcome<Session, ()>)
    requires Valid(s) && i <= |s.kernels|
    ensures OnlyBufs(s, r.st) && Valid(r.st)
    ensures ReleaseLoopCalls(s, r.calls)
    ensures r.Returned? ==> ArgsReleased(r.st, i) && NoNewUploads(s.bufs, r.st.bufs)
    ensures r.Raised? ==> ReleaseMessages(r.msg)
    ensures NoMemFrom(s, i) ==> r.Returned?
    decreases |s.kernels| - i
  {
    if i == |s.kernels| then Returned(s, [], ())
    else
      var a := ReleaseArgs(api, p, s.bufs, s.kernels[i].args);
      var s1 := s.(bufs := a.st);
      ReleaseAllFirst(s, s1, i, a.calls);
      NoMemStep(s, s1, i);
      if a.Raised? then Raised(s1, a.calls, a.msg)
      else
        var rest := ReleaseAllFrom(api, p + |a.calls|, s1, i + 1);
        ReleaseAllStep(s, s1, rest.st, i, a.calls, rest.calls, rest.Returned?);
        if rest.Returned? then Returned(rest.st, a.calls + rest.calls, ())
        else Raised(rest.st, a.calls + rest.calls, rest.msg)
  }

  /** Releasing kernel `i`'s arguments alone. */
  lemma ReleaseAllFirst(s: Session, s1: Session, i: nat, calls: seq<Call>)
    requires Valid(s) && i < |s.kernels|
    requires s1 == s.(bufs := s1.bufs)
    requires SameShape(s.bufs, s1.bufs) && NeverAcquires(s.bufs, s1.bufs)
    requires ReleaseCallsOf(calls, s.kernels[i].args, s.bufs)
    ensures OnlyBufs(s, s1) && Valid(s1)
    ensures ReleaseLoopCalls(s, calls)
  {
    forall j | 0 <= j < |calls|
      ensures Stage(calls[j]) == 1 && Held(s, calls[j].buffer)
    {
      assert calls[j] in calls;
    }
  }

  /** Releasing buffers keeps buffers without memory without it. */
  lemma NoMemStep(s: Session, s1: Session, i: nat)
    requires i < |s.kernels| && OnlyBufs(s, s1)
    ensures NoMemFrom(s, i) ==> (forall x :: 0 <= x < |s.kernels[i].args| ==> !s.bufs[s.kernels[i].args[x]].mem) && NoMemFrom(s1, i + 1)
  {
  }

  /** One step of `ReleaseAllFrom`: kernel `i`'s arguments released, then the rest. */
  lemma ReleaseAllStep(s: Session, s1: Session, st: Session, i: nat, first: seq<Call>, rest: seq<Call>, returned: bool)
    requires Valid(s) && i < |s.kernels|
    requires OnlyBufs(s, s1) && Valid(s1)
    requires ReleaseLoopCalls(s, first)
    requires returned ==> forall x :: 0 <= x < |s.kernels[i].args| ==>
               !s1.bufs[s.kernels[i].args[x]].mem && s1.bufs[s.kernels[i].args[x]].upload.None?
    requires OnlyBufs(s1, st) && Valid(st)
    requires ReleaseLoopCalls(s1, rest)
    requires returned ==> ArgsReleased(st, i + 1)
    requires returned ==> NoNewUploads(s1.bufs, st.bufs)
    requires returned ==> forall b :: 0 <= b < |s.bufs| && b !in s.kernels[i].args ==> s1.bufs[b] == s.bufs[b]
    ensures OnlyBufs(s, st)
    ensures ReleaseLoopCalls(s, first + rest)
    ensures returned ==> ArgsReleased(st, i) && NoNewUploads(s.bufs, st.bufs)
  {
    var all := first + rest;
    forall j | 0 <= j < |all|
      ensures Stage(all[j]) == 1 && Held(s, all[j].buffer)
      ensures (all[j].ReadBuffer? || all[j].ReleaseMem?) ==> all[j].buffer < |s.bufs| && s.bufs[all[j].buffer].mem
    {
      if j < |first| {
        assert all[j] == first[j];
      } else {
        assert all[j] == rest[j - |first|];
        var k :| 0 <= k < |s1.kernels| && all[j].buffer in s1.kernels[k].args;
        assert s1.kernels[k] == s.kernels[k];
      }
    }
    if returned {
      forall b | 0 <= b < |s.bufs| && s.bufs[b].upload.None?
        ensures st.bufs[b].upload.None?
      {
        if b in s.kernels[i].args {
          var x :| 0 <= x < |s.kernels[i].args| && s.kernels[i].args[x] == b;
        }
      }
    }
  }

  /**
    The third loop of `teardown`, from kernel `i` on: every kernel's launch
    event and handle are released where present. Nothing here can throw.
   */
  function HandlesFrom(ks: seq<Kernel>, i: nat): (r: (seq<Kernel>, seq<Call>))
    requires i <= |ks|
    ensures |r.0| == |ks|
    ensures forall j :: 0 <= j < |ks| ==> r.0[j] == if j < i then ks[j] else ks[j].(handle := false, event := None)
    ensures InStages(r.1, 3, 3)
    ensures forall j :: 0 <= j < |ks| ==> (ReleaseKernel(j) in r.1 <==> i <= j && ks[j].handle)
    ensures forall j, e: nat :: 0 <= j < |ks| ==> (ReleaseLaunchEvent(j, e) in r.1 <==> i <= j && ks[j].event == Some(e))
    decreases |ks| - i
  {
    if i == |ks| then (ks, [])
    else
      var h := ReleaseHandle(ks[i], i);
      var rest := HandlesFrom(ks[i := h.st], i + 1);
      HandlesStep(ks, i, h.calls, rest.1);
      (rest.0, h.calls + rest.1)
  }

  /** One step of `HandlesFrom`: kernel `i`'s event and handle, then the rest. */
  lemma HandlesStep(ks: seq<Kernel>, i: nat, first: seq<Call>, rest: seq<Call>)
    requires i < |ks|
    requires first == ReleaseHandle(ks[i], i).calls
    requires InStages(rest, 3, 3)
    requires forall j :: 0 <= j < |ks| ==> (ReleaseKernel(j) in rest <==> i + 1 <= j && ks[i := ReleaseHandle(ks[i], i).st][j].handle)
    requires forall j, e: nat :: 0 <= j < |ks| ==>
               (ReleaseLaunchEvent(j, e) in rest <==> i + 1 <= j && ks[i := ReleaseHandle(ks[i], i).st][j].event == Some(e))
    ensures InStages(first + rest, 3, 3)
    ensures forall j :: 0 <= j < |ks| ==> (ReleaseKernel(j) in first + rest <==> i <= j && ks[j].handle)
    ensures forall j, e: nat :: 0 <= j < |ks| ==> (ReleaseLaunchEvent(j, e) in first + rest <==> i <= j && ks[j].event == Some(e))
  {
    var ev := if ks[i].event.Some? then [ReleaseLaunchEvent(i, ks[i].event.value)] else [];
    var kr := if ks[i].handle then [ReleaseKernel(i)] else [];
    assert first == ev + kr;
    forall j | 0 <= j < |first + rest| ensures Stage((first + rest)[j]) == 3 {
      if j < |first| { assert (first + rest)[j] == first[j]; } else { assert (first + rest)[j] == rest[j - |first|]; }
    }
    forall j | 0 <= j < |ks| && j != i
      ensures ks[i := ReleaseHandle(ks[i], i).st][j] == ks[j]
    {
    }
  }

  /** Every kernel has neither a handle nor a launch event. */
  predicate KernelsReleased(s: Session)
  {
    forall j :: 0 <= j < |s.kernels| ==> !s.kernels[j].handle && s.kernels[j].event.None?
  }

  /** Between `s` and `st`, only buffers, kernel handles and events, and session handles may differ. */
  predicate Frame(s: Session, st: Session)
  {
    && st == s.(kernels := st.kernels, bufs := st.bufs, queue := st.queue, program := st.program, context := st.context)
    && |st.kernels| == |s.kernels|
    && forall j :: 0 <= j < |s.kernels| ==> st.kernels[j].args == s.kernels[j].args && st.kernels[j].execTime == s.kernels[j].execTime
  }

  /** What a completed `teardown` leaves: no session or kernel handle, no argument memory or upload event. */
  predicate Finished(s: Session)
  {
    KernelsReleased(s) && ArgsReleased(s, 0) && !s.queue && !s.program && !s.context
  }

  /**
    The releases of `teardown`, after the totals: every kernel's arguments,
    then the queue, every kernel's handle, the program and the context, each
    only if present. Only a buffer release can throw, and when no argument
    holds memory none does.
   */
  function Dismantle(api: Api, p: nat, s: Session): (r: Outcome<Session, ()>)
    requires Valid(s)
    ensures Valid(r.st) && Frame(s, r.st) && SameShape(s.bufs, r.st.bufs)
    ensures StageOrdered(r.calls) && InStages(r.calls, 1, 5)
    ensures NoMemFrom(s, 0) ==> r.Returned?
    ensures r.Returned? ==> !r.st.context && !r.st.program && !r.st.queue
    ensures r.Returned? ==> KernelsReleased(r.st) && ArgsReleased(r.st, 0)
    ensures ReleasesSession(r.calls, r.Returned? && s.queue, r.Returned? && s.program, r.Returned? && s.context)
    ensures r.Raised? ==> r.st == s.(bufs := r.st.bufs) && ReleaseMessages(r.msg)
  {
    var a := ReleaseAllFrom(api, p, s, 0);
    OneStage(a.calls, 1);
    NoSessionReleases(a.calls, 1, 1);
    if a.Raised? then a
    else
      var h := HandlesFrom(a.st.kernels, 0);
      var rest := Closing(a.st.queue, h.1, a.st.program, a.st.context);
      StagesAppend(a.calls, rest, 1, 2, 5);
      ReleasesAfter(a.calls, rest, s.queue, s.program, s.context);
      var st := a.st.(queue := false, kernels := h.0, program := false, context := false);
      DismantleEnd(s, a.st, st, h.0);
      Returned(st, a.calls + rest, ())
  }

  /**
    `teardown`: compute and append every kernel's total, then release every
    kernel's arguments, then the queue, every kernel's handle, the program
    and the context, each only if present. The calls come stage by stage in
    that order, so every total is computed before any argument is released.
   */
  function Teardown(api: Api, p: nat, s: Session): (r: Outcome<Session, ()>)
    requires Valid(s)
    ensures Valid(r.st) && |r.st.kernels| == |s.kernels|
    ensures forall j :: 0 <= j < |s.kernels| ==> r.st.kernels[j].args == s.kernels[j].args
    ensures r.st.execTimes == s.execTimes && SameShape(s.bufs, r.st.bufs) && KeepsCached(s, r.st)
    ensures StageOrdered(r.calls) && InStages(r.calls, 0, 5)
    ensures r.Returned? ==> TotalsAppended(api, s, r.st, 0) && Finished(r.st)
    ensures ReleasesSession(r.calls, r.Returned? && s.queue, r.Returned? && s.program, r.Returned? && s.context)
    ensures r.Raised? ==> r.st.context == s.context && r.st.program == s.program && r.st.queue == s.queue
    ensures r.Raised? ==> TotalMessage(r.msg) || ReleaseMessages(r.msg)
    ensures r.Raised? && NoMemFrom(s, 0) ==> TotalMessage(r.msg)
  {
    var t := TotalsFrom(api, p, s, 0);
    TeardownShape(s, t.st);
    NoMemKept(s, t.st);
    OneStage(t.calls, 0);
    NoSessionReleases(t.calls, 0, 0);
    if t.Raised? then t
    else
      var d := Dismantle(api, p + |t.calls|, t.st);
      StagesAppend(t.calls, d.calls, 0, 1, 5);
      ReleasesAfter(t.calls, d.calls, d.Returned? && t.st.queue, d.Returned? && t.st.program, d.Returned? && t.st.context);
      TeardownFrame(api, s, t.st, d.st);
      if d.Returned? then Returned(d.st, t.calls + d.calls, ())
      else Raised(d.st, t.calls + d.calls, d.msg)
  }

  /** How many times `c` occurs in `calls`. */
  function Count(calls: seq<Call>, c: Call): nat
  {
    if calls == [] then 0 else (if calls[0] == c then 1 else 0) + Count(calls[1..], c)
  }

  lemma {:induction false} CountAbsent(calls: seq<Call>, c: Call)
    requires c !in calls
    ensures Count(calls, c) == 0
  {
    if calls != [] {
      CountAbsent(calls[1..], c);
    }
  }

  lemma {:induction false} CountAppend(a: seq<Call>, b: seq<Call>, c: Call)
    ensures Count(a + b, c) == Count(a, c) + Count(b, c)
  {
    if a == [] {
      assert a + b == b;
    } else {
      assert (a + b)[1..] == a[1..] + b;
      CountAppend(a[1..], b, c);
    }
  }

  /** The session releases of two runs of calls add up. */
  lemma ReleasesAppend(a: seq<Call>, b: seq<Call>)
    ensures Count(a + b, ReleaseQueue) == Count(a, ReleaseQueue) + Count(b, ReleaseQueue)
    ensures Count(a + b, ReleaseProgram) == Count(a, ReleaseProgram) + Count(b, ReleaseProgram)
    ensures Count(a + b, ReleaseContext) == Count(a, ReleaseContext) + Count(b, ReleaseContext)
  {
    CountAppend(a, b, ReleaseQueue);
    CountAppend(a, b, ReleaseProgram);
    CountAppend(a, b, ReleaseContext);
  }

  /** `calls` release the queue, the program and the context once each if the flag says so, and never otherwise. */
  predicate ReleasesSession(calls: seq<Call>, queue: bool, program: bool, context: bool)
  {
    && Count(calls, ReleaseQueue) == (if queue then 1 else 0)
    && Count(calls, ReleaseProgram) == (if program then 1 else 0)
    && Count(calls, ReleaseContext) == (if context then 1 else 0)
  }

  /** The calls after the argument releases: the queue, the kernel handles, the program, the context. */
  function Closing(queue: bool, handles: seq<Call>, program: bool, context: bool): (r: seq<Call>)
    requires InStages(handles, 3, 3)
    ensures StageOrdered(r) && InStages(r, 2, 5)
    ensures ReleasesSession(r, queue, program, context)
    ensures forall c :: c in handles ==> c in r
  {
    var q := if queue then [ReleaseQueue] else [];
    var pc := if program then [ReleaseProgram] else [];
    var cc := if context then [ReleaseContext] else [];
    ClosingOrder(q, handles, pc, cc);
    ClosingCounts(q, handles, pc, cc, queue, program, context);
    q + handles + pc + cc
  }

  lemma ClosingOrder(q: seq<Call>, handles: seq<Call>, pc: seq<Call>, cc: seq<Call>)
    requires InStages(q, 2, 2) && InStages(handles, 3, 3) && InStages(pc, 4, 4) && InStages(cc, 5, 5)
    ensures StageOrdered(q + handles + pc + cc) && InStages(q + handles + pc + cc, 2, 5)
  {
    OneStage(q, 2);
    OneStage(handles, 3);
    OneStage(pc, 4);
    OneStage(cc, 5);
    StagesAppend(q, handles, 2, 3, 3);
    StagesAppend(q + handles, pc, 2, 4, 4);
    StagesAppend(q + handles + pc, cc, 2, 5, 5);
  }

  /** A call outside the stages a run is made of is not in it. */
  lemma NotInStages(calls: seq<Call>, lo: nat, hi: nat, c: Call)
    requires InStages(calls, lo, hi) && !(lo <= Stage(c) <= hi)
    ensures c !in calls
  {
    forall j | 0 <= j < |calls|
      ensures calls[j] != c
    {
      assert lo <= Stage(calls[j]) <= hi;
    }
  }

  lemma ClosingCounts(q: seq<Call>, handles: seq<Call>, pc: seq<Call>, cc: seq<Call>, queue: bool, program: bool, context: bool)
    requires q == if queue then [ReleaseQueue] else []
    requires pc == if program then [ReleaseProgram] else []
    requires cc == if context then [ReleaseContext] else []
    requires InStages(handles, 3, 3)
    ensures ReleasesSession(q + handles + pc + cc, queue, program, context)
    ensures forall c :: c in handles ==> c in q + handles + pc + cc
  {
    NoSessionReleases(handles, 3, 3);
    ReleasesAppend(q, handles);
    ReleasesAppend(q + handles, pc);
    ReleasesAppend(q + handles + pc, cc);
  }

  /** Calls of stages other than the queue's, the program's and the context's release none of them. */
  lemma NoSessionReleases(calls: seq<Call>, lo: nat, hi: nat)
    requires InStages(calls, lo, hi) && !(lo <= 2 <= hi) && !(lo <= 4 <= hi) && !(lo <= 5 <= hi)
    ensures ReleasesSession(calls, false, false, false)
  {
    NotInStages(calls, lo, hi, ReleaseQueue);
    NotInStages(calls, lo, hi, ReleaseProgram);
    NotInStages(calls, lo, hi, ReleaseContext);
    CountAbsent(calls, ReleaseQueue);
    CountAbsent(calls, ReleaseProgram);
    CountAbsent(calls, ReleaseContext);
  }

  /** Calls that release no session handle, followed by others, release what the others release. */
  lemma ReleasesAfter(a: seq<Call>, rest: seq<Call>, queue: bool, program: bool, context: bool)
    requires ReleasesSession(a, false, false, false) && ReleasesSession(rest, queue, program, context)
    ensures ReleasesSession(a + rest, queue, program, context)
  {
    ReleasesAppend(a, rest);
  }

  /** The releases keep the totals and the arguments the totals were computed with. */
  lemma TeardownFrame(api: Api, s: Session, t: Session, d: Session)
    requires Valid(s) && OnlyTimes(s, t) && Frame(t, d)
    ensures |d.kernels| == |s.kernels| && d.execTimes == s.execTimes
    ensures forall j :: 0 <= j < |s.kernels| ==> d.kernels[j].args == s.kernels[j].args
    ensures TotalsAppended(api, s, t, 0) ==> TotalsAppended(api, s, d, 0)
    ensures KeepsCached(s, t) ==> KeepsCached(s, d)
  {
    forall j | 0 <= j < |s.kernels| ensures d.kernels[j].args == s.kernels[j].args {
      assert t.kernels[j].args == s.kernels[j].args;
    }
  }

  /** The totals give no argument memory. */
  lemma NoMemKept(s: Session, t: Session)
    requires OnlyTimes(s, t)
    ensures NoMemFrom(s, 0) ==> NoMemFrom(t, 0)
  {
    forall j | 0 <= j < |t.kernels| ensures t.kernels[j].args == s.kernels[j].args {
      assert t.kernels[j] == s.kernels[j].(execTime := t.kernels[j].execTime);
    }
  }

  lemma TeardownShape(s: Session, st: Session)
    requires Valid(s) && OnlyTimes(s, st)
    ensures Valid(st)
  {
    forall j | 0 <= j < |st.kernels| ensures ValidArgs(st.kernels[j].args, st.bufs) {
      assert st.kernels[j].args == s.kernels[j].args;
    }
  }

  lemma DismantleEnd(s: Session, a: Session, st: Session, ks: seq<Kernel>)
    requires Valid(s) && OnlyBufs(s, a) && Valid(a)
    requires ArgsReleased(a, 0)
    requires |ks| == |a.kernels| && forall j :: 0 <= j < |ks| ==> ks[j] == a.kernels[j].(handle := false, event := None)
    requires st == a.(queue := false, kernels := ks, program := false, context := false)
    ensures Valid(st) && Frame(s, st) && KernelsReleased(st) && ArgsReleased(st, 0)
  {
    forall j | 0 <= j < |st.kernels| ensures ValidArgs(st.kernels[j].args, st.bufs) {
      assert st.kernels[j].args == a.kernels[j].args;
    }
    forall j, x | 0 <= j < |st.kernels| && 0 <= x < |st.kernels[j].args|
      ensures st.kernels[j].args[x] < |st.bufs| && !st.bufs[st.kernels[j].args[x]].mem && st.bufs[st.kernels[j].args[x]].upload.None?
    {
      assert st.kernels[j].args == a.kernels[j].args;
    }
  }

  /** Releasing the handles of kernels that hold none issues no call. */
  lemma {:induction false} HandlesNone(ks: seq<Kernel>, i: nat)
    requires i <= |ks|
    requires forall j :: 0 <= j < |ks| ==> !ks[j].handle && ks[j].event.None?
    ensures HandlesFrom(ks, i).1 == []
    decreases |ks| - i
  {
    if i < |ks| {
      var h := ReleaseHandle(ks[i], i);
      assert h.st == ks[i] && h.calls == [];
      assert ks[i := h.st] == ks;
      HandlesNone(ks, i + 1);
      assert HandlesFrom(ks, i).1 == h.calls + HandlesFrom(ks, i + 1).1;
    }
  }

  /** The calls of `Dismantle` once its release loop returned. */
  lemma DismantleCalls(api: Api, p: nat, s: Session)
    requires Valid(s)
    ensures var a := ReleaseAllFrom(api, p, s, 0);
      a.Returned? ==> Dismantle(api, p, s).Returned?
                      && Dismantle(api, p, s).calls == a.calls + Closing(a.st.queue, HandlesFrom(a.st.kernels, 0).1, a.st.program, a.st.context)
  {
  }

  /** The releases after a completed `teardown`: only transfer events are left to release. */
  lemma {:induction false} DismantleAgain(api: Api, p: nat, s: Session)
    requires Valid(s) && KernelsReleased(s) && NoMemFrom(s, 0)
    requires !s.queue && !s.program && !s.context
    ensures var r := Dismantle(api, p, s);
      && r.Returned?
      && forall j :: 0 <= j < |r.calls| ==> r.calls[j].ReleaseTransferEvent?
  {
    var a := ReleaseAllFrom(api, p, s, 0);
    ReleasedCallsAgain(s, a.calls);
    HandlesNone(a.st.kernels, 0);
    DismantleCalls(api, p, s);
    assert a.calls + [] == a.calls;
  }

  /** Once no argument holds memory, the release loop can only release transfer events. */
  lemma ReleasedCallsAgain(s: Session, calls: seq<Call>)
    requires NoMemFrom(s, 0) && ReleaseLoopCalls(s, calls)
    ensures forall j :: 0 <= j < |calls| ==> calls[j].ReleaseTransferEvent?
  {
    forall j | 0 <= j < |calls|
      ensures calls[j].ReleaseTransferEvent?
    {
      var k :| 0 <= k < |s.kernels| && calls[j].buffer in s.kernels[k].args;
      var x :| 0 <= x < |s.kernels[k].args| && s.kernels[k].args[x] == calls[j].buffer;
    }
  }

  /** Profiling queries and transfer event releases only: what remains to do once everything else is released. */
  predicate QuietCalls(calls: seq<Call>)
  {
    forall j :: 0 <= j < |calls| ==> calls[j].QueryProfile? || calls[j].ReleaseTransferEvent?
  }

  /** The first stage holds profiling queries only. */
  lemma StageZero(calls: seq<Call>)
    requires InStages(calls, 0, 0)
    ensures forall j :: 0 <= j < |calls| ==> calls[j].QueryProfile?
    ensures QuietCalls(calls)
  {
    forall j | 0 <= j < |calls| ensures calls[j].QueryProfile? {
      assert Stage(calls[j]) == 0;
    }
  }

  /** The totals leave a completed teardown's releases complete. */
  lemma AgainAfterTotals(s: Session, t: Session)
    requires Valid(s) && KernelsReleased(s) && ArgsReleased(s, 0) && OnlyTimes(s, t)
    ensures Valid(t) && KernelsReleased(t) && NoMemFrom(t, 0)
  {
    TeardownShape(s, t);
    forall j, x | 0 <= j < |t.kernels| && 0 <= x < |t.kernels[j].args|
      ensures t.kernels[j].args[x] < |t.bufs| && !t.bufs[t.kernels[j].args[x]].mem
    {
      assert t.kernels[j].args == s.kernels[j].args;
    }
    forall j | 0 <= j < |t.kernels| ensures !t.kernels[j].handle && t.kernels[j].event.None? {
      assert t.kernels[j] == s.kernels[j].(execTime := t.kernels[j].execTime);
    }
  }

  lemma QueriesThenEvents(t: seq<Call>, d: seq<Call>)
    requires forall j :: 0 <= j < |t| ==> t[j].QueryProfile?
    requires forall j :: 0 <= j < |d| ==> d[j].ReleaseTransferEvent?
    ensures QuietCalls(t + d)
  {
  }

  /**
    The destructor's `teardown` after a completed one. Whatever its totals
    loop leaves (only execution times and totals change, only profiling
    queries are issued; see `TotalsFrom`), the releases that follow return
    and release transfer events only: no handle is released twice.
   */
  lemma TeardownAgain(api: Api, p: nat, s: Session, st: Session, queries: seq<Call>)
    requires Valid(s) && Finished(s)
    requires OnlyTimes(s, st) && InStages(queries, 0, 0)
    ensures Valid(st) && Dismantle(api, p, st).Returned?
    ensures QuietCalls(queries + Dismantle(api, p, st).calls)
  {
    AgainAfterTotals(s, st);
    DismantleAgain(api, p, st);
    StageZero(queries);
    QueriesThenEvents(queries, Dismantle(api, p, st).calls);
  }
}

=== FILE: timing.dfy ===
/**
  The profiling side of `Kernel`: the cached execution time and the total
  time, which adds the span of every recorded upload and of every recorded
  download to the execution time, all in unsigned 64-bit arithmetic.
 */
module Timing {
  import opened Common
  import opened Runtime
  import opened Buffers
  import opened Kernels

  /** `CL_PROFILING_COMMAND_END` minus `CL_PROFILING_COMMAND_START`, wrapping like `cl_ulong`. */
  function Elapsed(stamp: (u64, u64)): u64
  {
    Sub64(stamp.1, stamp.0)
  }

  /** The execution time a kernel reports when its profiling query succeeds. */
  function ExecValue(api: Api, k: Kernel): u64
  {
    if k.event.Some? && k.execTime == 0 then Elapsed(api.stamp(k.event.value)) else k.execTime
  }

  /**
    `getExecutionTime`: without a launch event, or with a non-zero cache, the
    cached value is returned and nothing is queried; otherwise the launch
    event is queried and its elapsed time is cached and returned.
   */
  function ExecutionTime(api: Api, p: nat, k: Kernel): (r: Outcome<Kernel, u64>)
    ensures k.event.None? || k.execTime != 0 ==> r == Returned(k, [], k.execTime)
    ensures k.event.Some? && k.execTime == 0 ==>
              && r.calls == [QueryProfile(k.event.value)]
              && (r.Raised? <==> api.fails(p))
    ensures r.Raised? ==> r.st == k && r.msg == KernelProfileFailed
    ensures r.Returned? ==> r.value == ExecValue(api, k) && r.st == k.(execTime := r.value)
  {
    if k.event.None? || k.execTime != 0 then Returned(k, [], k.execTime)
    else if api.fails(p) then Raised(k, [QueryProfile(k.event.value)], KernelProfileFailed)
    else
      var t := Elapsed(api.stamp(k.event.value));
      Returned(k.(execTime := t), [QueryProfile(k.event.value)], t)
  }

  /** A non-zero execution time, once obtained, is served from the cache without any query. */
  lemma ExecutionTimeCached(api: Api, p: nat, q: nat, k: Kernel)
    requires ExecutionTime(api, p, k).Returned? && ExecutionTime(api, p, k).value != 0
    ensures var r := ExecutionTime(api, p, k);
      ExecutionTime(api, q, r.st) == Returned(r.st, [], r.value)
  {
  }

  /**
    A launch whose elapsed time is exactly zero is indistinguishable from an
    uncomputed cache: every later call queries the event again.
   */
  lemma ExecutionTimeZeroRequeried(api: Api, p: nat, q: nat, k: Kernel)
    requires k.event.Some? && k.execTime == 0 && api.stamp(k.event.value).0 == api.stamp(k.event.value).1
    requires ExecutionTime(api, p, k).Returned?
    ensures var r := ExecutionTime(api, p, k);
      r.value == 0 && ExecutionTime(api, q, r.st).calls == [QueryProfile(k.event.value)]
  {
  }

  /** An end stamp before the start stamp wraps around instead of going negative. */
  lemma ExecutionTimeWraps(api: Api, p: nat, k: Kernel)
    requires k.event.Some? && k.execTime == 0 && !api.fails(p)
    requires api.stamp(k.event.value).1 < api.stamp(k.event.value).0
    ensures ExecutionTime(api, p, k).value
         == api.stamp(k.event.value).1 - api.stamp(k.event.value).0 + Modulus64
  {
  }

  /** The four running bounds of `getTotalTime`. */
  datatype Window = Window(toStart: u64, toEnd: u64, fromStart: u64, fromEnd: u64)

  /** The bounds before the first argument: every start at `CL_ULONG_MAX`, every end at 0. */
  const Initial: Window := Window(ULongMax, 0, ULongMax, 0)

  /** The upload events of the arguments, in argument order. */
  function UploadEvents(bufs: seq<Buffer>, args: seq<nat>): seq<nat>
    requires ValidArgs(args, bufs)
  {
    if |args| == 0 then []
    else
      var ev := bufs[args[0]].upload;
      (if ev.Some? then [ev.value] else []) + UploadEvents(bufs, args[1..])
  }

  /** The download events of the arguments, in argument order. */
  function DownloadEvents(bufs: seq<Buffer>, args: seq<nat>): seq<nat>
    requires ValidArgs(args, bufs)
  {
    if |args| == 0 then []
    else
      var ev := bufs[args[0]].download;
      (if ev.Some? then [ev.value] else []) + DownloadEvents(bufs, args[1..])
  }

  /** The upload events are exactly those recorded in the arguments' upload slots. */
  lemma {:induction false} UploadEventsAre(bufs: seq<Buffer>, args: seq<nat>)
    requires ValidArgs(args, bufs)
    ensures forall e :: e in UploadEvents(bufs, args) <==> exists j :: 0 <= j < |args| && bufs[args[j]].upload == Some(e)
    decreases |args|
  {
    if |args| > 0 {
      UploadEventsAre(bufs, args[1..]);
      assert forall j :: 1 <= j < |args| ==> args[j] == args[1..][j - 1];
    }
  }

  /** The download events are exactly those recorded in the arguments' download slots. */
  lemma {:induction false} DownloadEventsAre(bufs: seq<Buffer>, args: seq<nat>)
    requires ValidArgs(args, bufs)
    ensures forall e :: e in DownloadEvents(bufs, args) <==> exists j :: 0 <= j < |args| && bufs[args[j]].download == Some(e)
    decreases |args|
  {
    if |args| > 0 {
      DownloadEventsAre(bufs, args[1..]);
      assert forall j :: 1 <= j < |args| ==> args[j] == args[1..][j - 1];
    }
  }

  /**
    The earliest start and the latest end among the stamps of `evs`, and the
    sentinel `(CL_ULONG_MAX, 0)` when there are none.
   */
  function Hull(api: Api, evs: seq<nat>): (h: (u64, u64))
    ensures evs == [] ==> h == NoTransfer
  {
    if |evs| == 0 then NoTransfer
    else
      var t := Hull(api, evs[1..]);
      (Min(api.stamp(evs[0]).0, t.0), Max(api.stamp(evs[0]).1, t.1))
  }

  /** Every stamp lies within the hull, and a non-empty hull's bounds are attained. */
  lemma {:induction false} HullBounds(api: Api, evs: seq<nat>)
    ensures var h := Hull(api, evs);
      forall e :: e in evs ==> h.0 <= api.stamp(e).0 && api.stamp(e).1 <= h.1
    ensures var h := Hull(api, evs);
      evs != [] ==> (exists e :: e in evs && h.0 == api.stamp(e).0) && (exists e :: e in evs && h.1 == api.stamp(e).1)
    decreases |evs|
  {
    if |evs| > 0 {
      HullBounds(api, evs[1..]);
      assert forall e :: e in evs[1..] ==> e in evs;
      assert forall e :: e in evs ==> e == evs[0] || e in evs[1..];
    }
  }

  /** The (start, end) a transfer-time query reports for an event slot. */
  function Seen(api: Api, slot: Option<nat>): (u64, u64)
  {
    match slot
    case None => NoTransfer
    case Some(e) => api.stamp(e)
  }

  /** The profiling queries one argument contributes to `getTotalTime`: its upload event, then its download event, each if recorded. */
  function Probes(buf: Buffer): seq<Call>
  {
    (if buf.upload.Some? then [QueryProfile(buf.upload.value)] else [])
    + (if buf.download.Some? then [QueryProfile(buf.download.value)] else [])
  }

  /** The profiling queries of `getTotalTime`'s loop, argument by argument. */
  function Queries(bufs: seq<Buffer>, args: seq<nat>): seq<Call>
    requires ValidArgs(args, bufs)
  {
    if |args| == 0 then [] else Probes(bufs[args[0]]) + Queries(bufs, args[1..])
  }

  /** The loop issues nothing but profiling queries. */
  lemma {:induction false} QueriesOnly(bufs: seq<Buffer>, args: seq<nat>)
    requires ValidArgs(args, bufs)
    ensures forall c :: c in Queries(bufs, args) ==> c.QueryProfile?
    decreases |args|
  {
    if |args| > 0 {
      assert ValidArgs(args[1..], bufs);
      QueriesOnly(bufs, args[1..]);
    }
  }

  /** `w` after one iteration of the loop, with the reported pairs `up` and `down`. */
  function Widen(w: Window, up: (u64, u64), down: (u64, u64)): Window
  {
    Window(Min(up.0, w.toStart), Max(up.1, w.toEnd), Min(down.0, w.fromStart), Max(down.1, w.fromEnd))
  }

  /** `w` widened by whole hulls. */
  function Cover(w: Window, up: (u64, u64), down: (u64, u64)): Window
  {
    Window(Min(w.toStart, up.0), Max(w.toEnd, up.1), Min(w.fromStart, down.0), Max(w.fromEnd, down.1))
  }

  /**
    What a run of profiling queries `q` started at log position `p` promises
    when it would end with the bounds `last`: it returns iff none of the
    queries fails, and then it has issued exactly `q` and ends with `last`;
    otherwise it has issued a prefix of `q` whose last call failed.
   */
  predicate Probed(api: Api, p: nat, q: seq<Call>, last: Window, r: Outcome<(), Window>)
  {
    && (r.Returned? <==> forall j :: 0 <= j < |q| ==> !FailsAt(api, p, j))
    && (r.Returned? ==> r.calls == q && r.value == last)
    && (r.Raised? ==> 0 < |r.calls| <= |q| && r.calls == q[..|r.calls|] && FailsAt(api, p, |r.calls| - 1))
    && (r.Raised? ==> r.msg == UploadProfileFailed || r.msg == DownloadProfileFailed)
  }

  /**
    One iteration of `getTotalTime`'s loop for buffer `b`: the upload query,
    then, unless it threw, the download query, each widening the bounds.
   */
  function Visit(api: Api, p: nat, bufs: seq<Buffer>, b: nat, w: Window): (r: Outcome<(), Window>)
    requires b < |bufs|
    ensures Probed(api, p, Probes(bufs[b]), Widen(w, Seen(api, bufs[b].upload), Seen(api, bufs[b].download)), r)
  {
    var up := TransferTo(api, p, bufs, b);
    if up.Raised? then
      assert FailsAt(api, p, 0);
      Raised((), up.calls, up.msg)
    else
      var down := TransferFrom(api, p + |up.calls|, bufs, b);
      VisitCalls(api, p, bufs[b], up.calls, down.calls, down.Raised?);
      if down.Raised? then Raised((), up.calls + down.calls, down.msg)
      else Returned((), up.calls + down.calls, Widen(w, up.value, down.value))
  }

  /** The calls of an iteration whose upload query succeeded are its probes, and only a throwing download query failed. */
  lemma VisitCalls(api: Api, p: nat, buf: Buffer, up: seq<Call>, down: seq<Call>, raised: bool)
    requires up == (if buf.upload.Some? then [QueryProfile(buf.upload.value)] else [])
    requires buf.upload.Some? ==> !api.fails(p)
    requires down == (if buf.download.Some? then [QueryProfile(buf.download.value)] else [])
    requires raised <==> buf.download.Some? && api.fails(p + |up|)
    ensures up + down == Probes(buf)
    ensures !raised <==> forall j :: 0 <= j < |up + down| ==> !FailsAt(api, p, j)
    ensures raised ==> FailsAt(api, p, |up + down| - 1)
  {
    if raised {
      assert FailsAt(api, p, |up|);
    } else {
      forall j | 0 <= j < |up + down|
        ensures !FailsAt(api, p, j)
      {
        if j < |up| {
          assert j == 0 && buf.upload.Some?;
        } else {
          assert j == |up| && buf.download.Some?;
        }
      }
    }
  }

  /**
    The loop of `getTotalTime` from the bounds `w` on. It ends with the bounds
    widened by the hulls of all recorded upload and all recorded download
    events.
   */
  function Sweep(api: Api, p: nat, bufs: seq<Buffer>, args: seq<nat>, w: Window): (r: Outcome<(), Window>)
    requires ValidArgs(args, bufs)
    ensures Probed(api, p, Queries(bufs, args),
                   Cover(w, Hull(api, UploadEvents(bufs, args)), Hull(api, DownloadEvents(bufs, args))), r)
    decreases |args|
  {
    if |args| == 0 then Returned((), [], w)
    else
      assert ValidArgs(args[1..], bufs);
      var buf := bufs[args[0]];
      var first := Visit(api, p, bufs, args[0], w);
      var mid := Widen(w, Seen(api, buf.upload), Seen(api, buf.download));
      var q := Queries(bufs, args[1..]);
      var last := Cover(w, Hull(api, UploadEvents(bufs, args)), Hull(api, DownloadEvents(bufs, args)));
      if first.Raised? then
        ProbedRaised(api, p, Probes(buf), q, mid, last, first);
        first
      else
        var rest := Sweep(api, p + |first.calls|, bufs, args[1..], first.value);
        SweepStepValue(api, bufs, args, w);
        assert first.value == mid;
        assert Cover(first.value, Hull(api, UploadEvents(bufs, args[1..])), Hull(api, DownloadEvents(bufs, args[1..]))) == last;
        ProbedThen(api, p, p + |first.calls|, Probes(buf), q, mid, last, first, rest);
        Then(first, rest)
  }

  /** A run that threw within `head` keeps the promise of `head` followed by anything. */
  lemma {:induction false} ProbedRaised(api: Api, p: nat, head: seq<Call>, q: seq<Call>, mid: Window, last: Window, first: Outcome<(), Window>)
    requires first.Raised? && Probed(api, p, head, mid, first)
    ensures Probed(api, p, head + q, last, first)
  {
    var j := |first.calls| - 1;
    assert (head + q)[..|first.calls|] == head[..|first.calls|];
    assert 0 <= j < |head + q| && FailsAt(api, p, j);
  }

  /** A returned run over `head` followed by a run over `q` keeps the promise of `head + q`. */
  lemma {:induction false} ProbedThen(api: Api, p: nat, p': nat, head: seq<Call>, q: seq<Call>, mid: Window, last: Window,
                                      first: Outcome<(), Window>, rest: Outcome<(), Window>)
    requires first.Returned? && Probed(api, p, head, mid, first)
    requires p' == p + |first.calls|
    requires Probed(api, p', q, last, rest)
    ensures Probed(api, p, head + q, last, Then(first, rest))
  {
    SweepStepFails(api, p, p', head, q, rest.Returned?);
    if rest.Raised? {
      SweepStepRaised(api, p, p', head, q, rest.calls);
    }
  }

  /** The later calls, started after `head`, fail exactly where the whole sequence does past `head`. */
  lemma {:induction false} SweepStepFails(api: Api, p: nat, p': nat, head: seq<Call>, q: seq<Call>, ok: bool)
    requires p' == p + |head|
    requires forall j :: 0 <= j < |head| ==> !FailsAt(api, p, j)
    requires ok <==> forall j :: 0 <= j < |q| ==> !FailsAt(api, p', j)
    ensures ok <==> forall j :: 0 <= j < |head + q| ==> !FailsAt(api, p, j)
  {
    if ok {
      forall j | 0 <= j < |head + q|
        ensures !FailsAt(api, p, j)
      {
        if j >= |head| {
          assert !FailsAt(api, p', j - |head|);
          assert p' + (j - |head|) == p + j;
        }
      }
    } else {
      var j :| 0 <= j < |q| && FailsAt(api, p', j);
      assert p' + j == p + (|head| + j);
      assert FailsAt(api, p, |head| + j);
    }
  }

  /** A throw in the later arguments leaves a prefix of the whole query sequence whose last call failed. */
  lemma {:induction false} SweepStepRaised(api: Api, p: nat, p': nat, head: seq<Call>, q: seq<Call>, c: seq<Call>)
    requires p' == p + |head|
    requires 0 < |c| <= |q| && c == q[..|c|]
    requires FailsAt(api, p', |c| - 1)
    ensures 0 < |head + c| <= |head + q| && head + c == (head + q)[..|head + c|]
    ensures FailsAt(api, p, |head + c| - 1)
  {
    assert (head + q)[..|head + c|] == head + q[..|c|];
    assert p' + (|c| - 1) == p + (|head + c| - 1);
  }

  /** The hull of one optional event in front of others. */
  lemma {:induction false} HullFront(api: Api, slot: Option<nat>, evs: seq<nat>)
    ensures var h := Hull(api, evs);
      Hull(api, (if slot.Some? then [slot.value] else []) + evs)
        == (Min(Seen(api, slot).0, h.0), Max(Seen(api, slot).1, h.1))
  {
    match slot
    case None =>
      assert [] + evs == evs;
    case Some(e) =>
      assert ([e] + evs)[1..] == evs;
  }

  /** One iteration of the loop and the hulls of the remaining arguments cover the hulls of all arguments. */
  lemma {:induction false} SweepStepValue(api: Api, bufs: seq<Buffer>, args: seq<nat>, w: Window)
    requires 0 < |args| && ValidArgs(args, bufs)
    ensures ValidArgs(args[1..], bufs)
    ensures var buf := bufs[args[0]];
      Cover(Widen(w, Seen(api, buf.upload), Seen(api, buf.download)),
            Hull(api, UploadEvents(bufs, args[1..])), Hull(api, DownloadEvents(bufs, args[1..])))
        == Cover(w, Hull(api, UploadEvents(bufs, args)), Hull(api, DownloadEvents(bufs, args)))
  {
    assert ValidArgs(args[1..], bufs);
    var buf := bufs[args[0]];
    HullFront(api, buf.upload, UploadEvents(bufs, args[1..]));
    HullFront(api, buf.download, DownloadEvents(bufs, args[1..]));
  }

  /** `getTotalTime`'s wrapping difference of an end and a start. */
  function Span(h: (u64, u64)): u64
  {
    Sub64(h.1, h.0)
  }

  /**
    The total a kernel reports when none of its profiling queries fails: the
    span of the upload hull, plus the execution time, plus the span of the
    download hull, modulo 2^64.
   */
  function Total(api: Api, k: Kernel, bufs: seq<Buffer>): u64
    requires ValidArgs(k.args, bufs)
  {
    Add64(Add64(Span(Hull(api, UploadEvents(bufs, k.args))), ExecValue(api, k)), Span(Hull(api, DownloadEvents(bufs, k.args))))
  }

  /**
    `getTotalTime`: the loop over the arguments from the sentinel bounds, then
    the execution time; the total is the upload span plus the execution time
    plus the download span, all modulo 2^64.
   */
  function TotalTime(api: Api, p: nat, k: Kernel, bufs: seq<Buffer>): (r: Outcome<Kernel, u64>)
    requires ValidArgs(k.args, bufs)
    ensures var q := Queries(bufs, k.args);
      r.Returned? <==> (forall j :: 0 <= j < |q| ==> !FailsAt(api, p, j)) && ExecutionTime(api, p + |q|, k).Returned?
    ensures var q := Queries(bufs, k.args);
      r.Returned? ==> r.calls == q + ExecutionTime(api, p + |q|, k).calls
    ensures r.Returned? ==> r.value == Total(api, k, bufs) && r.st == k.(execTime := ExecValue(api, k))
    ensures r.Raised? ==> r.st == k
    ensures forall j :: 0 <= j < |r.calls| ==> r.calls[j].QueryProfile?
    ensures r.Raised? ==> r.msg == UploadProfileFailed || r.msg == DownloadProfileFailed || r.msg == KernelProfileFailed
  {
    var s := Sweep(api, p, bufs, k.args, Initial);
    QueriesOnly(bufs, k.args);
    if s.Raised? then Raised(k, s.calls, s.msg)
    else TotalSwept(api, p, k, bufs, s.calls, s.value)
  }

  /** The rest of `getTotalTime` once the loop has run through: the execution time, then the sum. */
  function TotalSwept(api: Api, p: nat, k: Kernel, bufs: seq<Buffer>, q: seq<Call>, w: Window): (r: Outcome<Kernel, u64>)
    requires ValidArgs(k.args, bufs) && q == Queries(bufs, k.args)
    requires forall j :: 0 <= j < |q| ==> !FailsAt(api, p, j)
    requires w == Cover(Initial, Hull(api, UploadEvents(bufs, k.args)), Hull(api, DownloadEvents(bufs, k.args)))
    ensures r.Returned? <==> ExecutionTime(api, p + |q|, k).Returned?
    ensures r.Returned? ==> r.calls == q + ExecutionTime(api, p + |q|, k).calls
    ensures r.Returned? ==> r.value == Total(api, k, bufs) && r.st == k.(execTime := ExecValue(api, k))
    ensures r.Raised? ==> r.st == k && r.msg == KernelProfileFailed
    ensures forall j :: 0 <= j < |r.calls| ==> r.calls[j].QueryProfile?
  {
    QueriesOnly(bufs, k.args);
    var e := ExecutionTime(api, p + |q|, k);
    if e.Raised? then Raised(e.st, q + e.calls, e.msg)
    else
      CoverInitial(Hull(api, UploadEvents(bufs, k.args)), Hull(api, DownloadEvents(bufs, k.args)));
      Returned(e.st, q + e.calls, Add64(Add64(Sub64(w.toEnd, w.toStart), e.value), Sub64(w.fromEnd, w.fromStart)))
  }

  /** The sentinel bounds are neutral: covering hulls from them gives the hulls. */
  lemma CoverInitial(up: (u64, u64), down: (u64, u64))
    ensures Cover(Initial, up, down) == Window(up.0, up.1, down.0, down.1)
  {
  }

  /**
    With no recorded transfer in either direction, each direction's span is
    `0 - CL_ULONG_MAX` wrapped, that is 1, so the total is the execution time
    plus 2, modulo 2^64.
   */
  lemma TotalTimeNoTransfers(api: Api, p: nat, k: Kernel, bufs: seq<Buffer>)
    requires ValidArgs(k.args, bufs)
    requires forall j :: 0 <= j < |k.args| ==> bufs[k.args[j]].upload.None? && bufs[k.args[j]].download.None?
    requires TotalTime(api, p, k, bufs).Returned?
    ensures TotalTime(api, p, k, bufs).value == (ExecValue(api, k) + 2) % Modulus64
  {
    NoEvents(bufs, k.args);
  }

  lemma {:induction false} NoEvents(bufs: seq<Buffer>, args: seq<nat>)
    requires ValidArgs(args, bufs)
    requires forall j :: 0 <= j < |args| ==> bufs[args[j]].upload.None? && bufs[args[j]].download.None?
    ensures UploadEvents(bufs, args) == [] && DownloadEvents(bufs, args) == [] && Queries(bufs, args) == []
    decreases |args|
  {
    if |args| > 0 {
      assert ValidArgs(args[1..], bufs);
      assert forall j :: 0 <= j < |args[1..]| ==> args[1..][j] == args[j + 1];
      NoEvents(bufs, args[1..]);
    }
  }
}

=== FILE: vectors.dfy ===
/**
  The host-side vector helpers of `utilities.h`: the reference prefix sum,
  zero padding up to a block multiple, its removal, and the element-wise
  comparison. Elements are integers; the floating-point closeness test is a
  parameter.
 */
module Vectors {
  import opened Common

  /** The sum of a sequence, peeling its last element. */
  function Sum(s: seq<int>): int
  {
    if s == [] then 0 else Sum(s[..|s| - 1]) + s[|s| - 1]
  }

  /**
    `prefixSumCPU`: a running total pushed after each element, so entry `i` is
    the sum of the first `i + 1` elements (an inclusive scan).
   */
  method PrefixSum(v: seq<int>) returns (r: seq<int>)
    ensures |r| == |v|
    ensures forall i :: 0 <= i < |v| ==> r[i] == Sum(v[..i + 1])
  {
    r := [];
    var total := 0;
    for k := 0 to |v|
      invariant |r| == k && total == Sum(v[..k])
      invariant forall i :: 0 <= i < k ==> r[i] == Sum(v[..i + 1])
    {
      assert v[..k + 1][..k] == v[..k];
      total := total + v[k];
      r := r + [total];
    }
  }

  /** The scan starts with the first element and adds one element per step. */
  lemma PrefixSumSteps(v: seq<int>, r: seq<int>)
    requires |r| == |v|
    requires forall i :: 0 <= i < |v| ==> r[i] == Sum(v[..i + 1])
    ensures |v| > 0 ==> r[0] == v[0]
    ensures forall i :: 0 < i < |v| ==> r[i] == r[i - 1] + v[i]
  {
    if |v| > 0 {
      assert v[..1][..0] == [];
      assert Sum(v[..1]) == v[0];
    }
    forall i | 0 < i < |v|
      ensures r[i] == r[i - 1] + v[i]
    {
      assert v[..i + 1][..i] == v[..i];
    }
  }

  /**
    `make_zero_padding(v, pad)`: a vector of `|v| + pad` value-initialised
    elements with `v` copied to its front.
   */
  function ZeroPad(v: seq<int>, pad: u32): (r: seq<int>)
    ensures |r| == |v| + pad
    ensures r[..|v|] == v
    ensures forall i :: |v| <= i < |r| ==> r[i] == 0
  {
    v + seq(pad, _ => 0)
  }

  /** The error of a `remove_padding` whose size subtraction wrapped below zero. */
  const LengthError := "cannot create std::vector larger than max_size()"

  /**
    `remove_padding(v, pad)`: a vector of `|v| - pad` elements copied from the
    front of `v`. The subtraction is `std::size_t`, so a pad longer than the
    vector wraps to a length no vector can have, and the constructor throws.
   */
  function RemovePadding(v: seq<int>, pad: u32): (r: Result<seq<int>>)
    requires |v| < Modulus64
    ensures r.Success? <==> pad <= |v|
    ensures r.Success? ==> |r.value| == |v| - pad && r.value == v[..|r.value|]
    ensures r.Failure? ==> Sub64(|v|, pad) >= Modulus64 - Modulus32
  {
    var size := Sub64(|v|, pad);
    if size <= |v| then Success(v[..size]) else Failure(LengthError)
  }

  /** Padding then removing the same pad gives the vector back. */
  lemma PaddingRoundTrip(v: seq<int>, pad: u32)
    requires |v| + pad < Modulus64
    ensures RemovePadding(ZeroPad(v, pad), pad) == Success(v)
  {
  }

  /**
    `compareVectors`: false when the sizes differ, otherwise the first element
    pair that is not close stops the scan with false.
   */
  method CompareVectors<T>(a: seq<T>, b: seq<T>, close: (T, T) -> bool) returns (equal: bool)
    ensures equal <==> |a| == |b| && forall i :: 0 <= i < |a| ==> close(a[i], b[i])
  {
    if |a| != |b| {
      return false;
    }
    equal := true;
    var i := 0;
    while i < |a|
      invariant i <= |a|
      invariant forall k :: 0 <= k < i ==> close(a[k], b[k])
    {
      if !close(a[i], b[i]) {
        equal := false;
        break;
      }
      i := i + 1;
    }
  }
}
